=== FILE: README.md ===
# signalradio, modelled in Dafny

Signal Radio is a single-station web radio. The browser works out which
track of a looping playlist is "on air" from a broadcast start time and
plays it at the right offset. A companion Node script moves the playlist's
audio files to a media host. This project models the logic of both and
proves properties of it:

- **stream_sync.dfy** (`StreamSync`) models `getStreamSync`. It covers the
  playlist validation, the total length, the wrap into one loop of the
  playlist, the cumulative walk to the active track, and the fallback branch.
- **audio_player.dfy** (`AudioPlayer`) models the playback controller
  `useAudioPlayer`. It is a state record plus one transition per entry point:
  - the sync-target effect, which handles a track change or a resync;
  - the `loadedmetadata` continuation;
  - the toggle;
  - the volume setter;
  - the five media-event handlers.

  The outcome of `play()` is a parameter. The transport calls are returned
  as commands.
- **audio_visualizer.dfy** (`AudioVisualizer`) models the spectrum sampler:
  - bucket downsampling with low-end weighting;
  - smoothing;
  - the inactive decay and the 33 ms throttle;
  - the per-element graph registry;
  - the effect that starts the frame loop.
- **firebase_sync.dfy** (`FirebaseSync`) covers:
  - the seconds/milliseconds heuristic;
  - parsing of the broadcast start value by kind;
  - the outcome of `loadBroadcastStart`, as a pure function of the
    configuration, the fetch result and cancellation;
  - the snapshot memo.
- **player_view.dfy** (`PlayerView`) models the main view:
  - the `mm:ss` clock with JavaScript's signed remainder;
  - the progress ratio;
  - the projection from snapshot to sync target;
  - the values the view renders.
- **migrate_env.dfy** (`MigrateEnv`), from the migration script, covers:
  - the command-line flag parser;
  - the `.env` reader and the layering of env files and the process
    environment;
  - `parseBoolean` and `parseInteger`;
  - `buildConfig`.
- **migrate_upload.dfy** (`MigrateUpload`) covers:
  - the retry status rule, the backoff and the whole `fetchWithRetry` loop,
    over a given sequence of replies;
  - the canonical parameter string that gets signed.
- **migrate_playlist.dfy** (`MigratePlaylist`) covers:
  - `rebuildPlaylistSource` and a reader of the entries it writes;
  - the track-selection pipeline;
  - the per-track migration loop.
- **text.dfy** (`Text`) and **wrappers.dfy** (`Wrappers`) hold the string
  built-ins the code relies on (`trim`, `split`, `join`, `indexOf`,
  `lastIndexOf`, `toLowerCase`, `padStart`, number printing) and the
  `Option`/`Result` types.

Engine built-ins that the code treats as opaque are parameters:

| Built-in | Modelled as |
|---|---|
| `Number(s)` | the oracle `numberOf` |
| `Number.parseInt` | the oracle `parseInt`, returning an integer or NaN |
| `JSON.stringify` | the oracle `stringify` |
| `JSON.parse` | the oracle `parseJson` |
| the `fetch` replies | the function `respond`, from attempt number to reply |
| the `play()` settlement | a `PlayOutcome` |
| the Firestore read | a `Fetch` value |
| the Web Audio capability | a `Capability` value |

Clocks are `nowMs` and `timestamp` parameters.

The model follows the code as written. Three places where the code
evidently defeats its own intent are listed under Findings. For each, the
code as written is modelled and the defect exhibited, and the rest of the
model uses the corrected definition (`MigrateEnv.ReadConfig` and
`AudioVisualizer.StartEffect`; see "Left out"). Two further behaviours of
the code are worth knowing:

- Turning playback off pauses the element, but `isBuffering` stays set
  until the element's `pause` event clears it
  (`AudioPlayer.ToggleOnOffWaitsForPauseEvent`).
- The "Firestore is not available" message can never be shown: the
  database handle exists whenever the settings are complete (see
  `FirebaseSync.SourceMatchesConfiguration`).

## Model

| member | source | states |
|---|---|---|
| StreamSync.CumStartMonotone | src/features/stream/get_stream_sync.ts:47-63 | a later track starts no earlier than the end of an earlier one, when every duration is positive |
| StreamSync.TotalDuration | src/features/stream/get_stream_sync.ts:33-39 | the sum succeeds iff every duration is positive, and then equals the sum of all durations; otherwise the error names the first track with a non-positive duration |
| StreamSync.NormalizePlaylistElapsed | src/features/stream/get_stream_sync.ts:9-22 | the result is 0 for a negative elapsed time or a non-positive total; otherwise it lies in [0, total) and differs from the raw time by a multiple of the total |
| StreamSync.Walk | src/features/stream/get_stream_sync.ts:47-66 | from a cursor at a track's start, the track found is the one whose span [start, start+duration) holds the elapsed time, and the offset is measured from that start; below the sum a track is always found |
| StreamSync.Locate | src/features/stream/get_stream_sync.ts:47-78 | the index returned is a valid index of the playlist, including through the fallback |
| StreamSync.GetStreamSync | src/features/stream/get_stream_sync.ts:24-79 | an empty playlist is an error; a non-empty one resolves iff every duration is positive; the error names the first bad track; the active track is the playlist entry at the returned index |
| StreamSync.ResolveSound | src/features/stream/get_stream_sync.ts:24-79 | a resolved snapshot has total = sum of durations, elapsed normalised into [0, total), the index whose span holds the elapsed time, offset = elapsed − start of that track, 0 ≤ offset < duration, and both input times copied |
| StreamSync.TrackSpanUnique | src/features/stream/get_stream_sync.ts:47-63 | at most one track's span holds a given elapsed time, so the index is determined by it |
| StreamSync.FallbackUnreachable | src/features/stream/get_stream_sync.ts:68-78 | with positive durations the walk always finds a track, so the last-track fallback never runs |
| StreamSync.BeforeStartIsFirstTrack | src/features/stream/get_stream_sync.ts:17-19 | a listener clock before the broadcast start gives track 0 at offset 0 with elapsed 0, the same as at the start itself |
| StreamSync.Looping | src/features/stream/get_stream_sync.ts:21 | for now ≥ start, shifting now by k whole playlist loops (1000·k·total ms) changes neither index, track, offset nor elapsed |
| StreamSync.ExampleMidSecondTrack | src/features/stream/get_stream_sync.ts:41-63 | on [a:10, b:20] at 15 000 ms the active track is b at offset 5, elapsed 15 of 30 |
| StreamSync.ExampleWrapsAround | src/features/stream/get_stream_sync.ts:41-45 | on the same playlist at 35 000 ms the loop has wrapped: track a at offset 5 |
| AudioPlayer.ClampVolume | src/hooks/use_audio_player.ts:27 | the volume lies in [0, 1], is unchanged inside it, and saturates at 0 below and 1 above |
| AudioPlayer.Initial | src/hooks/use_audio_player.ts:44-57 | on mount nothing is requested, buffering or in error, no track is active, and the volume is 0.8, which the volume effect has already copied to the element if there is one |
| AudioPlayer.ClampOffset | src/hooks/use_audio_player.ts:29-37 | the offset is ≥ 0; without a positive duration it is the offset floored at 0; with one it is at most max(duration − 0.25, 0) and unchanged when already inside |
| AudioPlayer.ClampOffsetExample | src/hooks/use_audio_player.ts:36 | offset 9.9 in a 10 s track seeks to 9.75 |
| AudioPlayer.Unloaded | src/hooks/use_audio_player.ts:99-103 | setting the source and calling `load()` leaves the element with the new source, its volume, readyState 0, position 0 and no finite duration |
| AudioPlayer.ApplyTarget | src/hooks/use_audio_player.ts:59-119 | no element or no target changes nothing and issues nothing; a different track records its id, sets the source and loads it, which empties the element (readyState 0, position 0, no duration), and leaves a pending metadata continuation; the same track seeks to the clamped offset only when readyState ≥ 1 and the drift exceeds 1.25 s; every run drops an earlier pending continuation |
| AudioPlayer.AttemptPlay | src/hooks/use_audio_player.ts:75-88 | a play is issued; a started play leaves buffering set and the error cleared; a rejection clears intent and buffering and records the rejection's message, or the autoplay message for a non-Error |
| AudioPlayer.MaybeResume | src/hooks/use_audio_player.ts:70-89 | nothing happens unless playback is requested; otherwise it is the same attempt as the toggle's |
| AudioPlayer.OnLoadedMetadata | src/hooks/use_audio_player.ts:97-102 | a pending continuation seeks to the clamped offset of its target, then resumes exactly when requested; with none pending nothing changes |
| AudioPlayer.Toggle | src/hooks/use_audio_player.ts:121-156 | while requested, intent becomes false, a pause is issued and buffering and the error are left alone; otherwise intent becomes true and the error is cleared, stopping there without an element or a target, and attempting a play otherwise |
| AudioPlayer.SetVolume | src/hooks/use_audio_player.ts:49-57 | the stored volume is the clamped value, pushed to the element when there is one; nothing else changes |
| AudioPlayer.OnEvent | src/hooks/use_audio_player.ts:162-183 | `playing`, `pause`, `canplay` and `error` clear buffering; `waiting` sets it only while requested; `error` sets the fixed media message; intent is never changed |
| AudioPlayer.TransitionsPreserveValid | src/hooks/use_audio_player.ts:39-199 | every transition keeps the volume in [0, 1], and a pending metadata continuation only exists with an element and for the track being loaded |
| AudioPlayer.TrackChangeThenMetadata | src/hooks/use_audio_player.ts:91-103 | a track change loads the target's source; its metadata then seeks to the clamped offset, and a play follows iff playback was requested |
| AudioPlayer.RerenderDropsPendingResume | src/hooks/use_audio_player.ts:103-116 | a second render of the same target before the metadata arrives issues nothing, since the reloaded element has no metadata to resync against, and removes the continuation: the metadata then neither seeks nor plays |
| AudioPlayer.ToggleOffOn | src/hooks/use_audio_player.ts:124-155 | off-then-on issues pause then play and restores the intent |
| AudioPlayer.ToggleOnOffWaitsForPauseEvent | src/hooks/use_audio_player.ts:124-168 | on-then-off leaves buffering set until the `pause` event clears it |
| AudioPlayer.RejectedToggleIsNotRetried | src/hooks/use_audio_player.ts:143-155 | a rejected play issues one play, no retry, and leaves nothing requested or buffering with an error shown |
| AudioPlayer.ResyncScenario | src/hooks/use_audio_player.ts:110-116 | a same-track target within 1.25 s of the position does not seek; a different track loads |
| AudioVisualizer.EmptySamples | src/hooks/use_audio_visualizer.ts:19 | the initial vector is 48 zeros |
| AudioVisualizer.DownsampleFrequencyData | src/hooks/use_audio_visualizer.ts:23-48 | the loop returns sampleCount values, equal to the bucket-wise reference definition, all in [0, 1] |
| AudioVisualizer.SampleBucket | src/hooks/use_audio_visualizer.ts:28-44 | one pass of the outer loop computes the reference bucket value, which lies in [0, 1] |
| AudioVisualizer.SumBins | src/hooks/use_audio_visualizer.ts:31-37 | the inner loop's total and count are the sum and the size of the bucket's range |
| AudioVisualizer.BucketValueInUnit | src/hooks/use_audio_visualizer.ts:39-44 | each weighted, normalised bucket average lies in [0, 1] |
| AudioVisualizer.BucketsTile | src/hooks/use_audio_visualizer.ts:25-29 | buckets start at 0, each ends where the next starts, and the last ends at the data length |
| AudioVisualizer.BinInBucket | src/hooks/use_audio_visualizer.ts:25-29 | every bin lies in exactly the bucket given by its index divided by the bucket width (the last bucket taking the remainder) |
| AudioVisualizer.EmptyBucketIsZero | src/hooks/use_audio_visualizer.ts:39 | a bucket with no bins yields 0 |
| AudioVisualizer.WeightShape | src/hooks/use_audio_visualizer.ts:43 | the weight is 1.35 at index 0, strictly decreasing, and 1 + 0.35/count (not 1) at the last index |
| AudioVisualizer.WeightAboveOne | src/hooks/use_audio_visualizer.ts:43 | every weight exceeds 1 |
| AudioVisualizer.Smooth | src/hooks/use_audio_visualizer.ts:50-55 | the output has the length of the new vector; each value is 0.72·previous + 0.28·new, with a missing previous value read as 0 |
| AudioVisualizer.SmoothInUnit | src/hooks/use_audio_visualizer.ts:50-55 | smoothing two vectors in [0, 1] stays in [0, 1] and between the two inputs |
| AudioVisualizer.SmoothSteady | src/hooks/use_audio_visualizer.ts:50-55 | smoothing a vector with itself returns it |
| AudioVisualizer.Decay | src/hooks/use_audio_visualizer.ts:128-133 | a decay happens iff some value exceeds 0.03, and then every value is multiplied by 0.88 |
| AudioVisualizer.DecayShrinks | src/hooks/use_audio_visualizer.ts:128-133 | decay keeps [0, 1], never increases a value and strictly lowers every positive one |
| AudioVisualizer.RenderFrame | src/hooks/use_audio_visualizer.ts:121-150 | inactive frames decay or do nothing and keep the render time; active frames within 33 ms of the last render do nothing; later ones record the time and publish the smoothed vector |
| AudioVisualizer.RenderFramePreservesShape | src/hooks/use_audio_visualizer.ts:121-150 | every frame keeps the loop's vector at 48 values in [0, 1] |
| AudioVisualizer.GetOrCreateGraph | src/hooks/use_audio_visualizer.ts:57-90 | a registered graph is returned unchanged; otherwise a successful build is registered and returned, and a missing or failing build returns none without registering |
| AudioVisualizer.GraphCacheStable | src/hooks/use_audio_visualizer.ts:57-90 | once registered, the same graph is returned for that element whatever later lookups and environments happen; the registry only grows |
| AudioVisualizer.StartEffect | src/hooks/use_audio_visualizer.ts:99-118 | no element stops the loop; no graph gives non-reactive and 48 zeros; a graph gives reactive and a loop; this is the corrected restart, which continues from the published vector and otherwise equals the effect as written (`StartEffectAsWritten`, which seeds zeros) |
| AudioVisualizer.Frame | src/hooks/use_audio_visualizer.ts:121-150 | a frame changes neither the registry nor reactivity and keeps a running loop running |
| AudioVisualizer.SamplerStaysValid | src/hooks/use_audio_visualizer.ts:96-158 | starting the effect and running frames keep both vectors at 48 values in [0, 1] |
| AudioVisualizer.NoCapabilityFallsBack | src/hooks/use_audio_visualizer.ts:57-112 | with no AudioContext, or a build that throws, the sampler is non-reactive with 48 zeros |
| FirebaseSync.Trunc | src/hooks/use_firebase_sync.ts:43 | truncation toward zero: the integer part, for either sign |
| FirebaseSync.NormalizeTimestampToMs | src/hooks/use_firebase_sync.ts:41-47 | above 10^12 the value is truncated as milliseconds; otherwise it is read as seconds and truncated after multiplying by 1000 |
| FirebaseSync.MillisecondsKept | src/hooks/use_firebase_sync.ts:42-43 | a whole millisecond count above 10^12 is returned unchanged |
| FirebaseSync.SecondsScaled | src/hooks/use_firebase_sync.ts:46 | a whole second count up to 10^12 becomes that many thousand milliseconds |
| FirebaseSync.NormalizeStable | src/hooks/use_firebase_sync.ts:41-47 | normalising a result already above the threshold gives it back |
| FirebaseSync.ThresholdReadAsSeconds | src/hooks/use_firebase_sync.ts:42 | exactly 10^12 is read as seconds |
| FirebaseSync.ParseBroadcastStartMs | src/hooks/use_firebase_sync.ts:49-67 | timestamp-like values give the normalised `toMillis()`; numbers are accepted iff finite; strings iff non-blank and numerically finite, then normalised; anything else is none |
| FirebaseSync.ParseRendered | src/hooks/use_firebase_sync.ts:58-63 | a decimal string of n reads back as n milliseconds above the threshold and n seconds at or below it |
| FirebaseSync.BlankIsNotAStart | src/hooks/use_firebase_sync.ts:58 | a blank string is never a start time |
| FirebaseSync.LoadBroadcastStart | src/hooks/use_firebase_sync.ts:77-158 | after cancellation only the initial writes happen; unconfigured, a non-empty demo value that parses becomes the start with source demo and fetch time now, and anything else fails with the missing-config message; configured, a missing document fails with the document-not-found message, an unreadable field with the invalid-start message, a failed read with its own message or the generic one, and a readable field gives the Firestore start at fetch time now; every failure clears the start and the source |
| FirebaseSync.LoadSettles | src/hooks/use_firebase_sync.ts:87-150 | a settled load has a start time iff its source is not "unconfigured", an error iff there is no start time, and records the fetch time exactly on success |
| FirebaseSync.SourceMatchesConfiguration | src/hooks/use_firebase_sync.ts:87-113 | the demo source is used only unconfigured, Firestore only configured, and an unconfigured failure always shows the missing-config message |
| FirebaseSync.FirestoreWins | src/hooks/use_firebase_sync.ts:116-140 | configured and a readable field: the start is that field's value, with source Firestore and the fetch time now |
| FirebaseSync.SyncSnapshot | src/hooks/use_firebase_sync.ts:176-186 | there is a snapshot iff there is a start time; it is the stream position `getStreamSync` gives for that start, the clock and the playlist, and a resolved one satisfies the resolver's whole contract (`StreamSync.Resolved`) |
| FirebaseSync.LoadedSnapshot | src/hooks/use_firebase_sync.ts:87-186 | after a settled load there is a snapshot iff the source is demo or Firestore, and a resolved snapshot is the resolver's answer for the loaded start time |
| FirebaseSync.DemoStart | src/hooks/use_firebase_sync.ts:85-90 | only a present, non-empty demo value is parsed, and its parse is the demo start |
| PlayerView.JsRem | src/features/ui/view_player_main.tsx:11 | JavaScript's remainder: in [0, 60) for a non-negative time and in (−60, 0] for a negative one |
| PlayerView.FormatClockShape | src/features/ui/view_player_main.tsx:9-13 | for t ≥ 0 the label is two or more minute digits worth ⌊t/60⌋, a colon, and two second digits worth t mod 60; below 6000 s it is 5 characters |
| PlayerView.ClockRoundTrip | src/features/ui/view_player_main.tsx:9-13 | reading a label back as minutes·60 + seconds gives the time it was made from |
| PlayerView.NegativeClock | src/features/ui/view_player_main.tsx:10-12 | −5 s shows as `-1:-5`: floored minutes and a signed remainder |
| PlayerView.ProgressRatio | src/features/ui/view_player_main.tsx:31-34 | the ratio lies in [0, 1], is 0 without a positive duration, and saturates at 0 before the track and 1 past its end |
| PlayerView.RatioFillsOffset | src/features/ui/view_player_main.tsx:33-34 | inside the track the ratio times the duration is the offset |
| PlayerView.SyncTargetOf | src/features/ui/view_player_main.tsx:18-25 | no target iff no snapshot; the target copies the active track's id and URL and the snapshot's offset |
| PlayerView.Shown | src/features/ui/view_player_main.tsx:128-130 | a message is shown iff present and non-empty |
| PlayerView.RenderPlayerMain | src/features/ui/view_player_main.tsx:15-37 | live iff there is a snapshot; controls disabled iff no target; the disc spins iff requested and not buffering; the visualizer is active iff spinning and reactive; the bar lies in [0, 1] |
| PlayerView.AwaitingView | src/features/ui/view_player_main.tsx:35-37 | without a snapshot: not live, disabled, `Awaiting Sync` and `--:--` labels, empty bar |
| PlayerView.SnapshotView | src/features/ui/view_player_main.tsx:31-37 | with a snapshot inside its track: live, its title, labels reading back as offset and duration, bar below 1 |
| PlayerView.ResolvedView | src/features/ui/view_player_main.tsx:18-37 | a snapshot resolved from a playlist shows the on-air track and hands the player its id, URL and offset |
| MigrateEnv.JsMax | scripts/migrate_playlist_to_cloudinary.mjs:191 | `Math.max` with a possibly-NaN argument: NaN in, NaN out; otherwise the larger value |
| MigrateEnv.OnlyIdsOfPieces | scripts/migrate_playlist_to_cloudinary.mjs:51-58 | `--only` yields exactly the set of its comma-separated pieces when they are trimmed and non-empty |
| MigrateEnv.OnlyIdsOfJoined | scripts/migrate_playlist_to_cloudinary.mjs:51-58 | joining ids with commas and parsing them back gives the set of those ids |
| MigrateEnv.OnlyIdsOfPadded | scripts/migrate_playlist_to_cloudinary.mjs:51-58 | for pieces that are ids or nothing, padded with whitespace on either side, `--only=` reads exactly the non-empty ids with the padding trimmed; blank pieces are dropped |
| MigrateEnv.PaddedPiece | scripts/migrate_playlist_to_cloudinary.mjs:51-58 | trimming one `--only=` piece that is a word padded with whitespace gives back the word |
| MigrateEnv.OnlyIdsExample | scripts/migrate_playlist_to_cloudinary.mjs:51-58 | `--only= a ,,b ` reads the ids `a` and `b` |
| MigrateEnv.ApplyArg | scripts/migrate_playlist_to_cloudinary.mjs:35-92 | an argument fails iff it is not a known flag, with the `Unknown argument:` message; `--dry-run` sets only dry-run; `--no-overwrite` clears only overwrite; each valued form (`--limit=`, `--start-index=`, `--only=`, `--folder=`, `--playlist=`, `--manifest=`, `--max-retries=`, `--skip-uploaded=`) sets exactly its own flag from the text after the prefix, through `parseInt`, `OnlyIds` or the lower-cased `true` test as the form requires, and changes nothing else |
| MigrateEnv.ArgFormsDisjoint | scripts/migrate_playlist_to_cloudinary.mjs:35-92 | an argument with one valued prefix starts with none of the others and is neither switch, so the order of the tests does not change which flag it sets |
| MigrateEnv.ParseArgs | scripts/migrate_playlist_to_cloudinary.mjs:21-96 | parsing fails iff some argument is unknown; dry-run iff `--dry-run` occurs; overwrite iff `--no-overwrite` does not |
| MigrateEnv.ParseArgsSnoc | scripts/migrate_playlist_to_cloudinary.mjs:35-92 | the argument loop over a list with one more argument is the loop over the list, then that argument applied to its flags |
| MigrateEnv.LimitArg | scripts/migrate_playlist_to_cloudinary.mjs:41-44 | `--limit=` sets only the limit, to `parseInt` of the rest |
| MigrateEnv.MaxRetriesArg | scripts/migrate_playlist_to_cloudinary.mjs:77-80 | `--max-retries=` sets only the retry flag, to `parseInt` of the rest, since it starts with none of the prefixes the loop compares first |
| MigrateEnv.LastValueFlagWins | scripts/migrate_playlist_to_cloudinary.mjs:35-92 | a later `--limit=` or `--max-retries=` overrides every earlier one and leaves all other flags unchanged |
| MigrateEnv.SkipUploadedFlag | scripts/migrate_playlist_to_cloudinary.mjs:87-89 | `--skip-uploaded=v` sets the flag to whether v lower-cased is `true` |
| MigrateEnv.StripQuotes | scripts/migrate_playlist_to_cloudinary.mjs:117-122 | a value wrapped in matching quotes loses exactly one character at each end; others are unchanged |
| MigrateEnv.ParseDotEnvLine | scripts/migrate_playlist_to_cloudinary.mjs:101-115 | a line yields an entry iff, trimmed, it is non-empty, does not start with `#` and contains `=` |
| MigrateEnv.DotEnvLineSplit | scripts/migrate_playlist_to_cloudinary.mjs:108-124 | the key is the trimmed text before the first `=`, the value the trimmed and unquoted text after it |
| MigrateEnv.QuotedLineRoundTrip | scripts/migrate_playlist_to_cloudinary.mjs:98-128 | `KEY="value"` reads back as (KEY, value) |
| MigrateEnv.LineKeys | scripts/migrate_playlist_to_cloudinary.mjs:98-128 | a key is in the parsed file iff some line sets it |
| MigrateEnv.LastLineWins | scripts/migrate_playlist_to_cloudinary.mjs:124 | a later line setting a key overrides earlier ones: the value is the last setter's |
| MigrateEnv.FileKeys | scripts/migrate_playlist_to_cloudinary.mjs:130-143 | a key is in the merged files iff some present file sets it |
| MigrateEnv.LastFileWins | scripts/migrate_playlist_to_cloudinary.mjs:139 | the value of a key comes from the last file that sets it |
| MigrateEnv.EnvPrecedence | scripts/migrate_playlist_to_cloudinary.mjs:179-182 | the process environment overrides the env files; otherwise the last file wins |
| MigrateEnv.ParseBoolean | scripts/migrate_playlist_to_cloudinary.mjs:145-161 | absent or empty gives the fallback; trimmed and lower-cased, {1,true,yes,y} is true and {0,false,no,n} false; anything else is the fallback |
| MigrateEnv.BooleanWords | scripts/migrate_playlist_to_cloudinary.mjs:150-157 | ` YES ` reads as true and `False` as false, whatever the surrounding blanks |
| MigrateEnv.ParseInteger | scripts/migrate_playlist_to_cloudinary.mjs:163-170 | absent or empty gives the fallback; a parse to an integer gives it; NaN gives the fallback |
| MigrateEnv.MaxRetries | scripts/migrate_playlist_to_cloudinary.mjs:191 | the corrected retry budget is at least 1, takes a readable flag ≥ 1, and falls back to the environment's value |
| MigrateEnv.MaxRetriesAgree | scripts/migrate_playlist_to_cloudinary.mjs:191 | whenever the written budget is a number it equals the corrected one |
| MigrateEnv.MissingCredential | scripts/migrate_playlist_to_cloudinary.mjs:201-211 | no credential is missing iff all three are non-blank; the cloud name is reported first |
| MigrateEnv.ReadConfig | scripts/migrate_playlist_to_cloudinary.mjs:184-199 | credentials come from the environment; startIndex ≥ 0 unless NaN; dry-run, overwrite, `--only` and the limit are copied from the flags; the folder, playlist file and manifest file are the flag if given, else the environment's value, else the default; skip-uploaded is the flag if given, else `parseBoolean` of the environment's value with fallback true; the retry budget is the corrected one (≥ 1) and equals the source's budget whenever that is a number |
| MigrateEnv.Setting | scripts/migrate_playlist_to_cloudinary.mjs:188-190 | `flag ?? env[key] ?? fallback`: the flag when given, else the environment's value when set, else the fallback |
| MigrateEnv.BuildConfig | scripts/migrate_playlist_to_cloudinary.mjs:172-214 | fails iff not a dry run and a credential is blank, with the `Missing …` message for the first one; a success outside dry run has all three credentials non-blank; the settings are those of `ReadConfig`, so the retry budget is the corrected one |
| MigrateUpload.BackoffDoubles | scripts/migrate_playlist_to_cloudinary.mjs:303 | each wait is twice the previous one, starting at 750 ms |
| MigrateUpload.Reason | scripts/migrate_playlist_to_cloudinary.mjs:283-286 | the failure reason begins with the context and `failed with HTTP` |
| MigrateUpload.CorrectedVerdict | scripts/migrate_playlist_to_cloudinary.mjs:279-300 | a success is delivered; a non-retryable failure gives up at once with the reason; a retry only happens before the last attempt |
| MigrateUpload.RunFrom | scripts/migrate_playlist_to_cloudinary.mjs:275-306 | the attempts stay within the budget; the waits are the backoffs of the attempts made; delivery iff the last reply was ok; every earlier reply failed |
| MigrateUpload.Run | scripts/migrate_playlist_to_cloudinary.mjs:272-308 | a budget below 1 makes no attempt and fails with `<context> failed`; otherwise 1..budget attempts with waits 750·2^i |
| MigrateUpload.FirstOk | scripts/migrate_playlist_to_cloudinary.mjs:279-281 | the first ok reply in the window, or none |
| MigrateUpload.CorrectedStopsAtFinalStatus | scripts/migrate_playlist_to_cloudinary.mjs:288-289 | a non-retryable first reply ends the corrected loop after one attempt with its reason |
| MigrateUpload.CorrectedNoLonger | scripts/migrate_playlist_to_cloudinary.mjs:272-308 | the corrected loop never makes more attempts than the written one |
| MigrateUpload.CorrectedAgreesOnRetryable | scripts/migrate_playlist_to_cloudinary.mjs:288-300 | when every failure is retryable the two loops behave identically |
| MigrateUpload.LoopBound | scripts/migrate_playlist_to_cloudinary.mjs:275 | a NaN budget runs the loop zero times; a number runs it that many |
| MigrateUpload.KeptParams | scripts/migrate_playlist_to_cloudinary.mjs:260 | exactly the present, non-empty parameters are kept |
| MigrateUpload.KeyBeforeTransitive | scripts/migrate_playlist_to_cloudinary.mjs:261 | the key order is transitive (and, by its neighbours, irreflexive and total) |
| MigrateUpload.SortByKey | scripts/migrate_playlist_to_cloudinary.mjs:261 | the sort returns a key-ordered permutation of its input |
| MigrateUpload.CanonicalParams | scripts/migrate_playlist_to_cloudinary.mjs:259-261 | the canonical list is key-ordered, contains only kept parameters, and is a permutation of them |
| MigrateUpload.CanonicalContents | scripts/migrate_playlist_to_cloudinary.mjs:259-261 | a parameter appears in the canonical list iff it was given and kept |
| MigrateUpload.SigningInput | scripts/migrate_playlist_to_cloudinary.mjs:266 | the hashed text ends with the secret |
| MigrateUpload.StrictlySortedUnique | scripts/migrate_playlist_to_cloudinary.mjs:261 | two strictly key-ordered lists with the same elements are equal |
| MigrateUpload.CanonicalOrderIndependent | scripts/migrate_playlist_to_cloudinary.mjs:259-263 | with distinct keys, the canonical string does not depend on the order the parameters were given in |
| MigratePlaylist.EntryLines | scripts/migrate_playlist_to_cloudinary.mjs:244-251 | each track is written as six lines |
| MigratePlaylist.RebuildPlaylistSource | scripts/migrate_playlist_to_cloudinary.mjs:231-256 | fails iff a marker is missing or the last end marker is not after the start marker, with the fixed message; otherwise the text through the start marker, the entries and the text from the last end marker |
| MigratePlaylist.MarkersAround | scripts/migrate_playlist_to_cloudinary.mjs:232-240 | the rebuilt text still has the start marker at the same place and the last end marker right after the entries |
| MigratePlaylist.LastRebuildWins | scripts/migrate_playlist_to_cloudinary.mjs:491 | rebuilding a rebuilt file equals rebuilding the original with the new tracks |
| MigratePlaylist.RebuildIdempotent | scripts/migrate_playlist_to_cloudinary.mjs:231-256 | rebuilding with the same tracks again changes nothing |
| MigratePlaylist.Field | scripts/migrate_playlist_to_cloudinary.mjs:17 | a field read from a line is exactly what lies between its prefix and suffix |
| MigratePlaylist.EntryRoundTrip | scripts/migrate_playlist_to_cloudinary.mjs:216-256 | an entry written for a track reads back as that track |
| MigratePlaylist.NoBreakInLine | scripts/migrate_playlist_to_cloudinary.mjs:244-251 | no written line holds a line break when the fields have none |
| MigratePlaylist.Filter | scripts/migrate_playlist_to_cloudinary.mjs:405-416 | the filter keeps an order-preserving subsequence holding exactly the elements that pass |
| MigratePlaylist.FilterTwice | scripts/migrate_playlist_to_cloudinary.mjs:405-416 | two filters in a row equal one filter on the conjunction |
| MigratePlaylist.SubsequenceTransitive | scripts/migrate_playlist_to_cloudinary.mjs:403-421 | a subsequence of a subsequence is a subsequence |
| MigratePlaylist.Start | scripts/migrate_playlist_to_cloudinary.mjs:404 | `slice(startIndex)` starts inside the list, at the index when in range and at 0 for NaN |
| MigratePlaylist.LimitCount | scripts/migrate_playlist_to_cloudinary.mjs:418-421 | a numeric limit caps the selection at max(0, limit); NaN or absent does not cap |
| MigratePlaylist.SelectTracks | scripts/migrate_playlist_to_cloudinary.mjs:403-421 | the selection is an order-preserving subsequence of the tracks from the start index, each chosen by `--only` and not already uploaded when skipping, and no longer than the limit; its exact value is given by `SelectionWithoutLimit` and `SelectionWithLimit` |
| MigratePlaylist.SelectionWithoutLimit | scripts/migrate_playlist_to_cloudinary.mjs:403-421 | without a limit the selection is the single filter of both conditions over the tail |
| MigratePlaylist.SelectionWithLimit | scripts/migrate_playlist_to_cloudinary.mjs:403-421 | under a finite limit the selection is the first `max(0, limit)` tracks of that single filter, or all of them when fewer pass |
| MigratePlaylist.EmptyOnlySelectsNothing | scripts/migrate_playlist_to_cloudinary.mjs:405 | an empty `--only` set selects nothing |
| MigratePlaylist.ActionFor | scripts/migrate_playlist_to_cloudinary.mjs:450-459 | a dry run previews every track; otherwise Drive URLs migrate and others are skipped |
| MigratePlaylist.FindIndex | scripts/migrate_playlist_to_cloudinary.mjs:470 | the first index carrying the id, or none when no track has it |
| MigratePlaylist.ReplaceSource | scripts/migrate_playlist_to_cloudinary.mjs:470-479 | fails iff no track has the id, with the `disappeared during migration` message; otherwise the FIRST track with the id takes the new URL, as `findIndex` finds it, and every other track is unchanged |
| MigratePlaylist.Visit | scripts/migrate_playlist_to_cloudinary.mjs:446-507 | a dry run changes nothing; otherwise uploaded + skipped + failed grows by exactly one; an upload is counted iff the action is migrate, the transfer succeeded, the id is in the list and the playlist text's markers can be located; an upload rewrites the list exactly as `ReplaceSource` does with the secure URL and replaces the text by the rebuild of that list; a text whose markers cannot be found fails the track with the locate message while the list keeps the rewrite; with locatable markers a track not uploaded leaves the list unchanged |
| MigratePlaylist.MigrateAll | scripts/migrate_playlist_to_cloudinary.mjs:446-508 | outside dry run, uploaded + skipped + failed grows by the number of selected tracks; ids and length are kept; the upload count never falls; without an upload the text is unchanged (and with locatable markers so is the list); after any upload the final text is the rebuild of the original text from the final list |
| MigratePlaylist.RebuildChains | scripts/migrate_playlist_to_cloudinary.mjs:491 | the loop's text facts compose over one step and the rest: a rebuild of a rebuild is a rebuild of the original |
| MigratePlaylist.UnlocatableFailsAll | scripts/migrate_playlist_to_cloudinary.mjs:491-505 | when the playlist text has no locatable markers, no track is ever counted as uploaded and the text is never replaced |
| MigratePlaylist.UnselectedUntouched | scripts/migrate_playlist_to_cloudinary.mjs:470-479 | a track whose id was not selected is left exactly as it was |
| Text.TrimOf | scripts/migrate_playlist_to_cloudinary.mjs:102 | `trim` of a word padded with whitespace on both sides gives back exactly the word |
| Text.Trim | scripts/migrate_playlist_to_cloudinary.mjs:102 | `trim`: the result is a window of the text with no whitespace at either end, and only whitespace was removed |
| Text.SplitJoin | scripts/migrate_playlist_to_cloudinary.mjs:51-58 | splitting a comma-joined list of separator-free pieces gives back exactly those pieces |
| Text.Split | scripts/migrate_playlist_to_cloudinary.mjs:55 | `split` on one character: at least one piece, and no piece contains the separator |
| Text.JoinSplit | scripts/migrate_playlist_to_cloudinary.mjs:55 | joining the pieces of a split with its separator restores the text, so the pieces are exactly the text between separators |
| Text.IndexOfFrom | scripts/migrate_playlist_to_cloudinary.mjs:232 | `indexOf`: the first occurrence at or after the start position, or none when there is none |
| Text.LastIndexOf | scripts/migrate_playlist_to_cloudinary.mjs:233 | `lastIndexOf`: an occurrence after which none starts, or none when there is none |
| Text.ToLower | scripts/migrate_playlist_to_cloudinary.mjs:88 | `toLowerCase` on ASCII letters: same length, each character folded |
| Text.NatToStringValue | src/features/ui/view_player_main.tsx:12 | a number printed in decimal reads back as itself |
| Text.IntToString | scripts/migrate_playlist_to_cloudinary.mjs:249 | a number printed in decimal, a minus sign before the magnitude when negative |
| Text.PadStart | src/features/ui/view_player_main.tsx:12 | `padStart`: a text at least as wide is unchanged; a shorter one ends with the text, has exactly the width, and is filled with the pad character before it |

## Findings

| source | as written | input that shows it | evidently intended | confidence | as-written member | corrected member |
|---|---|---|---|---|---|---|
| scripts/migrate_playlist_to_cloudinary.mjs:288-300 | the error thrown for a non-retryable status is inside the `try`, so the `catch` takes it and the loop retries anyway until the budget is spent | a download answering 404 on every attempt with budget 4: four requests, waits 750, 1500, 3000 ms | stop at the first non-retryable status and fail with its reason | not executed | MigrateUpload.FetchWithRetryAsWritten (MigrateUpload.NotFoundRetriedAsWritten, MigrateUpload.AsWrittenRetriesEverything) | MigrateUpload.FetchWithRetry (MigrateUpload.CorrectedStopsAtFinalStatus) |
| scripts/migrate_playlist_to_cloudinary.mjs:78, 191, 275 | `--max-retries=abc` parses to NaN; `flags.maxRetries ?? …` keeps NaN and `Math.max(1, NaN)` is NaN, so `attempt <= NaN` is false and no request is ever made | `--max-retries=abc` | at least one attempt, falling back to `MAX_RETRIES` or 4 | not executed | MigrateEnv.MaxRetriesAsWritten (MigrateEnv.MaxRetriesNaN, MigrateUpload.UnreadableRetriesNeverFetch) | MigrateEnv.MaxRetries (MigrateEnv.MaxRetriesAgree) |
| src/hooks/use_audio_visualizer.ts:118, 128-133 | each effect run restarts the loop from a fresh zero vector; when playback stops, the inactive frames see nothing above 0.03 and never publish, so the bars freeze at the last active frame instead of decaying | samples all 0.5, then `isActive` turns false | the inactive frames decay the bars that are on screen | not executed | AudioVisualizer.StartEffectAsWritten (AudioVisualizer.AsWrittenInactiveFreezes, AudioVisualizer.AsWrittenFreezeExample) | AudioVisualizer.StartEffect (AudioVisualizer.InactiveDecaysPublished) |

## Left out

- Network, file and console I/O are not modelled: `fetch`, the `FormData` upload, SHA-1 hashing, file reads and writes, and `console` output are effects outside the logic. `downloadTrackSource` and `uploadTrackToCloudinary` are therefore left out. The reply sequence that `fetchWithRetry` sees is a parameter.
- The manifest contents and the progress labels are not modelled. The manifest's timestamp is left out too. The loop is modelled by its counters, the track list and the playlist text, including the rebuild inside the `try`.
- MigratePlaylist.Visit: the `writeFile` and `writeManifest` calls inside the `try` are file I/O and are taken to succeed; a write that throws would count the track as failed, which the model does not promise.
- `parsePlaylistTracks` is not modelled, because a regular-expression `matchAll` is an engine built-in. `MigratePlaylist.ReadEntry` is a reference reader of exactly the six-line layout that `rebuildPlaylistSource` writes.
- `JSON.stringify`, `JSON.parse`, `Number(s)` and `Number.parseInt` are oracle parameters. Their own parsing and printing are not modelled.
- The key sort uses code-unit order in place of `localeCompare`, because locale collation is an engine built-in.
- The engine's sort algorithm is not modelled. `MigrateUpload.SortByKey` is a reference sort, and only its result matters (a key-ordered permutation).
- Floating-point rounding is not modelled. Audio times, volume, samples and the progress ratio are exact reals. Timestamps are exact reals, truncated explicitly.
- The `No tracks found` and `Nothing to do` exits of the migration's main routine are not modelled. Each is a one-line guard that stops before any state changes.
- React plumbing is not modelled: re-render scheduling, refs, `setInterval`, `requestAnimationFrame` and cancellation handles. Each effect is a transition. Cancellation of the Firestore load is a boolean parameter.
- The Web Audio graph construction, the context's `resume()` and `getByteFrequencyData` are foreign browser APIs. Only the registry and the fallback are modelled, and the frequency bytes are a parameter.
- Firestore access and `getFirestoreDatabase` are network I/O. Whether a database handle exists is taken to be whether the settings are complete.
- The service worker and the presentational components are not modelled: the SVG path of the visualizer, the controls, the live indicator, and the styling and type files.
- `Text.ToLower` folds only ASCII letters, unlike `toLowerCase`. Every word compared against it is ASCII.
- MigratePlaylist.Start: a NaN start index is read as 0, which is what `slice(NaN)` does. The clamp `Math.max(0, NaN)` stays NaN in the configuration.
- AudioVisualizer.StartEffect: models the corrected restart (continue from the published vector), not line 118's `createEmptySamples()` seed; the seed as written is `AudioVisualizer.StartEffectAsWritten`, and the contract states that the two differ only in that seed (see Findings).
- MigrateEnv.ReadConfig: uses the corrected retry budget `MigrateEnv.MaxRetries`, so `maxRetries ≥ 1` is not what line 191 gives for `--max-retries=abc` (NaN); the budget as written is `MigrateEnv.MaxRetriesAsWritten`, and the contract states that the two agree whenever the written one is a number (see Findings).
- MigrateEnv.ReadConfig: the playlist and manifest paths are kept as given, because `path.resolve` against the working directory is file-system path handling.
- MigrateEnv.BuildConfig: carries `ReadConfig`'s corrected retry budget, for the same reason.
- StreamSync.Locate: its contract only bounds the index. The fallback value is stated through `StreamSync.FallbackUnreachable` and `StreamSync.ResolveSound`.

=== FILE: audio_player.dfy ===
/** The playback continuity controller of `src/hooks/use_audio_player.ts`,
    re-expressed as a state record and one transition function per entry
    point. The audio element is part of the state; the transport calls the
    controller makes on it are returned as commands, and the outcome of the
    awaited `play()` is a parameter. Times and volume are exact reals. */
module AudioPlayer {

  import opened Wrappers

  /** Drift tolerated before a same-track target forces a seek. */
  const MaxResyncDriftSeconds: real := 1.25
  /** Distance kept from the end of the media when seeking. */
  const EndMarginSeconds: real := 0.25
  const DefaultVolume: real := 0.8
  const AutoplayMessage: string := "Playback could not start. Browser autoplay may require a user click."
  const MediaErrorMessage: string := "Audio failed to load. Check MP3 URLs and CORS settings."

  /** `AudioSyncTarget`: what the controller is asked to play. */
  datatype SyncTarget = SyncTarget(trackId: string, srcUrl: string, offsetSeconds: real)

  /** The audio element's fields the controller reads or writes; `duration`
      is `None` while it is not a finite number. */
  datatype Element = Element(src: string, currentTime: real, duration: Option<real>, readyState: int, volume: real)

  /** Transport calls made on the element. */
  datatype Command = Load(src: string) | Seek(seconds: real) | Play | Pause

  /** How the awaited `audio.play()` settled: started, or rejected with an
      `Error` carrying a message, or rejected with some other value. */
  datatype PlayOutcome = Started | RejectedWithError(message: string) | RejectedOther

  /** The hook's refs and state. `requested` stands for both the
      `playbackRequestedRef` and the `isPlaybackRequested` state, which every
      write keeps equal. `target` is the `syncTarget` of the latest render and
      `pendingMetadata` the registered once-only `loadedmetadata` listener,
      with the target its closure captured. */
  datatype Player = Player(
    audio: Option<Element>,
    activeTrackId: Option<string>,
    requested: bool,
    isBuffering: bool,
    volume: real,
    playbackError: Option<string>,
    target: Option<SyncTarget>,
    pendingMetadata: Option<SyncTarget>)

  datatype Step = Step(next: Player, commands: seq<Command>)

  function Abs(x: real): real {
    if x < 0.0 then -x else x
  }

  function MaxR(a: real, b: real): real {
    if a >= b then a else b
  }

  function MinR(a: real, b: real): real {
    if a <= b then a else b
  }

  /** `clampVolume`. */
  function ClampVolume(v: real): (r: real)
    ensures 0.0 <= r <= 1.0
    ensures 0.0 <= v <= 1.0 ==> r == v
    ensures v < 0.0 ==> r == 0.0
    ensures v > 1.0 ==> r == 1.0
  {
    MinR(1.0, MaxR(0.0, v))
  }

  /** `clampOffsetToDuration`: never negative, and with a known positive
      duration never later than a quarter second before the end. */
  function ClampOffset(duration: Option<real>, offset: real): (r: real)
    ensures r >= 0.0
    ensures offset >= 0.0 && (duration.None? || duration.value <= 0.0) ==> r == offset
    ensures duration.Some? && duration.value > 0.0 ==> r <= MaxR(duration.value - EndMarginSeconds, 0.0)
    ensures duration.Some? && duration.value > 0.0 && 0.0 <= offset <= duration.value - EndMarginSeconds ==> r == offset
    ensures offset <= 0.0 ==> r == 0.0
  {
    match duration
    case None => MaxR(0.0, offset)
    case Some(d) =>
      if d <= 0.0 then MaxR(0.0, offset)
      else MinR(MaxR(0.0, offset), MaxR(d - EndMarginSeconds, 0.0))
  }

  lemma ClampOffsetExample()
    ensures ClampOffset(Some(10.0), 9.9) == 9.75
  {
  }

  /** The hook's state on mount, after the volume effect's first run has
      copied the default volume to the element. */
  function Initial(audio: Option<Element>): (p: Player)
    ensures Valid(p) && !p.requested && !p.isBuffering && p.playbackError.None?
    ensures p.volume == DefaultVolume && p.activeTrackId.None? && p.pendingMetadata.None?
    ensures p.audio.Some? <==> audio.Some?
    ensures audio.Some? ==> p.audio.value == audio.value.(volume := DefaultVolume)
  {
    var element := if audio.Some? then Some(audio.value.(volume := DefaultVolume)) else None;
    Player(element, None, false, false, DefaultVolume, None, None, None)
  }

  /** What every transition keeps: the volume is in `[0, 1]`, and a pending
      metadata continuation exists only with an element and only for the
      track the controller is loading. */
  ghost predicate Valid(p: Player) {
    && 0.0 <= p.volume <= 1.0
    && (p.pendingMetadata.Some? ==> p.audio.Some? && p.activeTrackId == Some(p.pendingMetadata.value.trackId))
  }

  /** The element just after `src` is set and `load()` is called: readyState
      HAVE_NOTHING, position 0 and no finite duration until new metadata. */
  function Unloaded(a: Element, src: string): (e: Element)
    ensures e.src == src && e.volume == a.volume
    ensures e.readyState == 0 && e.currentTime == 0.0 && e.duration.None?
  {
    Element(src, 0.0, None, 0, a.volume)
  }

  /** The sync-target effect, run on every render because `syncTarget` is a
      fresh object each time. Its previous run's cleanup removes any pending
      `loadedmetadata` listener first. A new track id loads the new source and
      registers the listener; `load()` runs the media element load algorithm,
      which empties the element (no metadata, position 0, duration NaN). The
      same id seeks only on a drift above the tolerance once metadata is
      available. */
  function ApplyTarget(p: Player, target: Option<SyncTarget>): (r: Step)
    ensures r.next.requested == p.requested && r.next.isBuffering == p.isBuffering
    ensures r.next.volume == p.volume && r.next.playbackError == p.playbackError
    ensures r.next.target == target
    ensures p.audio.None? || target.None? ==>
              r.commands == [] && r.next.audio == p.audio && r.next.activeTrackId == p.activeTrackId
              && r.next.pendingMetadata.None?
    ensures p.audio.Some? && target.Some? && p.activeTrackId != Some(target.value.trackId) ==>
              && r.next.activeTrackId == Some(target.value.trackId)
              && r.next.audio == Some(Unloaded(p.audio.value, target.value.srcUrl))
              && r.next.pendingMetadata == target
              && r.commands == [Load(target.value.srcUrl)]
    ensures p.audio.Some? && target.Some? && p.activeTrackId == Some(target.value.trackId) ==>
              var a := p.audio.value;
              var t := target.value;
              && r.next.activeTrackId == p.activeTrackId
              && r.next.pendingMetadata.None?
              && (if a.readyState >= 1 && Abs(a.currentTime - t.offsetSeconds) > MaxResyncDriftSeconds
                  then r.commands == [Seek(ClampOffset(a.duration, t.offsetSeconds))]
                       && r.next.audio == Some(a.(currentTime := ClampOffset(a.duration, t.offsetSeconds)))
                  else r.commands == [] && r.next.audio == p.audio)
  {
    var p1 := p.(pendingMetadata := None, target := target);
    if p1.audio.None? || target.None? then Step(p1, [])
    else
      var a := p1.audio.value;
      var t := target.value;
      if p1.activeTrackId != Some(t.trackId) then
        Step(p1.(activeTrackId := Some(t.trackId), audio := Some(Unloaded(a, t.srcUrl)), pendingMetadata := Some(t)),
             [Load(t.srcUrl)])
      else if a.readyState >= 1 && Abs(a.currentTime - t.offsetSeconds) > MaxResyncDriftSeconds then
        var pos := ClampOffset(a.duration, t.offsetSeconds);
        Step(p1.(audio := Some(a.(currentTime := pos))), [Seek(pos)])
      else
        Step(p1, [])
  }

  /** The message a rejected `play()` reports. */
  function RejectionMessage(outcome: PlayOutcome): string
    requires !outcome.Started?
  {
    if outcome.RejectedWithError? then outcome.message else AutoplayMessage
  }

  /** The play attempt shared by `maybeResumePlayback` and `togglePlayback`:
      clear the error, mark buffering, call `play()`; a rejection reverts the
      intent, clears buffering and reports the reason, without retrying. */
  function AttemptPlay(p: Player, outcome: PlayOutcome): (r: Step)
    ensures r.commands == [Play]
    ensures r.next.audio == p.audio && r.next.activeTrackId == p.activeTrackId
    ensures r.next.volume == p.volume && r.next.target == p.target
    ensures r.next.pendingMetadata == p.pendingMetadata
    ensures outcome.Started? ==>
              r.next.requested == p.requested && r.next.isBuffering && r.next.playbackError.None?
    ensures !outcome.Started? ==>
              !r.next.requested && !r.next.isBuffering && r.next.playbackError == Some(RejectionMessage(outcome))
  {
    var trying := p.(playbackError := None, isBuffering := true);
    match outcome
    case Started => Step(trying, [Play])
    case _ =>
      Step(trying.(requested := false, isBuffering := false, playbackError := Some(RejectionMessage(outcome))),
           [Play])
  }

  /** `maybeResumePlayback`: does nothing unless playback is requested. */
  function MaybeResume(p: Player, outcome: PlayOutcome): (r: Step)
    ensures !p.requested ==> r == Step(p, [])
    ensures p.requested ==> r == AttemptPlay(p, outcome)
  {
    if !p.requested then Step(p, []) else AttemptPlay(p, outcome)
  }

  /** The element reports its metadata: its duration is now known and its
      `readyState` at least 1. If the listener registered on the last track
      change is still attached it runs once: seek to the clamped target
      offset, then resume if requested. A listener that a later effect run
      removed does nothing. */
  function OnLoadedMetadata(p: Player, duration: Option<real>, outcome: PlayOutcome): (r: Step)
    ensures r.next.pendingMetadata.None?
    ensures r.next.audio.Some? <==> p.audio.Some?
    ensures p.pendingMetadata.None? ==>
              && r.commands == [] && r.next.requested == p.requested
              && r.next.isBuffering == p.isBuffering && r.next.playbackError == p.playbackError
              && (p.audio.Some? ==> r.next.audio.value.currentTime == p.audio.value.currentTime)
    ensures p.pendingMetadata.Some? && p.audio.Some? ==>
              var pos := ClampOffset(duration, p.pendingMetadata.value.offsetSeconds);
              && r.next.audio.value.currentTime == pos
              && |r.commands| >= 1 && r.commands[0] == Seek(pos)
              && (p.requested <==> Play in r.commands)
    ensures r.next.activeTrackId == p.activeTrackId && r.next.volume == p.volume
  {
    if p.audio.None? then Step(p.(pendingMetadata := None), [])
    else
      var e := p.audio.value;
      var a := e.(duration := duration, readyState := if e.readyState >= 1 then e.readyState else 1);
      var q := p.(audio := Some(a), pendingMetadata := None);
      match p.pendingMetadata
      case None => Step(q, [])
      case Some(t) =>
        var pos := ClampOffset(duration, t.offsetSeconds);
        var resumed := MaybeResume(q.(audio := Some(a.(currentTime := pos))), outcome);
        Step(resumed.next, [Seek(pos)] + resumed.commands)
  }

  /** `togglePlayback`. Turning the intent off pauses the element and sets no
      error (the buffering flag waits for the `pause` event). Turning it on
      clears the error and, given an element and a target, attempts to play. */
  function Toggle(p: Player, outcome: PlayOutcome): (r: Step)
    ensures r.next.audio == p.audio && r.next.activeTrackId == p.activeTrackId
    ensures r.next.volume == p.volume && r.next.pendingMetadata == p.pendingMetadata
    ensures p.requested ==>
              && !r.next.requested
              && r.next.isBuffering == p.isBuffering
              && r.next.playbackError == p.playbackError
              && r.commands == (if p.audio.Some? then [Pause] else [])
    ensures !p.requested && (p.audio.None? || p.target.None?) ==>
              r.next.requested && r.next.playbackError.None? && r.commands == []
              && r.next.isBuffering == p.isBuffering
    ensures !p.requested && p.audio.Some? && p.target.Some? ==>
              && r.commands == [Play]
              && (outcome.Started? ==> r.next.requested && r.next.isBuffering && r.next.playbackError.None?)
              && (!outcome.Started? ==> !r.next.requested && !r.next.isBuffering
                                        && r.next.playbackError == Some(RejectionMessage(outcome)))
  {
    if p.requested then
      Step(p.(requested := false), if p.audio.Some? then [Pause] else [])
    else
      var on := p.(requested := true, playbackError := None);
      if on.audio.None? || on.target.None? then Step(on, [])
      else AttemptPlay(on, outcome)
  }

  /** `setVolume` together with the volume effect that copies the state to
      the element. */
  function SetVolume(p: Player, v: real): (r: Player)
    ensures r.volume == ClampVolume(v)
    ensures r.audio.Some? <==> p.audio.Some?
    ensures r.audio.Some? ==> r.audio.value == p.audio.value.(volume := ClampVolume(v))
    ensures r.requested == p.requested && r.isBuffering == p.isBuffering
    ensures r.playbackError == p.playbackError && r.pendingMetadata == p.pendingMetadata
  {
    var vol := ClampVolume(v);
    p.(volume := vol, audio := if p.audio.Some? then Some(p.audio.value.(volume := vol)) else None)
  }

  /** The five element events. */
  datatype AudioEvent = Playing | Paused | Waiting | CanPlay | MediaError

  /** `handleAudio*`: only the buffering flag and the error change; the
      playback intent never does. */
  function OnEvent(p: Player, e: AudioEvent): (r: Player)
    ensures r.requested == p.requested && r.audio == p.audio && r.volume == p.volume
    ensures r.activeTrackId == p.activeTrackId && r.pendingMetadata == p.pendingMetadata
    ensures e.Playing? || e.Paused? || e.CanPlay? || e.MediaError? ==> !r.isBuffering
    ensures e.Waiting? ==> r.isBuffering == (p.isBuffering || p.requested)
    ensures e.MediaError? ==> r.playbackError == Some(MediaErrorMessage)
    ensures !e.MediaError? ==> r.playbackError == p.playbackError
  {
    match e
    case Playing => p.(isBuffering := false)
    case Paused => p.(isBuffering := false)
    case Waiting => if p.requested then p.(isBuffering := true) else p
    case CanPlay => p.(isBuffering := false)
    case MediaError => p.(isBuffering := false, playbackError := Some(MediaErrorMessage))
  }

  /** Every entry point keeps `Valid`. */
  lemma TransitionsPreserveValid(p: Player, target: Option<SyncTarget>, d: Option<real>,
                                 outcome: PlayOutcome, v: real, e: AudioEvent)
    requires Valid(p)
    ensures Valid(ApplyTarget(p, target).next)
    ensures Valid(OnLoadedMetadata(p, d, outcome).next)
    ensures Valid(Toggle(p, outcome).next)
    ensures Valid(SetVolume(p, v))
    ensures Valid(OnEvent(p, e))
  {
  }

  /** A track change followed by its metadata: the element seeks to the
      clamped offset of the target and resumes exactly when playback is
      requested. */
  lemma TrackChangeThenMetadata(p: Player, t: SyncTarget, d: Option<real>, outcome: PlayOutcome)
    requires p.audio.Some? && p.activeTrackId != Some(t.trackId)
    ensures var s1 := ApplyTarget(p, Some(t));
            var s2 := OnLoadedMetadata(s1.next, d, outcome);
            && s1.commands == [Load(t.srcUrl)]
            && s2.next.activeTrackId == Some(t.trackId)
            && s2.next.audio.value.src == t.srcUrl
            && s2.next.audio.value.currentTime == ClampOffset(d, t.offsetSeconds)
            && s2.commands[0] == Seek(ClampOffset(d, t.offsetSeconds))
            && (p.requested <==> Play in s2.commands)
  {
  }

  /** Any render between a track change and its metadata drops the pending
      continuation, and cannot resync either, since the reloaded element has
      no metadata yet: the rerender issues nothing, and the metadata then
      neither seeks nor resumes playback. */
  lemma RerenderDropsPendingResume(p: Player, t: SyncTarget, d: Option<real>, outcome: PlayOutcome)
    requires p.audio.Some? && p.activeTrackId != Some(t.trackId)
    ensures var s1 := ApplyTarget(p, Some(t));
            var s2 := ApplyTarget(s1.next, Some(t));
            var s3 := OnLoadedMetadata(s2.next, d, outcome);
            && s2.commands == []
            && s3.commands == [] && s3.next.requested == p.requested
  {
    var s1 := ApplyTarget(p, Some(t));
    assert s1.next.audio.value.readyState == 0;
  }

  /** Toggling off then on with a started `play()` restores the intent. */
  lemma ToggleOffOn(p: Player)
    requires p.requested && p.audio.Some? && p.target.Some?
    ensures var s1 := Toggle(p, Started);
            var s2 := Toggle(s1.next, Started);
            !s1.next.requested && s2.next.requested && s1.commands + s2.commands == [Pause, Play]
  {
  }

  /** Toggling on then off with a started `play()` restores the intent, but
      leaves buffering set until the element's `pause` event clears it. */
  lemma ToggleOnOffWaitsForPauseEvent(p: Player)
    requires !p.requested && p.audio.Some? && p.target.Some?
    ensures var s1 := Toggle(p, Started);
            var s2 := Toggle(s1.next, Started);
            && s1.next.requested && !s2.next.requested
            && s2.next.isBuffering
            && s1.commands + s2.commands == [Play, Pause]
            && !OnEvent(s2.next, Paused).isBuffering
  {
  }

  /** A rejected `play()` leaves nothing requested and nothing buffering, so
      the next toggle is a fresh attempt. */
  lemma RejectedToggleIsNotRetried(p: Player, outcome: PlayOutcome)
    requires !p.requested && p.audio.Some? && p.target.Some? && !outcome.Started?
    ensures var s := Toggle(p, outcome);
            && s.commands == [Play]
            && !s.next.requested && !s.next.isBuffering
            && s.next.playbackError.Some?
            && Toggle(s.next, Started).next.requested
  {
  }

  /** The targets A at 0 s and A at 1 s on a loaded element whose position
      follows the broadcast do not seek; a change to B loads B. */
  lemma ResyncScenario(p: Player, a: SyncTarget, b: SyncTarget)
    requires p.audio.Some? && p.audio.value.readyState >= 1
    requires p.activeTrackId == Some(a.trackId) && b.trackId != a.trackId
    requires a.offsetSeconds == p.audio.value.currentTime
    ensures var s1 := ApplyTarget(p, Some(a));
            var s2 := ApplyTarget(s1.next, Some(a.(offsetSeconds := a.offsetSeconds + 1.0)));
            var s3 := ApplyTarget(s2.next, Some(b));
            s1.commands == [] && s2.commands == [] && s3.commands == [Load(b.srcUrl)]
  {
  }
}

=== FILE: audio_visualizer.dfy ===
/** The spectrum sampler of `src/hooks/use_audio_visualizer.ts`: bucket
    averaging of the analyser's byte magnitudes into 48 normalised samples
    with a low-end boost, exponential smoothing, the inactive decay and the
    33 ms throttle of the frame callback, and the per-element graph cache.
    Magnitudes are exact reals. */
module AudioVisualizer {

  import opened Wrappers

  const SampleCount: nat := 48
  /** The analyser's FFT size; it exposes half as many frequency bins. */
  const FftSize: nat := 256
  const MinSampleFloor: real := 0.03
  const DecayFactor: real := 0.88
  const PreviousWeight: real := 0.72
  const NextWeight: real := 0.28
  const LowEndBoost: real := 0.35
  const FrameIntervalMs: real := 33.0

  /** One entry of a `Uint8Array`. */
  type Byte = x: int | 0 <= x < 256

  function Max(a: int, b: int): int {
    if a >= b then a else b
  }

  function Min(a: int, b: int): int {
    if a <= b then a else b
  }

  function MaxR(a: real, b: real): real {
    if a >= b then a else b
  }

  function MinR(a: real, b: real): real {
    if a <= b then a else b
  }

  ghost predicate InUnit(s: seq<real>) {
    forall i :: 0 <= i < |s| ==> 0.0 <= s[i] <= 1.0
  }

  /** `createEmptySamples`. */
  function EmptySamples(): (r: seq<real>)
    ensures |r| == SampleCount
    ensures forall i :: 0 <= i < |r| ==> r[i] == 0.0
  {
    seq(SampleCount, _ => 0.0)
  }

  /** Width of every bucket but the last: `max(1, floor(len / count))`. */
  function BinsPerSample(len: nat, count: nat): (b: nat)
    requires count > 0
    ensures b >= 1
  {
    Max(1, len / count)
  }

  function BucketStart(len: nat, count: nat, i: nat): nat
    requires count > 0
  {
    i * BinsPerSample(len, count)
  }

  /** The last bucket runs to the end of the data; the others are one width
      long, cut at the end of the data. */
  function BucketEnd(len: nat, count: nat, i: nat): (e: nat)
    requires count > 0
    ensures e <= len
  {
    if i == count - 1 then len else Min(len, BucketStart(len, count, i) + BinsPerSample(len, count))
  }

  /** `data[start] + ... + data[end - 1]`, 0 for an empty range. */
  function RangeSum(data: seq<Byte>, start: nat, end: nat): int
    requires end <= |data|
    decreases end
  {
    if end <= start then 0 else RangeSum(data, start, end - 1) + data[end - 1]
  }

  /** The low-end weighting: 1.35 at bucket 0, falling linearly with the
      index. */
  function Weight(i: nat, count: nat): real
    requires count > 0
  {
    1.0 + (1.0 - (i as real) / (count as real)) * LowEndBoost
  }

  /** The value of bucket `i`: the bucket's mean magnitude scaled into
      `[0, 1]`, weighted and capped at 1. */
  function BucketValue(data: seq<Byte>, count: nat, i: nat): real
    requires count > 0
  {
    var start := BucketStart(|data|, count, i);
    var end := BucketEnd(|data|, count, i);
    var n := if end > start then end - start else 0;
    Level(RangeSum(data, start, end), n, Weight(i, count))
  }

  /** A bucket of `n` bins summing to `total`: the mean over 255 clamped
      into `[0, 1]`, times the weight, capped at 1; 0 for no bins. */
  function Level(total: int, n: nat, weight: real): real {
    var average := if n == 0 then 0.0 else (total as real) / (n as real);
    var normalized := MinR(1.0, MaxR(0.0, average / 255.0));
    MinR(1.0, normalized * weight)
  }

  /** The sample vector as a reference definition, one bucket per entry. */
  function Downsample(data: seq<Byte>, count: nat): seq<real> {
    if count == 0 then [] else seq(count, i requires 0 <= i < count => BucketValue(data, count, i))
  }

  /** Every bucket value lies in `[0, 1]`. */
  lemma {:induction false} BucketValueInUnit(data: seq<Byte>, count: nat, i: nat)
    requires count > 0 && i < count
    ensures 0.0 <= BucketValue(data, count, i) <= 1.0
  {
    WeightAboveOne(i, count);
    var start := BucketStart(|data|, count, i);
    var end := BucketEnd(|data|, count, i);
    var n := if end > start then end - start else 0;
    var total := RangeSum(data, start, end);
    var average := if n == 0 then 0.0 else (total as real) / (n as real);
    var normalized := MinR(1.0, MaxR(0.0, average / 255.0));
    ProductNonNegative(normalized, Weight(i, count));
    assert BucketValue(data, count, i) == Level(total, n, Weight(i, count));
  }

  lemma ProductNonNegative(x: real, y: real)
    requires x >= 0.0 && y >= 0.0
    ensures x * y >= 0.0
  {
  }

  /** The inner loop of `downsampleFrequencyData`: the sum and the number of
      the bins from `start` up to `end`. */
  method SumBins(data: seq<Byte>, start: nat, end: nat) returns (total: int, count: nat)
    requires end <= |data|
    ensures total == RangeSum(data, start, end)
    ensures count == if end > start then end - start else 0
  {
    total := 0;
    count := 0;
    var binIndex := start;
    while binIndex < end
      invariant start <= binIndex
      invariant binIndex <= end || binIndex == start
      invariant binIndex <= end ==> total == RangeSum(data, start, binIndex)
      invariant binIndex > end ==> total == 0
      invariant count == binIndex - start
    {
      total := total + data[binIndex];
      count := count + 1;
      binIndex := binIndex + 1;
    }
  }

  /** One pass of the outer loop of `downsampleFrequencyData`: the bucket's
      bounds, its mean, the normalisation and the weighting. */
  method SampleBucket(data: seq<Byte>, sampleCount: nat, binsPerSample: nat, sampleIndex: nat) returns (value: real)
    requires sampleIndex < sampleCount && binsPerSample == Max(1, |data| / sampleCount)
    ensures value == BucketValue(data, sampleCount, sampleIndex)
    ensures 0.0 <= value <= 1.0
  {
    var start := sampleIndex * binsPerSample;
    var end := if sampleIndex == sampleCount - 1 then |data| else Min(|data|, start + binsPerSample);
    var total, count := SumBins(data, start, end);
    var average := if count == 0 then 0.0 else (total as real) / (count as real);
    var normalized := MinR(1.0, MaxR(0.0, average / 255.0));
    var weighting := 1.0 + (1.0 - (sampleIndex as real) / (sampleCount as real)) * LowEndBoost;
    value := MinR(1.0, normalized * weighting);
    assert start == BucketStart(|data|, sampleCount, sampleIndex);
    assert end == BucketEnd(|data|, sampleCount, sampleIndex);
    assert weighting == Weight(sampleIndex, sampleCount);
    assert value == Level(total, count, weighting);
    BucketValueInUnit(data, sampleCount, sampleIndex);
  }

  /** `downsampleFrequencyData`, with the loops of the source. */
  method DownsampleFrequencyData(data: seq<Byte>, sampleCount: nat) returns (samples: seq<real>)
    ensures |samples| == sampleCount
    ensures samples == Downsample(data, sampleCount)
    ensures InUnit(samples)
  {
    samples := [];
    if sampleCount == 0 {
      return;
    }
    var binsPerSample := Max(1, |data| / sampleCount);
    var sampleIndex := 0;
    while sampleIndex < sampleCount
      invariant 0 <= sampleIndex <= sampleCount
      invariant |samples| == sampleIndex
      invariant forall k :: 0 <= k < sampleIndex ==> samples[k] == BucketValue(data, sampleCount, k)
      invariant InUnit(samples)
      decreases sampleCount - sampleIndex
    {
      var value := SampleBucket(data, sampleCount, binsPerSample, sampleIndex);
      samples := samples + [value];
      sampleIndex := sampleIndex + 1;
    }
  }

  /** The weight is 1.35 at the first bucket, strictly falls with the index,
      and stays above 1; at the last bucket it is `1 + 0.35 / count`. */
  lemma WeightShape(i: nat, j: nat, count: nat)
    requires count > 0 && i < j < count
    ensures Weight(0, count) == 1.35
    ensures Weight(j, count) < Weight(i, count)
    ensures Weight(count - 1, count) == 1.0 + LowEndBoost / (count as real)
  {
    var c := count as real;
    assert (i as real) / c < (j as real) / c by {
      DivStrictlyMonotone(i as real, j as real, c);
    }
    assert (c - 1.0) / c == 1.0 - 1.0 / c;
  }

  lemma DivStrictlyMonotone(x: real, y: real, c: real)
    requires c > 0.0 && x < y
    ensures x / c < y / c
  {
  }

  lemma WeightAboveOne(i: nat, count: nat)
    requires count > 0 && i < count
    ensures Weight(i, count) > 1.0
  {
    var c := count as real;
    assert (i as real) / c < 1.0 by {
      DivStrictlyMonotone(i as real, c, c);
    }
  }

  lemma {:induction false} MulMonotone(a: nat, b: nat, c: nat)
    requires a <= b
    ensures a * c <= b * c
  {
    if a < b {
      MulMonotone(a, b - 1, c);
      assert b * c == (b - 1) * c + c;
    }
  }

  /** With at least as many bins as buckets the buckets tile the bins: bucket
      `i` ends where bucket `i + 1` starts, the first starts at 0 and the last
      ends at the end of the data. */
  lemma BucketsTile(len: nat, count: nat, i: nat)
    requires 0 < count <= len && i + 1 < count
    ensures BucketStart(len, count, 0) == 0
    ensures BucketEnd(len, count, i) == BucketStart(len, count, i + 1)
    ensures BucketEnd(len, count, count - 1) == len
    ensures BucketStart(len, count, count - 1) <= len
  {
    var b := BinsPerSample(len, count);
    assert b == len / count;
    assert count * (len / count) <= len;
    MulMonotone(i + 1, count, b);
    MulMonotone(count - 1, count, b);
    assert (i + 1) * b == i * b + b;
    assert count * b == b * count;
  }

  /** Each bin belongs to exactly the bucket its index names. */
  lemma BinInBucket(len: nat, count: nat, j: nat)
    requires 0 < count <= len && j < len
    ensures var b := BinsPerSample(len, count);
            var k := Min(j / b, count - 1);
            BucketStart(len, count, k) <= j < BucketEnd(len, count, k)
  {
    var b := BinsPerSample(len, count);
    var k := Min(j / b, count - 1);
    assert j == b * (j / b) + j % b;
    if j / b <= count - 1 {
      assert k * b <= j;
      if k < count - 1 {
        assert k * b + b > j;
        BucketsTile(len, count, k);
        assert BucketStart(len, count, k + 1) == (k + 1) * b;
      }
    } else {
      MulMonotone(count - 1, j / b, b);
      assert (count - 1) * b <= (j / b) * b;
    }
  }

  /** A bucket that covers no bin has value 0. */
  lemma EmptyBucketIsZero(data: seq<Byte>, count: nat, i: nat)
    requires count > 0
    requires BucketEnd(|data|, count, i) <= BucketStart(|data|, count, i)
    ensures BucketValue(data, count, i) == 0.0
  {
  }

  /** `smoothSamples`: an exponential moving average entry by entry, a
      missing previous entry counting as 0. */
  function Smooth(previous: seq<real>, next: seq<real>): (r: seq<real>)
    ensures |r| == |next|
    ensures forall i :: 0 <= i < |next| ==>
              r[i] == (if i < |previous| then previous[i] else 0.0) * PreviousWeight + next[i] * NextWeight
  {
    seq(|next|, i requires 0 <= i < |next| => (if i < |previous| then previous[i] else 0.0) * PreviousWeight + next[i] * NextWeight)
  }

  /** Smoothing keeps values in `[0, 1]`, and each smoothed value lies between
      the previous value and the new one. */
  lemma SmoothInUnit(previous: seq<real>, next: seq<real>)
    requires InUnit(previous) && InUnit(next)
    ensures InUnit(Smooth(previous, next))
    ensures forall i :: 0 <= i < |next| && i < |previous| ==>
              MinR(previous[i], next[i]) <= Smooth(previous, next)[i] <= MaxR(previous[i], next[i])
  {
  }

  /** A steady spectrum is a fixed point of the smoothing. */
  lemma SmoothSteady(s: seq<real>)
    ensures Smooth(s, s) == s
  {
  }

  ghost predicate AnyAboveFloor(s: seq<real>) {
    exists i :: 0 <= i < |s| && s[i] > MinSampleFloor
  }

  /** The inactive step: when some value is above the floor every value is
      scaled by 0.88 and published; otherwise nothing changes. */
  function Decay(s: seq<real>): (r: Option<seq<real>>)
    ensures r.Some? <==> AnyAboveFloor(s)
    ensures r.Some? ==> |r.value| == |s| && forall i :: 0 <= i < |s| ==> r.value[i] == s[i] * DecayFactor
  {
    if exists i :: 0 <= i < |s| && s[i] > MinSampleFloor then
      Some(seq(|s|, i requires 0 <= i < |s| => s[i] * DecayFactor))
    else None
  }

  /** Decay keeps values in `[0, 1]` and never raises one. */
  lemma DecayShrinks(s: seq<real>)
    requires InUnit(s) && AnyAboveFloor(s)
    ensures InUnit(Decay(s).value)
    ensures forall i :: 0 <= i < |s| ==> Decay(s).value[i] <= s[i]
    ensures forall i :: 0 <= i < |s| && s[i] > 0.0 ==> Decay(s).value[i] < s[i]
  {
  }

  /** The hook's published state. */
  datatype Hook = Hook(samples: seq<real>, isReactive: bool)

  /** The locals of one run of the frame loop. */
  datatype Loop = Loop(previous: seq<real>, lastRenderTimestamp: real)

  /** One `renderFrame` call: inactive frames decay, active frames closer
      than 33 ms to the last render are skipped, other active frames smooth
      in the downsampled spectrum. Returns the new locals and, when the frame
      publishes, the published vector. */
  function RenderFrame(loop: Loop, isActive: bool, timestamp: real, data: seq<Byte>): (r: (Loop, Option<seq<real>>))
    ensures !isActive ==> r.0.lastRenderTimestamp == loop.lastRenderTimestamp
    ensures !isActive && !AnyAboveFloor(loop.previous) ==> r == (loop, None)
    ensures isActive && timestamp - loop.lastRenderTimestamp < FrameIntervalMs ==> r == (loop, None)
    ensures isActive && timestamp - loop.lastRenderTimestamp >= FrameIntervalMs ==>
              r.0.lastRenderTimestamp == timestamp && r.1 == Some(r.0.previous)
    ensures r.1.Some? ==> r.1 == Some(r.0.previous)
  {
    if !isActive then
      match Decay(loop.previous)
      case Some(next) => (loop.(previous := next), Some(next))
      case None => (loop, None)
    else if timestamp - loop.lastRenderTimestamp < FrameIntervalMs then (loop, None)
    else
      var next := Smooth(loop.previous, Downsample(data, SampleCount));
      (Loop(next, timestamp), Some(next))
  }

  ghost predicate LoopValid(loop: Loop) {
    |loop.previous| == SampleCount && InUnit(loop.previous)
  }

  /** Every frame keeps the vector at 48 values in `[0, 1]`, active or not. */
  lemma RenderFramePreservesShape(loop: Loop, isActive: bool, timestamp: real, data: seq<Byte>)
    requires LoopValid(loop)
    ensures LoopValid(RenderFrame(loop, isActive, timestamp, data).0)
  {
    if !isActive {
      if AnyAboveFloor(loop.previous) {
        DecayShrinks(loop.previous);
      }
    } else if timestamp - loop.lastRenderTimestamp >= FrameIntervalMs {
      var d := Downsample(data, SampleCount);
      forall i | 0 <= i < SampleCount
        ensures 0.0 <= d[i] <= 1.0
      {
        BucketValueInUnit(data, SampleCount, i);
      }
      SmoothInUnit(loop.previous, d);
    }
  }

  /** Identity of an audio element. */
  type ElementId = nat

  /** `VisualizerGraph`: the analyser's frequency buffer length identifies
      what the sampler reads; `context` names the analysis context. */
  datatype Graph = Graph(context: nat, binCount: nat)

  /** What building a graph in the environment gives: no `AudioContext`
      constructor, a construction that throws, or a graph. */
  datatype Capability = NoAudioContext | BuildThrows | Builds(graph: Graph)

  /** `getOrCreateVisualizerGraph` over an explicit registry. A cached graph
      is returned as is; otherwise a successful build is registered. */
  function GetOrCreateGraph(cache: map<ElementId, Graph>, el: ElementId, env: Capability): (r: (map<ElementId, Graph>, Option<Graph>))
    ensures el in cache ==> r == (cache, Some(cache[el]))
    ensures el !in cache && env.Builds? ==> r == (cache[el := env.graph], Some(env.graph))
    ensures el !in cache && !env.Builds? ==> r == (cache, None)
  {
    if el in cache then (cache, Some(cache[el]))
    else match env
      case Builds(g) => (cache[el := g], Some(g))
      case _ => (cache, None)
  }

  /** Once a graph is registered for an element every later lookup returns
      it, whatever the environment offers, and the registry only grows. */
  lemma GraphCacheStable(cache: map<ElementId, Graph>, el: ElementId, env1: Capability, other: ElementId, env2: Capability)
    requires GetOrCreateGraph(cache, el, env1).1.Some?
    ensures var (c1, g1) := GetOrCreateGraph(cache, el, env1);
            var (c2, g2) := GetOrCreateGraph(c1, other, env2);
            && cache.Keys <= c1.Keys && c1.Keys <= c2.Keys
            && GetOrCreateGraph(c2, el, env2) == (c2, g1)
  {
  }

  /** The whole sampler: registry, published state and the running loop. */
  datatype Sampler = Sampler(cache: map<ElementId, Graph>, hook: Hook, loop: Option<Loop>)

  /** The hook's state on mount. */
  function InitialSampler(): Sampler {
    Sampler(map[], Hook(EmptySamples(), false), None)
  }

  /** The visualizer effect, run on mount and whenever `isActive` changes,
      with the previous loop torn down first. Without an element nothing
      runs; without a graph the sampler reports non-reactive and 48 zeros;
      with one it starts a loop. This is the corrected restart: the loop
      continues from the published vector, and in every other respect the
      effect is the one the source writes. */
  function StartEffect(s: Sampler, el: Option<ElementId>, env: Capability): (r: Sampler)
    ensures r.loop.None? ==> r == StartEffectAsWritten(s, el, env)
    ensures r.loop.Some? ==> r.(loop := Some(Loop(EmptySamples(), 0.0))) == StartEffectAsWritten(s, el, env)
    ensures el.None? ==> r == s.(loop := None)
    ensures el.Some? && GetOrCreateGraph(s.cache, el.value, env).1.None? ==>
              r.hook == Hook(EmptySamples(), false) && r.loop.None?
    ensures el.Some? && GetOrCreateGraph(s.cache, el.value, env).1.Some? ==>
              r.hook == s.hook.(isReactive := true) && r.loop == Some(Loop(s.hook.samples, 0.0))
  {
    match el
    case None => s.(loop := None)
    case Some(e) =>
      var (cache, graph) := GetOrCreateGraph(s.cache, e, env);
      if graph.None? then Sampler(cache, Hook(EmptySamples(), false), None)
      else Sampler(cache, s.hook.(isReactive := true), Some(Loop(s.hook.samples, 0.0)))
  }

  /** The same effect as the source writes it: the loop restarts from a
      fresh vector of zeros. */
  function StartEffectAsWritten(s: Sampler, el: Option<ElementId>, env: Capability): (r: Sampler)
    ensures el.Some? && GetOrCreateGraph(s.cache, el.value, env).1.Some? ==>
              r.hook == s.hook.(isReactive := true) && r.loop == Some(Loop(EmptySamples(), 0.0))
  {
    match el
    case None => s.(loop := None)
    case Some(e) =>
      var (cache, graph) := GetOrCreateGraph(s.cache, e, env);
      if graph.None? then Sampler(cache, Hook(EmptySamples(), false), None)
      else Sampler(cache, s.hook.(isReactive := true), Some(Loop(EmptySamples(), 0.0)))
  }

  /** One animation frame of the running loop; a frame that publishes
      replaces the hook's samples. */
  function Frame(s: Sampler, isActive: bool, timestamp: real, data: seq<Byte>): (r: Sampler)
    ensures s.loop.None? ==> r == s
    ensures r.cache == s.cache && r.hook.isReactive == s.hook.isReactive
    ensures s.loop.Some? ==> r.loop.Some?
  {
    match s.loop
    case None => s
    case Some(loop) =>
      var (next, published) := RenderFrame(loop, isActive, timestamp, data);
      Sampler(s.cache, if published.Some? then s.hook.(samples := published.value) else s.hook, Some(next))
  }

  ghost predicate SamplerValid(s: Sampler) {
    && |s.hook.samples| == SampleCount && InUnit(s.hook.samples)
    && (s.loop.Some? ==> LoopValid(s.loop.value))
  }

  /** Starting the effect and running frames keep the published vector and
      the loop's vector at 48 values in `[0, 1]`. */
  lemma SamplerStaysValid(s: Sampler, el: Option<ElementId>, env: Capability, isActive: bool, t: real, data: seq<Byte>)
    requires SamplerValid(s)
    ensures SamplerValid(StartEffect(s, el, env))
    ensures SamplerValid(Frame(s, isActive, t, data))
  {
    if s.loop.Some? {
      RenderFramePreservesShape(s.loop.value, isActive, t, data);
    }
  }

  /** An element without analysis capability yields the non-reactive zero
      vector. */
  lemma NoCapabilityFallsBack(s: Sampler, el: ElementId)
    requires el !in s.cache
    ensures var r := StartEffect(s, Some(el), NoAudioContext);
            !r.hook.isReactive && r.hook.samples == EmptySamples() && r.loop.None?
    ensures var r := StartEffect(s, Some(el), BuildThrows);
            !r.hook.isReactive && r.hook.samples == EmptySamples() && r.loop.None?
  {
  }

  /** With the restart the source writes, turning the sampler inactive freezes
      the published vector: the loop restarts from zeros, nothing is above
      the floor, and no inactive frame ever publishes. */
  lemma AsWrittenInactiveFreezes(s: Sampler, el: ElementId, env: Capability, t: real, data: seq<Byte>)
    requires GetOrCreateGraph(s.cache, el, env).1.Some?
    ensures var r := StartEffectAsWritten(s, Some(el), env);
            Frame(r, false, t, data).hook.samples == s.hook.samples
  {
    var z := EmptySamples();
    assert !AnyAboveFloor(z);
  }

  /** A concrete instance: a published vector of 0.5s stays at 0.5 on the
      first inactive frame after the restart. */
  lemma AsWrittenFreezeExample(el: ElementId, g: Graph)
    ensures var s := Sampler(map[el := g], Hook(seq(SampleCount, _ => 0.5), true), None);
            var r := Frame(StartEffectAsWritten(s, Some(el), Builds(g)), false, 16.0, []);
            r.hook.samples[0] == 0.5
  {
    var s := Sampler(map[el := g], Hook(seq(SampleCount, _ => 0.5), true), None);
    AsWrittenInactiveFreezes(s, el, Builds(g), 16.0, []);
  }

  /** With the corrected restart, an inactive frame after the switch decays
      the published vector: each value above zero shrinks by the factor 0.88. */
  lemma InactiveDecaysPublished(s: Sampler, el: ElementId, env: Capability, t: real, data: seq<Byte>)
    requires GetOrCreateGraph(s.cache, el, env).1.Some?
    requires |s.hook.samples| == SampleCount && InUnit(s.hook.samples)
    requires AnyAboveFloor(s.hook.samples)
    ensures var r := Frame(StartEffect(s, Some(el), env), false, t, data);
            && |r.hook.samples| == SampleCount
            && forall i :: 0 <= i < SampleCount ==> r.hook.samples[i] == s.hook.samples[i] * DecayFactor
  {
  }
}

=== FILE: firebase_sync.dfy ===
/** `src/hooks/use_firebase_sync.ts`: reading the broadcast start time
    (a Firestore timestamp, seconds or milliseconds, as a number or a string),
    the one-shot load that fills the hook's state from Firestore, from the
    demo setting or with an error, and the snapshot derived from the start
    time and the clock. JavaScript numbers are exact reals; `Number(string)`
    is an oracle parameter. */
module FirebaseSync {

  import opened Wrappers
  import opened Text
  import StreamSync

  /** A JavaScript number: finite, or one of `NaN`, `Infinity`, `-Infinity`. */
  datatype JsNumber = Finite(value: real) | NonFinite

  /** The shapes `broadcast_start_time` can take: an object with a
      `toMillis` method, a number, a string, or anything else. */
  datatype RawValue = TimestampLike(millis: real) | Number(n: JsNumber) | Str(s: string) | OtherValue

  /** Above this value a number is already milliseconds; at or below it,
      seconds. */
  const MillisecondThreshold: real := 1000000000000.0

  /** `Math.trunc`: rounds toward zero. */
  function Trunc(x: real): (r: int)
    ensures x >= 0.0 ==> 0 <= r && r as real <= x < r as real + 1.0
    ensures x < 0.0 ==> r <= 0 && r as real - 1.0 < x <= r as real
  {
    if x >= 0.0 then x.Floor else -((-x).Floor)
  }

  /** `normalizeTimestampToMs`: the value in whole milliseconds. */
  function NormalizeTimestampToMs(v: real): (r: int)
    ensures v > MillisecondThreshold ==> r as real <= v < r as real + 1.0
    ensures 0.0 <= v <= MillisecondThreshold ==> 0 <= r && r as real <= v * 1000.0 < r as real + 1.0
    ensures v < 0.0 ==> r <= 0 && r as real - 1.0 < v * 1000.0 <= r as real
  {
    if v > MillisecondThreshold then Trunc(v) else Trunc(v * 1000.0)
  }

  /** A whole number of milliseconds past the threshold is kept as it is. */
  lemma MillisecondsKept(ms: int)
    requires ms as real > MillisecondThreshold
    ensures NormalizeTimestampToMs(ms as real) == ms
  {
  }

  /** A whole number of seconds, up to the threshold, becomes that many
      thousands of milliseconds. */
  lemma SecondsScaled(sec: int)
    requires 0 <= sec && sec as real <= MillisecondThreshold
    ensures NormalizeTimestampToMs(sec as real) == sec * 1000
  {
  }

  /** Normalising a result past the threshold again changes nothing. */
  lemma NormalizeStable(v: real)
    requires NormalizeTimestampToMs(v) as real > MillisecondThreshold
    ensures NormalizeTimestampToMs(NormalizeTimestampToMs(v) as real) == NormalizeTimestampToMs(v)
  {
  }

  /** The threshold itself is read as seconds: 10^12 becomes 10^15. */
  lemma ThresholdReadAsSeconds()
    ensures NormalizeTimestampToMs(MillisecondThreshold) == 1000000000000000
  {
  }

  /** `parseBroadcastStartMs`: a timestamp object, a finite number, or a
      non-blank string that `Number` reads as finite gives milliseconds;
      everything else gives nothing. */
  function ParseBroadcastStartMs(value: RawValue, numberOf: string -> JsNumber): (r: Option<int>)
    ensures value.TimestampLike? ==> r == Some(NormalizeTimestampToMs(value.millis))
    ensures value.Number? ==> (r.Some? <==> value.n.Finite?)
    ensures value.Str? ==> (r.Some? <==> Trim(value.s) != [] && numberOf(value.s).Finite?)
    ensures value.Str? && r.Some? ==> r == Some(NormalizeTimestampToMs(numberOf(value.s).value))
    ensures value.OtherValue? ==> r.None?
  {
    match value
    case TimestampLike(millis) => Some(NormalizeTimestampToMs(millis))
    case Number(n) => if n.Finite? then Some(NormalizeTimestampToMs(n.value)) else None
    case Str(s) =>
      if |Trim(s)| > 0 && numberOf(s).Finite? then Some(NormalizeTimestampToMs(numberOf(s).value)) else None
    case OtherValue => None
  }

  /** What `Number` is assumed to do on plain decimal digit strings. */
  ghost predicate ReadsDecimals(numberOf: string -> JsNumber) {
    forall s :: |s| > 0 && (forall i :: 0 <= i < |s| ==> IsDigit(s[i])) ==>
      numberOf(s) == Finite(DigitsValue(s) as real)
  }

  /** The decimal rendering of a start time is read back: a millisecond count
      past the threshold as itself, a second count as thousands of
      milliseconds. */
  lemma ParseRendered(n: nat, numberOf: string -> JsNumber)
    requires ReadsDecimals(numberOf)
    ensures n as real > MillisecondThreshold ==> ParseBroadcastStartMs(Str(NatToString(n)), numberOf) == Some(n)
    ensures n as real <= MillisecondThreshold ==> ParseBroadcastStartMs(Str(NatToString(n)), numberOf) == Some(n * 1000)
  {
    RenderedIsNumber(n, numberOf);
    if n as real > MillisecondThreshold {
      MillisecondsKept(n);
    } else {
      SecondsScaled(n);
    }
  }

  /** The decimal rendering of `n` is non-blank and `Number` reads it as `n`. */
  lemma RenderedIsNumber(n: nat, numberOf: string -> JsNumber)
    requires ReadsDecimals(numberOf)
    ensures |Trim(NatToString(n))| > 0
    ensures numberOf(NatToString(n)) == Finite(n as real)
  {
    var s := NatToString(n);
    NatToStringValue(n);
    assert |s| > 0 && forall i :: 0 <= i < |s| ==> IsDigit(s[i]);
    assert numberOf(s) == Finite(DigitsValue(s) as real);
    DigitIsNotSpace(s[0]);
    DigitIsNotSpace(s[|s| - 1]);
    TrimOfTrimmed(s);
  }

  lemma DigitIsNotSpace(c: char)
    requires IsDigit(c)
    ensures !IsSpace(c)
  {
  }

  /** A blank string is never a start time. */
  lemma BlankIsNotAStart(s: string, numberOf: string -> JsNumber)
    requires AllSpace(s)
    ensures ParseBroadcastStartMs(Str(s), numberOf).None?
  {
    TrimAllSpace(s);
  }

  /** `isFirebaseConfigured`: every required setting is present and not
      blank. */
  predicate IsFirebaseConfigured(required: seq<Option<string>>) {
    forall i :: 0 <= i < |required| ==> required[i].Some? && |Trim(required[i].value)| > 0
  }

  /** Where the start time came from. */
  datatype Source = Firestore | Demo | Unconfigured

  /** The hook's state, without the derived snapshot. */
  datatype SyncState = SyncState(
    isLoading: bool,
    errorMessage: Option<string>,
    broadcastStartMs: Option<int>,
    source: Source,
    lastFetchAtMs: Option<int>)

  function InitialState(): SyncState {
    SyncState(true, None, None, Unconfigured, None)
  }

  /** The deployment's settings the load reads. */
  datatype LoadEnv = LoadEnv(
    required: seq<Option<string>>,
    collection: Option<string>,
    document: Option<string>,
    demoRaw: Option<string>)

  /** What reading the station document gives: no document, a document with
      its `broadcast_start_time` field, or a rejection (with the message when
      an `Error` was thrown). */
  datatype Fetch = DocumentMissing | DocumentFound(broadcastStartTime: RawValue) | FetchFailed(message: Option<string>)

  const DefaultCollection: string := "stations"
  const DefaultDocument: string := "signal-radio"
  const NotAvailableMessage: string := "Firestore is not available in this environment."
  const ConfigMissingMessage: string :=
    "Firebase config is missing. Add .env values to fetch broadcast_start_time from Firestore."
  const InvalidStartMessage: string :=
    "broadcast_start_time is missing or invalid. Use a Firestore Timestamp, seconds, or milliseconds."
  const FetchFailedMessage: string := "Failed to fetch broadcast start time."

  function DocumentMissingMessage(env: LoadEnv): string {
    "Firestore document " + env.collection.GetOr(DefaultCollection) + "/"
      + env.document.GetOr(DefaultDocument) + " was not found."
  }

  /** The writes made when the load starts. */
  function Started(s: SyncState): SyncState {
    s.(isLoading := true, errorMessage := None)
  }

  /** A failed load: no start time, no source, the message shown. */
  function Failed(s: SyncState, message: string, cancelled: bool): SyncState {
    if cancelled then s
    else s.(broadcastStartMs := None, source := Unconfigured, errorMessage := Some(message), isLoading := false)
  }

  /** A successful load from `source` at time `nowMs`. */
  function Succeeded(s: SyncState, startMs: int, source: Source, nowMs: int, cancelled: bool): SyncState {
    if cancelled then s
    else s.(broadcastStartMs := Some(startMs), source := source, lastFetchAtMs := Some(nowMs), isLoading := false)
  }

  /** The demo start time: only a non-empty `VITE_DEMO_BROADCAST_START_MS`
      is parsed, and it counts only when it parses. */
  function DemoStart(env: LoadEnv, numberOf: string -> JsNumber): (r: Option<int>)
    ensures env.demoRaw.None? || env.demoRaw.value == "" ==> r.None?
    ensures env.demoRaw.Some? && env.demoRaw.value != "" ==> r == ParseBroadcastStartMs(Str(env.demoRaw.value), numberOf)
  {
    if env.demoRaw.Some? && |env.demoRaw.value| > 0
    then ParseBroadcastStartMs(Str(env.demoRaw.value), numberOf) else None
  }

  /** `loadBroadcastStart`. The database handle exists exactly when the
      settings are complete; without it the demo value is tried, with it the
      station document is read. `cancelled` says whether the effect was torn
      down before the load settled; the writes after that point are then
      skipped. */
  function LoadBroadcastStart(s: SyncState, env: LoadEnv, fetch: Fetch, cancelled: bool, nowMs: int, numberOf: string -> JsNumber): (r: SyncState)
    ensures cancelled ==> r == Started(s)
    ensures !cancelled ==> !r.isLoading
    ensures r.lastFetchAtMs == s.lastFetchAtMs || r.lastFetchAtMs == Some(nowMs)
    // unconfigured: a non-empty demo value that parses is the start
    ensures !cancelled && !IsFirebaseConfigured(env.required) && DemoStart(env, numberOf).Some? ==>
              r == Started(s).(broadcastStartMs := DemoStart(env, numberOf), source := Demo,
                               lastFetchAtMs := Some(nowMs), isLoading := false)
    // unconfigured without a usable demo value: the missing-config message
    ensures !cancelled && !IsFirebaseConfigured(env.required) && DemoStart(env, numberOf).None? ==>
              r == Started(s).(broadcastStartMs := None, source := Unconfigured,
                               errorMessage := Some(ConfigMissingMessage), isLoading := false)
    // configured: the document decides, and every failure names its cause
    ensures !cancelled && IsFirebaseConfigured(env.required) && fetch.DocumentMissing? ==>
              r == Started(s).(broadcastStartMs := None, source := Unconfigured,
                               errorMessage := Some(DocumentMissingMessage(env)), isLoading := false)
    ensures !cancelled && IsFirebaseConfigured(env.required) && fetch.FetchFailed? ==>
              r == Started(s).(broadcastStartMs := None, source := Unconfigured,
                               errorMessage := Some(fetch.message.GetOr(FetchFailedMessage)), isLoading := false)
    ensures !cancelled && IsFirebaseConfigured(env.required) && fetch.DocumentFound? ==>
              if ParseBroadcastStartMs(fetch.broadcastStartTime, numberOf).None? then
                r == Started(s).(broadcastStartMs := None, source := Unconfigured,
                                 errorMessage := Some(InvalidStartMessage), isLoading := false)
              else
                r == Started(s).(broadcastStartMs := ParseBroadcastStartMs(fetch.broadcastStartTime, numberOf),
                                 source := Firestore, lastFetchAtMs := Some(nowMs), isLoading := false)
  {
    var started := Started(s);
    var configured := IsFirebaseConfigured(env.required);
    if !configured then
      var demo := DemoStart(env, numberOf);
      if demo.Some? then Succeeded(started, demo.value, Demo, nowMs, cancelled)
      else Failed(started, if configured then NotAvailableMessage else ConfigMissingMessage, cancelled)
    else
      match fetch
      case DocumentMissing => Failed(started, DocumentMissingMessage(env), cancelled)
      case FetchFailed(message) => Failed(started, message.GetOr(FetchFailedMessage), cancelled)
      case DocumentFound(raw) =>
        match ParseBroadcastStartMs(raw, numberOf)
        case None => Failed(started, InvalidStartMessage, cancelled)
        case Some(ms) => Succeeded(started, ms, Firestore, nowMs, cancelled)
  }

  /** A settled load is consistent: a start time exactly when a source other
      than "unconfigured" is recorded, an error message exactly when there is
      no start time, and the fetch time recorded exactly on success. */
  lemma LoadSettles(s: SyncState, env: LoadEnv, fetch: Fetch, nowMs: int, numberOf: string -> JsNumber)
    ensures var r := LoadBroadcastStart(s, env, fetch, false, nowMs, numberOf);
            && !r.isLoading
            && (r.broadcastStartMs.Some? <==> r.source != Unconfigured)
            && (r.errorMessage.Some? <==> r.broadcastStartMs.None?)
            && (r.broadcastStartMs.Some? ==> r.lastFetchAtMs == Some(nowMs))
            && (r.broadcastStartMs.None? ==> r.lastFetchAtMs == s.lastFetchAtMs)
  {
  }

  /** The demo value is used only when Firebase is not configured, and the
      "not available" message is never the one shown for a missing
      configuration: the database handle exists whenever the settings are
      complete, so that branch of the message is dead. */
  lemma SourceMatchesConfiguration(s: SyncState, env: LoadEnv, fetch: Fetch, nowMs: int, numberOf: string -> JsNumber)
    ensures var r := LoadBroadcastStart(s, env, fetch, false, nowMs, numberOf);
            && (r.source == Demo ==> !IsFirebaseConfigured(env.required))
            && (r.source == Firestore ==> IsFirebaseConfigured(env.required))
            && (!IsFirebaseConfigured(env.required) && r.errorMessage.Some? ==> r.errorMessage == Some(ConfigMissingMessage))
  {
  }

  /** With Firebase configured, a readable document wins and the demo value
      is ignored. */
  lemma FirestoreWins(s: SyncState, env: LoadEnv, raw: RawValue, nowMs: int, numberOf: string -> JsNumber)
    requires IsFirebaseConfigured(env.required)
    requires ParseBroadcastStartMs(raw, numberOf).Some?
    ensures LoadBroadcastStart(s, env, DocumentFound(raw), false, nowMs, numberOf)
            == Started(s).(broadcastStartMs := ParseBroadcastStartMs(raw, numberOf), source := Firestore,
                           lastFetchAtMs := Some(nowMs), isLoading := false)
  {
  }

  /** The snapshot memo: none without a start time, otherwise the stream
      position at `nowMs` (an `Err` is the exception `getStreamSync` would
      raise during render). */
  function SyncSnapshot(broadcastStartMs: Option<int>, nowMs: int, playlist: seq<StreamSync.Track>): (r: Option<Result<StreamSync.Snapshot, StreamSync.SyncError>>)
    ensures r.None? <==> broadcastStartMs.None?
    ensures broadcastStartMs.Some? ==> r == Some(StreamSync.GetStreamSync(broadcastStartMs.value, nowMs, playlist))
    ensures r.Some? && r.value.Ok? ==> StreamSync.Resolved(broadcastStartMs.value, nowMs, playlist, r.value.value)
    ensures r.Some? && r.value.Ok? ==>
              r.value.value.broadcastStartMs == broadcastStartMs.value && r.value.value.listenerNowMs == nowMs
  {
    match broadcastStartMs
    case None => None
    case Some(start) =>
      StreamSync.ResolveSound(start, nowMs, playlist);
      Some(StreamSync.GetStreamSync(start, nowMs, playlist))
  }

  /** A settled load feeds the snapshot: after a successful load the memo
      resolves the loaded start time at the listener's clock, and after a
      failed one there is no snapshot. */
  lemma LoadedSnapshot(s: SyncState, env: LoadEnv, fetch: Fetch, nowMs: int, clockMs: int,
                       numberOf: string -> JsNumber, playlist: seq<StreamSync.Track>)
    ensures var r := LoadBroadcastStart(s, env, fetch, false, nowMs, numberOf);
            var snap := SyncSnapshot(r.broadcastStartMs, clockMs, playlist);
            && (r.source == Unconfigured <==> snap.None?)
            && (snap.Some? && snap.value.Ok? ==>
                  StreamSync.Resolved(r.broadcastStartMs.value, clockMs, playlist, snap.value.value))
  {
    LoadSettles(s, env, fetch, nowMs, numberOf);
  }
}

=== FILE: migrate_env.dfy ===
/** The configuration half of `scripts/migrate_playlist_to_cloudinary.mjs`:
    the command-line flags, the `.env` file reader, the boolean and integer
    readers for settings, and the merge of flags, files and the process
    environment into the run's configuration. `Number.parseInt` is an oracle
    parameter; file reads are replaced by the files' contents. */
module MigrateEnv {

  import opened Wrappers
  import opened Text

  /** What `Number.parseInt` gives: `NaN` or an integer. */
  datatype ParsedInt = NotANumber | Integer(n: int)

  /** `Math.max(lo, v)`: `NaN` stays `NaN`. */
  function JsMax(lo: int, v: ParsedInt): (r: ParsedInt)
    ensures v.NotANumber? <==> r.NotANumber?
    ensures r.Integer? ==> r.n >= lo && (r.n == lo || r.n == v.n)
  {
    match v
    case NotANumber => NotANumber
    case Integer(n) => Integer(if n >= lo then n else lo)
  }

  // ---------------------------------------------------------------------
  // Command-line flags
  // ---------------------------------------------------------------------

  /** The flags `parseArgs` collects; `None` stands for the source's `null`. */
  datatype Flags = Flags(
    dryRun: bool,
    limit: Option<ParsedInt>,
    startIndex: ParsedInt,
    onlyIds: Option<set<string>>,
    folder: Option<string>,
    playlistFile: Option<string>,
    manifestFile: Option<string>,
    maxRetries: Option<ParsedInt>,
    overwrite: bool,
    skipUploaded: Option<bool>)

  function DefaultFlags(): Flags {
    Flags(false, None, Integer(0), None, None, None, None, None, true, None)
  }

  const DryRunFlag: string := "--dry-run"
  const NoOverwriteFlag: string := "--no-overwrite"
  const LimitPrefix: string := "--limit="
  const StartIndexPrefix: string := "--start-index="
  const OnlyPrefix: string := "--only="
  const FolderPrefix: string := "--folder="
  const PlaylistPrefix: string := "--playlist="
  const ManifestPrefix: string := "--manifest="
  const MaxRetriesPrefix: string := "--max-retries="
  const SkipUploadedPrefix: string := "--skip-uploaded="

  /** An argument `parseArgs` recognises. */
  predicate IsKnownArg(arg: string) {
    || arg == DryRunFlag || arg == NoOverwriteFlag
    || StartsWith(arg, LimitPrefix) || StartsWith(arg, StartIndexPrefix) || StartsWith(arg, OnlyPrefix)
    || StartsWith(arg, FolderPrefix) || StartsWith(arg, PlaylistPrefix) || StartsWith(arg, ManifestPrefix)
    || StartsWith(arg, MaxRetriesPrefix) || StartsWith(arg, SkipUploadedPrefix)
  }

  /** The ids of `--only=`: the comma-separated pieces, trimmed, without the
      empty ones. */
  function OnlyIds(raw: string): (r: set<string>)
    ensures forall id :: id in r ==> |id| > 0
  {
    var pieces := Split(raw, ',');
    set k | 0 <= k < |pieces| && |Trim(pieces[k])| > 0 :: Trim(pieces[k])
  }

  /** Ids written comma-separated are read back as exactly that set. */
  lemma OnlyIdsOfJoined(ids: seq<string>)
    requires forall k :: 0 <= k < |ids| ==> |ids[k]| > 0 && ',' !in ids[k]
    requires forall k :: 0 <= k < |ids| ==> !IsSpace(ids[k][0]) && !IsSpace(ids[k][|ids[k]| - 1])
    ensures OnlyIds(Join(ids, ',')) == set k | 0 <= k < |ids| :: ids[k]
  {
    if |ids| == 0 {
      OnlyIdsOfEmpty();
    } else {
      SplitJoin(ids, ',');
      forall k | 0 <= k < |ids|
        ensures Trim(ids[k]) == ids[k]
      {
        TrimOfTrimmed(ids[k]);
      }
      OnlyIdsOfPieces(Join(ids, ','), ids);
    }
  }

  /** `--only=` with padded ids and blank pieces: each piece is an id (or
      nothing) between whitespace, and the set read is exactly the non-empty
      ids, trimmed of their padding. */
  lemma OnlyIdsOfPadded(pieces: seq<string>, before: seq<string>, words: seq<string>, after: seq<string>)
    requires |pieces| == |before| == |words| == |after|
    requires forall k :: 0 <= k < |pieces| ==> pieces[k] == before[k] + words[k] + after[k]
    requires forall k :: 0 <= k < |pieces| ==> AllSpace(before[k]) && AllSpace(after[k])
    requires forall k :: 0 <= k < |pieces| ==> ',' !in pieces[k]
    requires forall k :: 0 <= k < |words| && |words[k]| > 0 ==>
               !IsSpace(words[k][0]) && !IsSpace(words[k][|words[k]| - 1])
    ensures OnlyIds(Join(pieces, ',')) == set k | 0 <= k < |words| && |words[k]| > 0 :: words[k]
  {
    if |pieces| == 0 {
      OnlyIdsOfEmpty();
    } else {
      SplitJoin(pieces, ',');
      forall k | 0 <= k < |pieces|
        ensures Trim(pieces[k]) == words[k]
      {
        PaddedPiece(before[k], words[k], after[k]);
      }
      OnlyIdsOfSplit(Join(pieces, ','), pieces, words);
    }
  }

  /** When the pieces of the split trim to `words`, `--only=` reads the
      non-empty words. */
  lemma OnlyIdsOfSplit(raw: string, pieces: seq<string>, words: seq<string>)
    requires Split(raw, ',') == pieces && |pieces| == |words|
    requires forall k :: 0 <= k < |pieces| ==> Trim(pieces[k]) == words[k]
    ensures OnlyIds(raw) == set k | 0 <= k < |words| && |words[k]| > 0 :: words[k]
  {
  }

  /** `--only= a ,,b ` reads the ids `a` and `b`. */
  lemma OnlyIdsExample()
    ensures OnlyIds(" a ,,b ") == {"a", "b"}
  {
    var pieces: seq<string> := [" a ", "", "b "];
    var words: seq<string> := ["a", "", "b"];
    OnlyIdsOfPadded(pieces, [" ", "", ""], words, [" ", "", " "]);
    var tail: seq<string> := ["", "b "];
    assert pieces[1..] == tail && tail[1..] == ["b "];
    assert Join(tail, ',') == "" + [','] + "b ";
    assert Join(pieces, ',') == " a ,,b ";
    assert (set k | 0 <= k < |words| && |words[k]| > 0 :: words[k]) == {"a", "b"} by {
      assert words[0] == "a" && words[2] == "b" && |words[1]| == 0;
    }
  }

  /** A word, or nothing, between whitespace trims to the word. */
  lemma PaddedPiece(a: string, w: string, b: string)
    requires AllSpace(a) && AllSpace(b)
    requires |w| > 0 ==> !IsSpace(w[0]) && !IsSpace(w[|w| - 1])
    ensures Trim(a + w + b) == w
  {
    if |w| > 0 {
      TrimOf(a + w + b, a, w, b);
    } else {
      assert a + w + b == a + b;
      TrimAllSpace(a + b);
    }
  }

  lemma OnlyIdsOfEmpty()
    ensures OnlyIds([]) == {}
  {
    var empty: string := [];
    assert Split(empty, ',') == [empty];
    assert Trim(empty) == empty;
  }

  /** When the comma-separated pieces are already trimmed and non-empty,
      `--only=` reads exactly those pieces. */
  lemma OnlyIdsOfPieces(raw: string, ids: seq<string>)
    requires Split(raw, ',') == ids
    requires forall k :: 0 <= k < |ids| ==> |ids[k]| > 0 && Trim(ids[k]) == ids[k]
    ensures OnlyIds(raw) == set k | 0 <= k < |ids| :: ids[k]
  {
  }

  /** One argument of the `parseArgs` loop: each recognised form updates
      its flag; anything else is an error. */
  function ApplyArg(f: Flags, arg: string, parseInt: string -> ParsedInt): (r: Result<Flags, string>)
    ensures r.Err? <==> !IsKnownArg(arg)
    ensures r.Err? ==> r.error == "Unknown argument: " + arg
    ensures arg == DryRunFlag ==> r == Ok(f.(dryRun := true))
    ensures arg == NoOverwriteFlag ==> r == Ok(f.(overwrite := false))
    ensures r.Ok? && arg != DryRunFlag ==> r.value.dryRun == f.dryRun
    ensures r.Ok? && arg != NoOverwriteFlag ==> r.value.overwrite == f.overwrite
    ensures StartsWith(arg, LimitPrefix) ==> r == Ok(f.(limit := Some(parseInt(arg[|LimitPrefix|..]))))
    ensures StartsWith(arg, StartIndexPrefix) ==> r == Ok(f.(startIndex := parseInt(arg[|StartIndexPrefix|..])))
    ensures StartsWith(arg, OnlyPrefix) ==> r == Ok(f.(onlyIds := Some(OnlyIds(arg[|OnlyPrefix|..]))))
    ensures StartsWith(arg, FolderPrefix) ==> r == Ok(f.(folder := Some(arg[|FolderPrefix|..])))
    ensures StartsWith(arg, PlaylistPrefix) ==> r == Ok(f.(playlistFile := Some(arg[|PlaylistPrefix|..])))
    ensures StartsWith(arg, ManifestPrefix) ==> r == Ok(f.(manifestFile := Some(arg[|ManifestPrefix|..])))
    ensures StartsWith(arg, MaxRetriesPrefix) ==> r == Ok(f.(maxRetries := Some(parseInt(arg[|MaxRetriesPrefix|..]))))
    ensures StartsWith(arg, SkipUploadedPrefix) ==>
              r == Ok(f.(skipUploaded := Some(ToLower(arg[|SkipUploadedPrefix|..]) == "true")))
  {
    NoOverwriteUnprefixed();
    ArgFormsDisjoint(arg);
    if arg == DryRunFlag then Ok(f.(dryRun := true))
    else if StartsWith(arg, LimitPrefix) then Ok(f.(limit := Some(parseInt(arg[|LimitPrefix|..]))))
    else if StartsWith(arg, StartIndexPrefix) then Ok(f.(startIndex := parseInt(arg[|StartIndexPrefix|..])))
    else if StartsWith(arg, OnlyPrefix) then Ok(f.(onlyIds := Some(OnlyIds(arg[|OnlyPrefix|..]))))
    else if StartsWith(arg, FolderPrefix) then Ok(f.(folder := Some(arg[|FolderPrefix|..])))
    else if StartsWith(arg, PlaylistPrefix) then Ok(f.(playlistFile := Some(arg[|PlaylistPrefix|..])))
    else if StartsWith(arg, ManifestPrefix) then Ok(f.(manifestFile := Some(arg[|ManifestPrefix|..])))
    else if StartsWith(arg, MaxRetriesPrefix) then Ok(f.(maxRetries := Some(parseInt(arg[|MaxRetriesPrefix|..]))))
    else if arg == NoOverwriteFlag then Ok(f.(overwrite := false))
    else if StartsWith(arg, SkipUploadedPrefix) then
      Ok(f.(skipUploaded := Some(ToLower(arg[|SkipUploadedPrefix|..]) == "true")))
    else Err("Unknown argument: " + arg)
  }

  /** The `parseArgs` loop from flags `f` over the remaining arguments. */
  function ParseArgsFrom(f: Flags, argv: seq<string>, parseInt: string -> ParsedInt): (r: Result<Flags, string>)
    decreases |argv|
    ensures r.Err? <==> exists i :: 0 <= i < |argv| && !IsKnownArg(argv[i])
    ensures r.Err? ==> exists i :: 0 <= i < |argv| && !IsKnownArg(argv[i])
                                    && (forall j :: 0 <= j < i ==> IsKnownArg(argv[j]))
                                    && r.error == "Unknown argument: " + argv[i]
    ensures r.Ok? ==> (r.value.dryRun <==> f.dryRun || DryRunFlag in argv)
    ensures r.Ok? ==> (r.value.overwrite <==> f.overwrite && NoOverwriteFlag !in argv)
  {
    if |argv| == 0 then Ok(f)
    else
      match ApplyArg(f, argv[0], parseInt)
      case Err(e) => Err(e)
      case Ok(g) =>
        var r := ParseArgsFrom(g, argv[1..], parseInt);
        assert argv == [argv[0]] + argv[1..];
        if r.Err? then FirstUnknownShift(argv, r.error); r else r
  }

  /** The first unknown argument of the tail, after a known head, is the
      first unknown argument of the whole list. */
  lemma FirstUnknownShift(argv: seq<string>, error: string)
    requires |argv| > 0 && IsKnownArg(argv[0])
    requires exists i :: 0 <= i < |argv[1..]| && !IsKnownArg(argv[1..][i])
                         && (forall j :: 0 <= j < i ==> IsKnownArg(argv[1..][j]))
                         && error == "Unknown argument: " + argv[1..][i]
    ensures exists i :: 0 <= i < |argv| && !IsKnownArg(argv[i]) && (forall j :: 0 <= j < i ==> IsKnownArg(argv[j]))
                        && error == "Unknown argument: " + argv[i]
  {
    var i :| 0 <= i < |argv[1..]| && !IsKnownArg(argv[1..][i]) && (forall j :: 0 <= j < i ==> IsKnownArg(argv[1..][j]))
             && error == "Unknown argument: " + argv[1..][i];
    assert !IsKnownArg(argv[i + 1]);
    assert forall j :: 0 <= j < i + 1 ==> IsKnownArg(argv[j]) by {
      forall j | 0 <= j < i + 1
        ensures IsKnownArg(argv[j])
      {
        if j > 0 {
          assert argv[j] == argv[1..][j - 1];
        }
      }
    }
  }

  /** `parseArgs`: the error for the first unrecognised argument, otherwise
      the flags, where `--dry-run` and `--no-overwrite` anywhere set their
      switches. */
  function ParseArgs(argv: seq<string>, parseInt: string -> ParsedInt): (r: Result<Flags, string>)
    ensures r.Err? <==> exists i :: 0 <= i < |argv| && !IsKnownArg(argv[i])
    ensures r.Ok? ==> (r.value.dryRun <==> DryRunFlag in argv)
    ensures r.Ok? ==> (r.value.overwrite <==> NoOverwriteFlag !in argv)
  {
    ParseArgsFrom(DefaultFlags(), argv, parseInt)
  }

  /** The argument forms exclude each other: an argument with one valued
      prefix starts with none of the others and is neither switch, so the
      order in which the loop compares them does not matter. */
  lemma ArgFormsDisjoint(arg: string)
    ensures StartsWith(arg, LimitPrefix) ==> arg != DryRunFlag
    ensures StartsWith(arg, StartIndexPrefix) ==> arg != DryRunFlag && !StartsWith(arg, LimitPrefix)
    ensures StartsWith(arg, OnlyPrefix) ==>
              arg != DryRunFlag && !StartsWith(arg, LimitPrefix) && !StartsWith(arg, StartIndexPrefix)
    ensures StartsWith(arg, FolderPrefix) ==>
              && arg != DryRunFlag && !StartsWith(arg, LimitPrefix) && !StartsWith(arg, StartIndexPrefix)
              && !StartsWith(arg, OnlyPrefix)
    ensures StartsWith(arg, PlaylistPrefix) ==>
              && arg != DryRunFlag && !StartsWith(arg, LimitPrefix) && !StartsWith(arg, StartIndexPrefix)
              && !StartsWith(arg, OnlyPrefix) && !StartsWith(arg, FolderPrefix)
    ensures StartsWith(arg, ManifestPrefix) ==>
              && arg != DryRunFlag && !StartsWith(arg, LimitPrefix) && !StartsWith(arg, StartIndexPrefix)
              && !StartsWith(arg, OnlyPrefix) && !StartsWith(arg, FolderPrefix) && !StartsWith(arg, PlaylistPrefix)
    ensures StartsWith(arg, MaxRetriesPrefix) ==>
              && arg != DryRunFlag && !StartsWith(arg, LimitPrefix) && !StartsWith(arg, StartIndexPrefix)
              && !StartsWith(arg, OnlyPrefix) && !StartsWith(arg, FolderPrefix) && !StartsWith(arg, PlaylistPrefix)
              && !StartsWith(arg, ManifestPrefix)
    ensures StartsWith(arg, SkipUploadedPrefix) ==>
              && arg != DryRunFlag && arg != NoOverwriteFlag && !StartsWith(arg, LimitPrefix)
              && !StartsWith(arg, StartIndexPrefix) && !StartsWith(arg, OnlyPrefix) && !StartsWith(arg, FolderPrefix)
              && !StartsWith(arg, PlaylistPrefix) && !StartsWith(arg, ManifestPrefix) && !StartsWith(arg, MaxRetriesPrefix)
  {
    assert StartsWith(DryRunFlag, DryRunFlag) && StartsWith(NoOverwriteFlag, NoOverwriteFlag);
    // each pair of forms differs at the position given to PrefixesDiffer
    if StartsWith(arg, LimitPrefix) {
      PrefixesDiffer(arg, LimitPrefix, DryRunFlag, 2);
    }
    if StartsWith(arg, StartIndexPrefix) {
      var p := StartIndexPrefix;
      PrefixesDiffer(arg, p, DryRunFlag, 2);
      PrefixesDiffer(arg, p, LimitPrefix, 2);
    }
    if StartsWith(arg, OnlyPrefix) {
      var p := OnlyPrefix;
      PrefixesDiffer(arg, p, DryRunFlag, 2);
      PrefixesDiffer(arg, p, LimitPrefix, 2);
      PrefixesDiffer(arg, p, StartIndexPrefix, 2);
    }
    if StartsWith(arg, FolderPrefix) {
      var p := FolderPrefix;
      PrefixesDiffer(arg, p, DryRunFlag, 2);
      PrefixesDiffer(arg, p, LimitPrefix, 2);
      PrefixesDiffer(arg, p, StartIndexPrefix, 2);
      PrefixesDiffer(arg, p, OnlyPrefix, 2);
    }
    if StartsWith(arg, PlaylistPrefix) {
      var p := PlaylistPrefix;
      PrefixesDiffer(arg, p, DryRunFlag, 2);
      PrefixesDiffer(arg, p, LimitPrefix, 2);
      PrefixesDiffer(arg, p, StartIndexPrefix, 2);
      PrefixesDiffer(arg, p, OnlyPrefix, 2);
      PrefixesDiffer(arg, p, FolderPrefix, 2);
    }
    if StartsWith(arg, ManifestPrefix) {
      var p := ManifestPrefix;
      PrefixesDiffer(arg, p, DryRunFlag, 2);
      PrefixesDiffer(arg, p, LimitPrefix, 2);
      PrefixesDiffer(arg, p, StartIndexPrefix, 2);
      PrefixesDiffer(arg, p, OnlyPrefix, 2);
      PrefixesDiffer(arg, p, FolderPrefix, 2);
      PrefixesDiffer(arg, p, PlaylistPrefix, 2);
    }
    if StartsWith(arg, MaxRetriesPrefix) {
      var p := MaxRetriesPrefix;
      PrefixesDiffer(arg, p, DryRunFlag, 2);
      PrefixesDiffer(arg, p, LimitPrefix, 2);
      PrefixesDiffer(arg, p, StartIndexPrefix, 2);
      PrefixesDiffer(arg, p, OnlyPrefix, 2);
      PrefixesDiffer(arg, p, FolderPrefix, 2);
      PrefixesDiffer(arg, p, PlaylistPrefix, 2);
      PrefixesDiffer(arg, p, ManifestPrefix, 4);
    }
    if StartsWith(arg, SkipUploadedPrefix) {
      var p := SkipUploadedPrefix;
      PrefixesDiffer(arg, p, DryRunFlag, 2);
      PrefixesDiffer(arg, p, NoOverwriteFlag, 2);
      PrefixesDiffer(arg, p, LimitPrefix, 2);
      PrefixesDiffer(arg, p, StartIndexPrefix, 3);
      PrefixesDiffer(arg, p, OnlyPrefix, 2);
      PrefixesDiffer(arg, p, FolderPrefix, 2);
      PrefixesDiffer(arg, p, PlaylistPrefix, 2);
      PrefixesDiffer(arg, p, ManifestPrefix, 2);
      PrefixesDiffer(arg, p, MaxRetriesPrefix, 2);
    }
  }

  /** Two prefixes that differ at a position cannot both start `arg`. */
  lemma PrefixesDiffer(arg: string, p: string, q: string, i: nat)
    requires StartsWith(arg, p) && i < |p| && i < |q| && p[i] != q[i]
    ensures !StartsWith(arg, q)
  {
    assert arg[..|p|][i] == p[i];
    assert |q| <= |arg| ==> arg[..|q|][i] == arg[i];
  }

  /** `--no-overwrite` starts with none of the valued flags' prefixes that
      the loop tests before it. */
  lemma NoOverwriteUnprefixed()
    ensures !StartsWith(NoOverwriteFlag, LimitPrefix) && !StartsWith(NoOverwriteFlag, StartIndexPrefix)
    ensures !StartsWith(NoOverwriteFlag, OnlyPrefix) && !StartsWith(NoOverwriteFlag, FolderPrefix)
    ensures !StartsWith(NoOverwriteFlag, PlaylistPrefix) && !StartsWith(NoOverwriteFlag, ManifestPrefix)
    ensures !StartsWith(NoOverwriteFlag, MaxRetriesPrefix)
  {
    var a := NoOverwriteFlag;
    assert StartsWith(a, a);
    PrefixesDiffer(a, a, LimitPrefix, 2);
    PrefixesDiffer(a, a, StartIndexPrefix, 2);
    PrefixesDiffer(a, a, OnlyPrefix, 2);
    PrefixesDiffer(a, a, FolderPrefix, 2);
    PrefixesDiffer(a, a, PlaylistPrefix, 2);
    PrefixesDiffer(a, a, ManifestPrefix, 2);
    PrefixesDiffer(a, a, MaxRetriesPrefix, 2);
  }

  /** `--skip-uploaded=` is true only for `true` in any letter case. */
  lemma SkipUploadedFlag(value: string, parseInt: string -> ParsedInt)
    ensures ParseArgs([SkipUploadedPrefix + value], parseInt).Ok?
    ensures ParseArgs([SkipUploadedPrefix + value], parseInt).value.skipUploaded == Some(ToLower(value) == "true")
  {
    var arg := SkipUploadedPrefix + value;
    var p := SkipUploadedPrefix;
    assert StartsWith(arg, p) by {
      assert arg[..|p|] == p;
    }
    assert arg[|p|..] == value;
    assert arg != DryRunFlag && arg != NoOverwriteFlag by {
      assert arg[2] == 's';
    }
    PrefixesDiffer(arg, p, LimitPrefix, 2);
    PrefixesDiffer(arg, p, StartIndexPrefix, 3);
    PrefixesDiffer(arg, p, OnlyPrefix, 2);
    PrefixesDiffer(arg, p, FolderPrefix, 2);
    PrefixesDiffer(arg, p, PlaylistPrefix, 2);
    PrefixesDiffer(arg, p, ManifestPrefix, 2);
    PrefixesDiffer(arg, p, MaxRetriesPrefix, 2);
    var rest: seq<string> := [];
    assert [arg][1..] == rest;
    var g := DefaultFlags().(skipUploaded := Some(ToLower(value) == "true"));
    assert ApplyArg(DefaultFlags(), arg, parseInt) == Ok(g);
    assert ParseArgsFrom(g, rest, parseInt) == Ok(g);
    assert ParseArgsFrom(DefaultFlags(), [arg], parseInt) == Ok(g);
  }

  /** The argument loop over `argv + [x]` is the loop over `argv` followed
      by one more argument. */
  lemma {:induction false} ParseArgsSnoc(f: Flags, argv: seq<string>, x: string, parseInt: string -> ParsedInt)
    decreases |argv|
    ensures ParseArgsFrom(f, argv + [x], parseInt)
            == match ParseArgsFrom(f, argv, parseInt)
               case Err(e) => Err(e)
               case Ok(g) => ApplyArg(g, x, parseInt)
  {
    if |argv| == 0 {
      assert argv + [x] == [x];
      assert [x][1..] == [];
    } else {
      assert (argv + [x])[0] == argv[0];
      assert (argv + [x])[1..] == argv[1..] + [x];
      match ApplyArg(f, argv[0], parseInt)
      case Err(e) =>
      case Ok(g) => ParseArgsSnoc(g, argv[1..], x, parseInt);
    }
  }

  /** `--limit=` sets only the limit, whatever the flags were. */
  lemma LimitArg(f: Flags, arg: string, parseInt: string -> ParsedInt)
    requires StartsWith(arg, LimitPrefix)
    ensures ApplyArg(f, arg, parseInt) == Ok(f.(limit := Some(parseInt(arg[|LimitPrefix|..]))))
  {
    assert arg[2] == 'l' by {
      assert arg[..|LimitPrefix|][2] == LimitPrefix[2];
    }
  }

  /** `--max-retries=` sets only the retry flag: it starts with none of the
      prefixes the loop compares first. */
  lemma MaxRetriesArg(f: Flags, arg: string, parseInt: string -> ParsedInt)
    requires StartsWith(arg, MaxRetriesPrefix)
    ensures ApplyArg(f, arg, parseInt) == Ok(f.(maxRetries := Some(parseInt(arg[|MaxRetriesPrefix|..]))))
  {
    var p := MaxRetriesPrefix;
    assert arg[2] == 'm' by {
      assert arg[..|p|][2] == p[2];
    }
    PrefixesDiffer(arg, p, LimitPrefix, 2);
    PrefixesDiffer(arg, p, StartIndexPrefix, 2);
    PrefixesDiffer(arg, p, OnlyPrefix, 2);
    PrefixesDiffer(arg, p, FolderPrefix, 2);
    PrefixesDiffer(arg, p, PlaylistPrefix, 2);
    PrefixesDiffer(arg, p, ManifestPrefix, 4);
  }

  /** A later `--limit=` or `--max-retries=` overrides every earlier one and
      leaves the other flags as they were. */
  lemma LastValueFlagWins(argv: seq<string>, x: string, parseInt: string -> ParsedInt)
    requires ParseArgs(argv, parseInt).Ok?
    ensures StartsWith(x, LimitPrefix) ==>
              ParseArgs(argv + [x], parseInt)
              == Ok(ParseArgs(argv, parseInt).value.(limit := Some(parseInt(x[|LimitPrefix|..]))))
    ensures StartsWith(x, MaxRetriesPrefix) ==>
              ParseArgs(argv + [x], parseInt)
              == Ok(ParseArgs(argv, parseInt).value.(maxRetries := Some(parseInt(x[|MaxRetriesPrefix|..]))))
  {
    ParseArgsSnoc(DefaultFlags(), argv, x, parseInt);
    var g := ParseArgs(argv, parseInt).value;
    if StartsWith(x, LimitPrefix) {
      LimitArg(g, x, parseInt);
    }
    if StartsWith(x, MaxRetriesPrefix) {
      MaxRetriesArg(g, x, parseInt);
    }
  }

  // ---------------------------------------------------------------------
  // .env files
  // ---------------------------------------------------------------------

  /** Removes one carriage return at the end of a line. */
  function DropCr(line: string): (r: string)
    ensures '\n' in r ==> '\n' in line
    ensures |line| > 0 && line[|line| - 1] == '\r' ==> line == r + ['\r']
    ensures !(|line| > 0 && line[|line| - 1] == '\r') ==> r == line
  {
    if |line| > 0 && line[|line| - 1] == '\r' then line[..|line| - 1] else line
  }

  /** `raw.split(/\r?\n/)`: lines end at a line feed, and a carriage return
      just before the line feed belongs to the break. */
  function SplitLines(raw: string): (r: seq<string>)
    ensures |r| == |Split(raw, '\n')| && |r| >= 1
    ensures forall i :: 0 <= i < |r| ==> '\n' !in r[i]
  {
    var pieces := Split(raw, '\n');
    seq(|pieces|, i requires 0 <= i < |pieces| => if i < |pieces| - 1 then DropCr(pieces[i]) else pieces[i])
  }

  /** The value is wrapped in matching double or single quotes. */
  predicate Quoted(value: string) {
    (StartsWith(value, "\"") && EndsWith(value, "\"")) || (StartsWith(value, "'") && EndsWith(value, "'"))
  }

  /** `value.slice(1, -1)` for a quoted value: one character off each end,
      so that a lone quote character becomes the empty string. */
  function StripQuotes(value: string): (r: string)
    ensures Quoted(value) && |value| >= 2 ==> value == [value[0]] + r + [value[|value| - 1]]
    ensures Quoted(value) && |value| < 2 ==> r == []
    ensures !Quoted(value) ==> r == value
  {
    if Quoted(value) then
      if |value| >= 2 then
        assert value == [value[0]] + value[1..|value| - 1] + [value[|value| - 1]];
        value[1..|value| - 1]
      else []
    else value
  }

  /** One line of `parseDotEnvFile`: blank lines, comments and lines without
      `=` give nothing; otherwise the trimmed key before the first `=` and the
      trimmed, unquoted value after it. */
  function ParseDotEnvLine(rawLine: string): (r: Option<(string, string)>)
    ensures r.Some? <==> |Trim(rawLine)| > 0 && !StartsWith(Trim(rawLine), "#") && '=' in Trim(rawLine)
  {
    ParseTrimmedLine(Trim(rawLine))
  }

  /** `ParseDotEnvLine` once the line is trimmed. */
  function ParseTrimmedLine(line: string): (r: Option<(string, string)>)
    ensures r.Some? <==> |line| > 0 && !StartsWith(line, "#") && '=' in line
  {
    if |line| == 0 || StartsWith(line, "#") then None
    else
      match IndexOf(line, "=")
      case None => NoEquals(line); None
      case Some(i) => FirstEquals(line, i); Some((Trim(line[..i]), StripQuotes(Trim(line[i + 1..]))))
  }

  /** Where `indexOf("=")` finds nothing the line holds no `=`. */
  lemma NoEquals(line: string)
    requires IndexOf(line, "=").None?
    ensures '=' !in line
  {
    forall j | 0 <= j < |line|
      ensures line[j] != '='
    {
      assert !OccursAt(line, "=", j);
      assert line[j..j + 1] == [line[j]];
    }
  }

  /** `indexOf("=")` finds the first `=`. */
  lemma FirstEquals(line: string, i: nat)
    requires IndexOf(line, "=") == Some(i)
    ensures i < |line| && line[i] == '=' && '=' !in line[..i]
  {
    assert OccursAt(line, "=", i);
    assert line[i..i + 1] == [line[i]];
    forall j | 0 <= j < i
      ensures line[j] != '='
    {
      assert !OccursAt(line, "=", j);
      assert line[j..j + 1] == [line[j]];
    }
  }

  /** The first `=` is unique: a trimmed line `before=after`, with no `=`
      in `before` and not a comment, sets the trimmed `before` to the
      trimmed, unquoted `after`. */
  lemma DotEnvLineSplit(line: string, before: string, after: string)
    requires line == before + "=" + after && '=' !in before
    requires !StartsWith(line, "#")
    ensures ParseTrimmedLine(line) == Some((Trim(before), StripQuotes(Trim(after))))
  {
    assert line[|before|] == '=';
    assert line[|before|..|before| + 1] == "=";
    assert OccursAt(line, "=", |before|);
    var i := IndexOf(line, "=").value;
    FirstEquals(line, i);
    assert i == |before|;
    assert line[..i] == before;
    assert line[i + 1..] == after;
  }

  /** A key with no `=`, not starting a comment and without surrounding
      whitespace, written as `KEY="value"`, reads back as that key and
      value, whatever the value holds. */
  lemma QuotedLineRoundTrip(key: string, value: string)
    requires |key| > 0 && '=' !in key && key[0] != '#'
    requires !IsSpace(key[0]) && !IsSpace(key[|key| - 1])
    ensures ParseDotEnvLine(key + "=\"" + value + "\"") == Some((key, value))
  {
    var quoted := "\"" + value + "\"";
    var line := key + "=" + quoted;
    assert key + "=\"" + value + "\"" == line;
    assert line[0] == key[0] && line[|line| - 1] == '"';
    TrimOfTrimmed(line);
    assert !StartsWith(line, "#") by {
      assert line[..1][0] == key[0];
    }
    DotEnvLineSplit(line, key, quoted);
    TrimOfTrimmed(key);
    QuotedValue(value);
  }

  lemma QuotedValue(value: string)
    ensures StripQuotes(Trim("\"" + value + "\"")) == value
  {
    var quoted := "\"" + value + "\"";
    TrimOfTrimmed(quoted);
    assert Quoted(quoted) by {
      assert quoted[..1] == "\"";
      assert quoted[|quoted| - 1..] == "\"";
    }
    assert quoted == ['"'] + value + ['"'];
  }

  /** Maps laid over each other in order, a later map's key overriding an
      earlier one's. */
  function Overlay(layers: seq<map<string, string>>): map<string, string> {
    if |layers| == 0 then map[]
    else Overlay(layers[..|layers| - 1]) + layers[|layers| - 1]
  }

  /** A key is in the overlay exactly when some layer holds it. */
  lemma {:induction false} OverlayKeys(layers: seq<map<string, string>>, key: string)
    ensures key in Overlay(layers) <==> exists i :: 0 <= i < |layers| && key in layers[i]
  {
    if |layers| > 0 {
      var n := |layers| - 1;
      var front := layers[..n];
      OverlayKeys(front, key);
      if key in Overlay(front) {
        var i :| 0 <= i < n && key in front[i];
        assert key in layers[i];
      }
      if exists i :: 0 <= i < |layers| && key in layers[i] {
        var i :| 0 <= i < |layers| && key in layers[i];
        if i < n {
          assert key in front[i];
        }
      }
    }
  }

  /** The last layer holding a key decides its value. */
  lemma {:induction false} LastLayerWins(layers: seq<map<string, string>>, key: string, i: nat)
    requires i < |layers| && key in layers[i]
    requires forall j :: i < j < |layers| ==> key !in layers[j]
    ensures key in Overlay(layers) && Overlay(layers)[key] == layers[i][key]
  {
    var n := |layers| - 1;
    if i < n {
      var front := layers[..n];
      assert forall j :: i < j < n ==> front[j] == layers[j];
      LastLayerWins(front, key, i);
    }
  }

  /** The line sets `key`. */
  predicate SetsKey(line: string, key: string) {
    ParseDotEnvLine(line).Some? && ParseDotEnvLine(line).value.0 == key
  }

  /** What one line contributes. */
  function LineLayer(line: string): (r: map<string, string>)
    ensures forall k :: k in r <==> SetsKey(line, k)
    ensures forall k :: k in r ==> ParseDotEnvLine(line) == Some((k, r[k]))
  {
    match ParseDotEnvLine(line)
    case None => map[]
    case Some(kv) => map[kv.0 := kv.1]
  }

  function LineLayers(lines: seq<string>): (r: seq<map<string, string>>)
    ensures |r| == |lines|
    ensures forall i :: 0 <= i < |lines| ==> r[i] == LineLayer(lines[i])
  {
    seq(|lines|, i requires 0 <= i < |lines| => LineLayer(lines[i]))
  }

  /** The `parseDotEnvFile` loop over `lines`: each parsed line sets its
      key, a later line for the same key overwriting an earlier one. */
  function ParseLines(lines: seq<string>): map<string, string> {
    Overlay(LineLayers(lines))
  }

  /** A key is defined exactly when some line sets it. */
  lemma LineKeys(lines: seq<string>, key: string)
    ensures key in ParseLines(lines) <==> exists i :: 0 <= i < |lines| && SetsKey(lines[i], key)
  {
    var layers := LineLayers(lines);
    OverlayKeys(layers, key);
    if key in ParseLines(lines) {
      var i :| 0 <= i < |layers| && key in layers[i];
      assert SetsKey(lines[i], key);
    }
  }

  /** The last line that sets a key decides its value. */
  lemma LastLineWins(lines: seq<string>, key: string, i: nat)
    requires i < |lines| && SetsKey(lines[i], key)
    requires forall j :: i < j < |lines| ==> !SetsKey(lines[j], key)
    ensures key in ParseLines(lines) && ParseDotEnvLine(lines[i]) == Some((key, ParseLines(lines)[key]))
  {
    LastLayerWins(LineLayers(lines), key, i);
  }

  /** `parseDotEnvFile`. */
  function ParseDotEnv(raw: string): map<string, string> {
    ParseLines(SplitLines(raw))
  }

  /** What one file contributes: nothing when it does not exist. */
  function FileLayer(file: Option<string>): (r: map<string, string>)
    ensures file.None? ==> r == map[]
    ensures file.Some? ==> r == ParseDotEnv(file.value)
  {
    if file.Some? then ParseDotEnv(file.value) else map[]
  }

  function FileLayers(files: seq<Option<string>>): (r: seq<map<string, string>>)
    ensures |r| == |files|
    ensures forall i :: 0 <= i < |files| ==> r[i] == FileLayer(files[i])
  {
    seq(|files|, i requires 0 <= i < |files| => FileLayer(files[i]))
  }

  /** `loadEnvFiles`: the files that exist, read in order and merged, a later
      file's key overriding an earlier one. `None` is a file that does not
      exist. */
  function LoadEnvFiles(files: seq<Option<string>>): map<string, string> {
    Overlay(FileLayers(files))
  }

  /** A key is defined exactly when some existing file sets it. */
  lemma FileKeys(files: seq<Option<string>>, key: string)
    ensures key in LoadEnvFiles(files) <==> exists i :: 0 <= i < |files| && key in FileLayer(files[i])
  {
    OverlayKeys(FileLayers(files), key);
  }

  /** The last file that sets a key decides its value. */
  lemma LastFileWins(files: seq<Option<string>>, key: string, i: nat)
    requires i < |files| && files[i].Some? && key in ParseDotEnv(files[i].value)
    requires forall j :: i < j < |files| ==> key !in FileLayer(files[j])
    ensures key in LoadEnvFiles(files) && LoadEnvFiles(files)[key] == ParseDotEnv(files[i].value)[key]
  {
    LastLayerWins(FileLayers(files), key, i);
  }

  // ---------------------------------------------------------------------
  // Setting readers
  // ---------------------------------------------------------------------

  /** The words `parseBoolean` reads as true and as false. */
  predicate IsTrueWord(w: string) {
    w == "1" || w == "true" || w == "yes" || w == "y"
  }

  predicate IsFalseWord(w: string) {
    w == "0" || w == "false" || w == "no" || w == "n"
  }

  /** `parseBoolean`: absent or empty gives the fallback; otherwise the
      trimmed, lower-cased text decides when it is one of the known words. */
  function ParseBoolean(value: Option<string>, fallback: bool): (r: bool)
    ensures value.None? || value == Some([]) ==> r == fallback
    ensures value.Some? && |value.value| > 0 && IsTrueWord(ToLower(Trim(value.value))) ==> r
    ensures value.Some? && |value.value| > 0 && IsFalseWord(ToLower(Trim(value.value))) ==> !r
    ensures value.Some? && !IsTrueWord(ToLower(Trim(value.value))) && !IsFalseWord(ToLower(Trim(value.value))) ==> r == fallback
  {
    if value.None? || |value.value| == 0 then fallback
    else
      var normalized := ToLower(Trim(value.value));
      if IsTrueWord(normalized) then true
      else if IsFalseWord(normalized) then false
      else fallback
  }

  /** The words are read regardless of surrounding whitespace and letter
      case: `" YES "` is true and `"\tFalse\n"` is false, whatever the
      fallback. */
  lemma BooleanWords(a: string, b: string, fallback: bool)
    requires AllSpace(a) && AllSpace(b)
    ensures ParseBoolean(Some(a + "YES" + b), fallback)
    ensures !ParseBoolean(Some(a + "False" + b), fallback)
  {
    var yes := "YES";
    var no := "False";
    assert !IsSpace(yes[0]) && !IsSpace(yes[2]);
    assert !IsSpace(no[0]) && !IsSpace(no[4]);
    PaddedWord(a, yes, b, fallback);
    PaddedWord(a, no, b, fallback);
    LowerYes();
    LowerFalse();
  }

  /** Padding around a word does not change how it reads. */
  lemma PaddedWord(a: string, w: string, b: string, fallback: bool)
    requires AllSpace(a) && AllSpace(b)
    requires |w| > 0 && !IsSpace(w[0]) && !IsSpace(w[|w| - 1])
    ensures ParseBoolean(Some(a + w + b), fallback)
            == if IsTrueWord(ToLower(w)) then true else if IsFalseWord(ToLower(w)) then false else fallback
  {
    TrimOf(a + w + b, a, w, b);
    TrimOfTrimmed(w);
  }

  lemma LowerYes()
    ensures ToLower("YES") == "yes"
  {
    var t := ToLower("YES");
    assert |t| == 3 && t[0] == 'y' && t[1] == 'e' && t[2] == 's';
  }

  lemma LowerFalse()
    ensures ToLower("False") == "false"
  {
    var t := ToLower("False");
    assert |t| == 5 && t[0] == 'f' && t[1] == 'a' && t[2] == 'l' && t[3] == 's' && t[4] == 'e';
  }

  /** `parseInteger`: absent, empty or not a number gives the fallback. */
  function ParseInteger(value: Option<string>, fallback: int, parseInt: string -> ParsedInt): (r: int)
    ensures value.None? || value == Some([]) ==> r == fallback
    ensures value.Some? && |value.value| > 0 && parseInt(value.value).Integer? ==> r == parseInt(value.value).n
    ensures value.Some? && parseInt(value.value).NotANumber? ==> r == fallback
  {
    if value.None? || |value.value| == 0 then fallback
    else match parseInt(value.value)
      case NotANumber => fallback
      case Integer(n) => n
  }

  // ---------------------------------------------------------------------
  // Configuration
  // ---------------------------------------------------------------------

  const DefaultFolder: string := "signal-radio"
  const DefaultPlaylistFile: string := "src/features/stream/data_playlist_tracks.ts"
  const DefaultManifestFile: string := "scripts/cloudinary_upload_manifest.json"
  const DefaultMaxRetries: int := 4

  /** The run's configuration. Paths are kept as given, before resolution
      against the working directory. */
  datatype Config = Config(
    cloudName: string,
    apiKey: string,
    apiSecret: string,
    folder: string,
    playlistFile: string,
    manifestFile: string,
    maxRetries: int,
    dryRun: bool,
    overwrite: bool,
    skipUploaded: bool,
    limit: Option<ParsedInt>,
    startIndex: ParsedInt,
    onlyIds: Option<set<string>>)

  function Lookup(env: map<string, string>, key: string): Option<string> {
    if key in env then Some(env[key]) else None
  }

  /** The retry budget as the source computes it:
      `Math.max(1, flag ?? parseInteger(env, 4))`. A flag that did not parse
      is `NaN`, which `??` keeps and `Math.max` passes through. */
  function MaxRetriesAsWritten(flag: Option<ParsedInt>, envValue: Option<string>, parseInt: string -> ParsedInt): (r: ParsedInt)
    ensures flag == Some(NotANumber) ==> r == NotANumber
    ensures flag.None? ==> r == Integer(if ParseInteger(envValue, DefaultMaxRetries, parseInt) >= 1
                                        then ParseInteger(envValue, DefaultMaxRetries, parseInt) else 1)
  {
    JsMax(1, flag.GetOr(Integer(ParseInteger(envValue, DefaultMaxRetries, parseInt))))
  }

  /** `--max-retries=abc` leaves the budget `NaN`, not at least 1. */
  lemma MaxRetriesNaN(envValue: Option<string>, parseInt: string -> ParsedInt)
    ensures MaxRetriesAsWritten(Some(NotANumber), envValue, parseInt) == NotANumber
  {
  }

  /** The retry budget as intended: an unreadable flag falls back like an
      unreadable setting does, and the budget is at least 1. */
  function MaxRetries(flag: Option<ParsedInt>, envValue: Option<string>, parseInt: string -> ParsedInt): (r: int)
    ensures r >= 1
    ensures flag.Some? && flag.value.Integer? && flag.value.n >= 1 ==> r == flag.value.n
    ensures (flag.None? || flag == Some(NotANumber)) && ParseInteger(envValue, DefaultMaxRetries, parseInt) >= 1
            ==> r == ParseInteger(envValue, DefaultMaxRetries, parseInt)
  {
    var n := match flag
      case Some(Integer(k)) => k
      case _ => ParseInteger(envValue, DefaultMaxRetries, parseInt);
    if n >= 1 then n else 1
  }

  /** The two budgets agree wherever the source's is a number. */
  lemma MaxRetriesAgree(flag: Option<ParsedInt>, envValue: Option<string>, parseInt: string -> ParsedInt)
    requires MaxRetriesAsWritten(flag, envValue, parseInt).Integer?
    ensures MaxRetriesAsWritten(flag, envValue, parseInt) == Integer(MaxRetries(flag, envValue, parseInt))
  {
  }

  const CloudNameKey: string := "CLOUDINARY_CLOUD_NAME"
  const ApiKeyKey: string := "CLOUDINARY_API_KEY"
  const ApiSecretKey: string := "CLOUDINARY_API_SECRET"

  function MissingMessage(name: string): string {
    "Missing " + name + ". Set it in .env.cloudinary.local or your shell environment."
  }

  /** The first blank credential, in the source's order. */
  function MissingCredential(cloudName: string, apiKey: string, apiSecret: string): (r: Option<string>)
    ensures r.None? <==> |Trim(cloudName)| > 0 && |Trim(apiKey)| > 0 && |Trim(apiSecret)| > 0
    ensures r == Some(CloudNameKey) <==> |Trim(cloudName)| == 0
  {
    if |Trim(cloudName)| == 0 then Some(CloudNameKey)
    else if |Trim(apiKey)| == 0 then Some(ApiKeyKey)
    else if |Trim(apiSecret)| == 0 then Some(ApiSecretKey)
    else None
  }

  /** The environment `buildConfig` reads: the `.env` files
      (`.env.cloudinary.local`, then `.env.local`) overridden by the process
      environment. */
  function Environment(envFiles: seq<Option<string>>, processEnv: map<string, string>): map<string, string> {
    LoadEnvFiles(envFiles) + processEnv
  }

  /** A credential as read: missing reads as empty. */
  function Credential(env: map<string, string>, key: string): string {
    Lookup(env, key).GetOr([])
  }

  /** `flag ?? env[key] ?? fallback`. */
  function Setting(flag: Option<string>, env: map<string, string>, key: string, fallback: string): (r: string)
    ensures flag.Some? ==> r == flag.value
    ensures flag.None? && key in env ==> r == env[key]
    ensures flag.None? && key !in env ==> r == fallback
  {
    if flag.Some? then flag.value else Lookup(env, key).GetOr(fallback)
  }

  /** The settings of `buildConfig` before the credential check: flags
      override settings, settings override defaults; the start index is at
      least 0. The retry budget is the corrected one, at least 1; it is the
      source's own budget whenever that is a number. */
  function ReadConfig(flags: Flags, env: map<string, string>, parseInt: string -> ParsedInt): (c: Config)
    ensures c.cloudName == Credential(env, CloudNameKey)
    ensures c.apiKey == Credential(env, ApiKeyKey) && c.apiSecret == Credential(env, ApiSecretKey)
    ensures c.maxRetries >= 1
    ensures MaxRetriesAsWritten(flags.maxRetries, Lookup(env, "MAX_RETRIES"), parseInt).Integer? ==>
              MaxRetriesAsWritten(flags.maxRetries, Lookup(env, "MAX_RETRIES"), parseInt) == Integer(c.maxRetries)
    ensures c.startIndex.NotANumber? || c.startIndex.n >= 0
    ensures c.dryRun == flags.dryRun && c.overwrite == flags.overwrite
    ensures c.onlyIds == flags.onlyIds && c.limit == flags.limit
    ensures flags.folder.Some? ==> c.folder == flags.folder.value
    ensures flags.folder.None? ==> c.folder == Lookup(env, "CLOUDINARY_FOLDER").GetOr(DefaultFolder)
    ensures flags.folder.None? && "CLOUDINARY_FOLDER" !in env ==> c.folder == DefaultFolder
    ensures flags.playlistFile.Some? ==> c.playlistFile == flags.playlistFile.value
    ensures flags.playlistFile.None? ==> c.playlistFile == Lookup(env, "PLAYLIST_FILE").GetOr(DefaultPlaylistFile)
    ensures flags.manifestFile.Some? ==> c.manifestFile == flags.manifestFile.value
    ensures flags.manifestFile.None? ==> c.manifestFile == Lookup(env, "MANIFEST_FILE").GetOr(DefaultManifestFile)
    ensures flags.skipUploaded.Some? ==> c.skipUploaded == flags.skipUploaded.value
    ensures flags.skipUploaded.None? ==> c.skipUploaded == ParseBoolean(Lookup(env, "SKIP_UPLOADED"), true)
    ensures flags.skipUploaded.None? && "SKIP_UPLOADED" !in env ==> c.skipUploaded
  {
    Config(
      Credential(env, CloudNameKey),
      Credential(env, ApiKeyKey),
      Credential(env, ApiSecretKey),
      Setting(flags.folder, env, "CLOUDINARY_FOLDER", DefaultFolder),
      Setting(flags.playlistFile, env, "PLAYLIST_FILE", DefaultPlaylistFile),
      Setting(flags.manifestFile, env, "MANIFEST_FILE", DefaultManifestFile),
      MaxRetries(flags.maxRetries, Lookup(env, "MAX_RETRIES"), parseInt),
      flags.dryRun,
      flags.overwrite,
      if flags.skipUploaded.Some? then flags.skipUploaded.value else ParseBoolean(Lookup(env, "SKIP_UPLOADED"), true),
      flags.limit,
      JsMax(0, flags.startIndex),
      flags.onlyIds)
  }

  /** `buildConfig`: outside a dry run a blank credential is an error naming
      the first blank one; otherwise the settings as read. */
  function BuildConfig(flags: Flags, envFiles: seq<Option<string>>, processEnv: map<string, string>,
                       parseInt: string -> ParsedInt): (r: Result<Config, string>)
    ensures var env := Environment(envFiles, processEnv);
            var missing := MissingCredential(Credential(env, CloudNameKey), Credential(env, ApiKeyKey),
                                             Credential(env, ApiSecretKey));
            && (r.Err? <==> !flags.dryRun && missing.Some?)
            && (r.Err? ==> r.error == MissingMessage(missing.value))
            && (r.Ok? ==> r.value == ReadConfig(flags, env, parseInt))
    ensures r.Ok? && !r.value.dryRun ==> |Trim(r.value.cloudName)| > 0 && |Trim(r.value.apiKey)| > 0 && |Trim(r.value.apiSecret)| > 0
  {
    var config := ReadConfig(flags, Environment(envFiles, processEnv), parseInt);
    if !config.dryRun then
      match MissingCredential(config.cloudName, config.apiKey, config.apiSecret)
      case Some(name) => Err(MissingMessage(name))
      case None => Ok(config)
    else Ok(config)
  }

  /** A value set in the process environment wins over every file;
      otherwise the last file that sets the key decides it. */
  lemma EnvPrecedence(envFiles: seq<Option<string>>, processEnv: map<string, string>, key: string, i: nat)
    requires i < |envFiles| && envFiles[i].Some? && key in ParseDotEnv(envFiles[i].value)
    requires forall j :: i < j < |envFiles| ==> key !in FileLayer(envFiles[j])
    ensures key in Environment(envFiles, processEnv)
    ensures key in processEnv ==> Environment(envFiles, processEnv)[key] == processEnv[key]
    ensures key !in processEnv ==> Environment(envFiles, processEnv)[key] == ParseDotEnv(envFiles[i].value)[key]
  {
    LastFileWins(envFiles, key, i);
  }
}

=== FILE: migrate_playlist.dfy ===
/** The playlist side of `scripts/migrate_playlist_to_cloudinary.mjs`:
    `rebuildPlaylistSource`, which rewrites the track array of the playlist
    file between its markers, the track selection of `main`, and the
    per-track decisions of its migration loop. `JSON.stringify` and
    `JSON.parse` of a title are oracles; downloads and uploads are an
    oracle giving each track's secure URL or error. */
module MigratePlaylist {

  import opened Wrappers
  import opened Text
  import MigrateEnv
  import StreamSync

  type Track = StreamSync.Track

  // ---------------------------------------------------------------------
  // Rebuilding the playlist file
  // ---------------------------------------------------------------------

  const StartMarker: string := "export const PLAYLIST_TRACKS: TrackMetadata[] = [\n"
  const EndMarker: string := "\n]\n"
  const LocateError: string := "Could not locate PLAYLIST_TRACKS array in the playlist file."

  const OpenLine: string := "  {"
  const IdPrefix: string := "    id: '"
  const TitlePrefix: string := "    title: "
  const SrcPrefix: string := "    srcUrl: '"
  const DurationPrefix: string := "    durationSeconds: "
  const QuoteComma: string := "',"
  const Comma: string := ","
  const CloseLine: string := "  },"

  /** The six lines one track is written as. */
  function EntryLines(t: Track, stringify: string -> string): (r: seq<string>)
    ensures |r| == 6
  {
    [OpenLine,
     IdPrefix + t.id + QuoteComma,
     TitlePrefix + stringify(t.title) + Comma,
     SrcPrefix + t.srcUrl + QuoteComma,
     DurationPrefix + IntToString(t.durationSeconds) + Comma,
     CloseLine]
  }

  function EntryText(t: Track, stringify: string -> string): string {
    Join(EntryLines(t, stringify), '\n')
  }

  /** The array body: the entries joined by line breaks. */
  function Entries(tracks: seq<Track>, stringify: string -> string): string {
    Join(seq(|tracks|, i requires 0 <= i < |tracks| => EntryText(tracks[i], stringify)), '\n')
  }

  /** `rebuildPlaylistSource`: the text up to the end of the first start
      marker, the entries, and the text from the last end marker on. It
      fails unless both markers occur and the end marker starts after the
      start marker. */
  function RebuildPlaylistSource(original: string, tracks: seq<Track>, stringify: string -> string): (r: Result<string, string>)
    ensures r.Err? <==> IndexOf(original, StartMarker).None? || LastIndexOf(original, EndMarker).None?
                        || LastIndexOf(original, EndMarker).value <= IndexOf(original, StartMarker).value
    ensures r.Err? ==> r.error == LocateError
    ensures r.Ok? ==> var s := IndexOf(original, StartMarker).value;
                      var e := LastIndexOf(original, EndMarker).value;
                      r.value == original[..s + |StartMarker|] + Entries(tracks, stringify) + original[e..]
  {
    match (IndexOf(original, StartMarker), LastIndexOf(original, EndMarker))
    case (Some(s), Some(e)) =>
      if e <= s then Err(LocateError)
      else
        Ok(original[..s + |StartMarker|] + Entries(tracks, stringify) + original[e..])
    case _ => Err(LocateError)
  }

  /** Keeping the text through the first occurrence of `p` keeps that
      occurrence first, whatever follows. */
  lemma FirstOccurrenceKept(original: string, p: string, s: nat, rest: string)
    requires IndexOf(original, p) == Some(s)
    ensures IndexOf(original[..s + |p|] + rest, p) == Some(s)
  {
    var before := original[..s + |p|];
    var out := before + rest;
    assert original == before + original[s + |p|..];
    OccursInLeft(before, rest, p, s);
    OccursInLeft(before, original[s + |p|..], p, s);
    forall j | 0 <= j < s
      ensures !OccursAt(out, p, j)
    {
      OccursInLeft(before, rest, p, j);
      OccursInLeft(before, original[s + |p|..], p, j);
    }
    IndexOfIs(out, p, s);
  }

  /** Keeping the text from the last occurrence of `p` on keeps that
      occurrence last, whatever precedes. */
  lemma LastOccurrenceKept(original: string, p: string, e: nat, front: string)
    requires LastIndexOf(original, p) == Some(e)
    ensures LastIndexOf(front + original[e..], p) == Some(|front|)
  {
    var after := original[e..];
    var out := front + after;
    assert original == original[..e] + after;
    OccursInRight(front, after, p, 0);
    OccursInRight(original[..e], after, p, 0);
    forall j | |front| < j
      ensures !OccursAt(out, p, j)
    {
      OccursInRight(front, after, p, j - |front|);
      OccursInRight(original[..e], after, p, j - |front|);
      assert !OccursAt(original, p, e + (j - |front|));
    }
    LastIndexOfIs(out, p, |front|);
  }

  /** Replacing the text between the first `sm` and the last `em` keeps
      both where `indexOf` and `lastIndexOf` find them. */
  lemma MarkersAround(original: string, sm: string, em: string, s: nat, e: nat, middle: string)
    requires IndexOf(original, sm) == Some(s) && LastIndexOf(original, em) == Some(e)
    ensures s + |sm| <= |original|
    ensures var out := original[..s + |sm|] + middle + original[e..];
            && IndexOf(out, sm) == Some(s)
            && LastIndexOf(out, em) == Some(s + |sm| + |middle|)
  {
    var before := original[..s + |sm|];
    var after := original[e..];
    assert before + middle + after == before + (middle + after);
    FirstOccurrenceKept(original, sm, s, middle + after);
    LastOccurrenceKept(original, em, e, before + middle);
  }

  /** Rebuilding a rebuilt file gives what one rebuild from the original
      gives: the migration loop rewrites the file after every upload, and
      only the last track list counts. */
  lemma LastRebuildWins(original: string, first: seq<Track>, second: seq<Track>, stringify: string -> string)
    requires RebuildPlaylistSource(original, first, stringify).Ok?
    ensures RebuildPlaylistSource(RebuildPlaylistSource(original, first, stringify).value, second, stringify)
            == RebuildPlaylistSource(original, second, stringify)
  {
    var s := IndexOf(original, StartMarker).value;
    var e := LastIndexOf(original, EndMarker).value;
    var before := original[..s + |StartMarker|];
    var after := original[e..];
    var out := RebuildPlaylistSource(original, first, stringify).value;
    var entries := Entries(first, stringify);
    MarkersAround(original, StartMarker, EndMarker, s, e, entries);
    assert out == before + entries + after;
    assert out[..s + |StartMarker|] == before;
    assert out[|before| + |entries|..] == after;
  }

  /** Rebuilding with the same tracks changes nothing more. */
  lemma RebuildIdempotent(original: string, tracks: seq<Track>, stringify: string -> string)
    requires RebuildPlaylistSource(original, tracks, stringify).Ok?
    ensures var out := RebuildPlaylistSource(original, tracks, stringify).value;
            RebuildPlaylistSource(out, tracks, stringify) == Ok(out)
  {
    LastRebuildWins(original, tracks, tracks, stringify);
  }

  // ---------------------------------------------------------------------
  // Reading an entry back
  // ---------------------------------------------------------------------

  /** The text between a fixed prefix and suffix of a line. */
  function Field(line: string, prefix: string, suffix: string): (r: Option<string>)
    ensures r.Some? ==> line == prefix + r.value + suffix
  {
    if |prefix| + |suffix| <= |line| && line[..|prefix|] == prefix && line[|line| - |suffix|..] == suffix then
      var v := line[|prefix|..|line| - |suffix|];
      assert line == line[..|prefix|] + v + line[|line| - |suffix|..];
      Some(v)
    else None
  }

  lemma FieldOf(prefix: string, value: string, suffix: string)
    ensures Field(prefix + value + suffix, prefix, suffix) == Some(value)
  {
    var line := prefix + value + suffix;
    assert line[..|prefix|] == prefix;
    assert line[|line| - |suffix|..] == suffix;
    assert line[|prefix|..|line| - |suffix|] == value;
  }

  ghost predicate AllDigits(s: string) {
    forall i :: 0 <= i < |s| ==> IsDigit(s[i])
  }

  /** What the entry pattern accepts in a field quoted with `'`: at least
      one character and no quote. */
  predicate PlainField(s: string) {
    |s| > 0 && '\'' !in s
  }

  /** A reader for the six-line layout, as the entry pattern reads it: the
      id and the address quoted with `'`, the title a JSON string given to
      `JSON.parse`, the duration decimal digits. */
  function ReadEntry(text: string, parseJson: string -> Option<string>): (r: Option<Track>)
    ensures r.Some? ==> PlainField(r.value.id) && PlainField(r.value.srcUrl) && r.value.durationSeconds >= 0
  {
    var lines := Split(text, '\n');
    if |lines| == 6 && lines[0] == OpenLine && lines[5] == CloseLine then
      match (Field(lines[1], IdPrefix, QuoteComma), Field(lines[2], TitlePrefix, Comma),
             Field(lines[3], SrcPrefix, QuoteComma), Field(lines[4], DurationPrefix, Comma))
      case (Some(id), Some(titleJson), Some(srcUrl), Some(digits)) =>
        if PlainField(id) && PlainField(srcUrl) && |digits| > 0
           && (forall i :: 0 <= i < |digits| ==> IsDigit(digits[i])) && parseJson(titleJson).Some?
        then Some(StreamSync.Track(id, parseJson(titleJson).value, srcUrl, DigitsValue(digits)))
        else None
      case _ => None
    else None
  }

  /** A track the file format can hold: plain id and address without line
      breaks, a title whose JSON form has no raw line break and parses back,
      and a non-negative duration. */
  predicate Writable(t: Track, stringify: string -> string, parseJson: string -> Option<string>) {
    && PlainField(t.id) && '\n' !in t.id
    && PlainField(t.srcUrl) && '\n' !in t.srcUrl
    && '\n' !in stringify(t.title) && parseJson(stringify(t.title)) == Some(t.title)
    && t.durationSeconds >= 0
  }

  /** Every written entry reads back as the track it was written from. */
  lemma EntryRoundTrip(t: Track, stringify: string -> string, parseJson: string -> Option<string>)
    requires Writable(t, stringify, parseJson)
    ensures ReadEntry(EntryText(t, stringify), parseJson) == Some(t)
  {
    var lines := EntryLines(t, stringify);
    var digits := IntToString(t.durationSeconds);
    NatToStringValue(t.durationSeconds);
    forall k | 0 <= k < 6
      ensures '\n' !in lines[k]
    {
      NoBreakInLine(t, stringify, k);
    }
    SplitJoin(lines, '\n');
    FieldOf(IdPrefix, t.id, QuoteComma);
    FieldOf(TitlePrefix, stringify(t.title), Comma);
    FieldOf(SrcPrefix, t.srcUrl, QuoteComma);
    FieldOf(DurationPrefix, digits, Comma);
  }

  lemma NoBreakInLine(t: Track, stringify: string -> string, k: nat)
    requires k < 6
    requires '\n' !in t.id && '\n' !in t.srcUrl && '\n' !in stringify(t.title) && t.durationSeconds >= 0
    ensures '\n' !in EntryLines(t, stringify)[k]
  {
    var digits := IntToString(t.durationSeconds);
    assert forall i :: 0 <= i < |digits| ==> IsDigit(digits[i]);
  }

  // ---------------------------------------------------------------------
  // Track selection
  // ---------------------------------------------------------------------

  /** `a` keeps some of the elements of `b`, in their order. */
  predicate IsSubsequence<T(==)>(a: seq<T>, b: seq<T>)
    decreases |b|
  {
    |a| == 0 || (|b| > 0 && (IsSubsequence(a, b[1..]) || (a[0] == b[0] && IsSubsequence(a[1..], b[1..]))))
  }

  /** A prefix of a subsequence is a subsequence. */
  lemma {:induction false} PrefixSubsequence<T>(a: seq<T>, b: seq<T>, n: nat)
    requires IsSubsequence(a, b) && n <= |a|
    ensures IsSubsequence(a[..n], b)
    decreases |b|
  {
    if n > 0 {
      if IsSubsequence(a, b[1..]) {
        PrefixSubsequence(a, b[1..], n);
      } else {
        PrefixSubsequence(a[1..], b[1..], n - 1);
        assert a[..n][1..] == a[1..][..n - 1];
      }
    }
  }

  /** A subsequence of a subsequence is a subsequence. */
  lemma {:induction false} SubsequenceTransitive<T>(a: seq<T>, b: seq<T>, c: seq<T>)
    requires IsSubsequence(a, b) && IsSubsequence(b, c)
    ensures IsSubsequence(a, c)
    decreases |c|
  {
    if |a| > 0 {
      if IsSubsequence(b, c[1..]) {
        SubsequenceTransitive(a, b, c[1..]);
      } else if IsSubsequence(a, b[1..]) {
        SubsequenceTransitive(a, b[1..], c[1..]);
      } else {
        SubsequenceTransitive(a[1..], b[1..], c[1..]);
      }
    }
  }

  /** `Array.prototype.filter`. */
  function Filter(s: seq<Track>, keep: Track -> bool): (r: seq<Track>)
    ensures IsSubsequence(r, s)
    ensures forall x :: x in r <==> x in s && keep(x)
    ensures |r| <= |s|
  {
    if |s| == 0 then []
    else
      var rest := Filter(s[1..], keep);
      if keep(s[0]) then [s[0]] + rest else rest
  }

  /** Two filters in a row keep what passes both. */
  lemma {:induction false} FilterTwice(s: seq<Track>, p: Track -> bool, q: Track -> bool, both: Track -> bool)
    requires forall x :: both(x) == (p(x) && q(x))
    ensures Filter(Filter(s, p), q) == Filter(s, both)
  {
    if |s| > 0 {
      FilterTwice(s[1..], p, q, both);
      if p(s[0]) {
        assert Filter(s, p) == [s[0]] + Filter(s[1..], p);
        assert Filter(s, p)[1..] == Filter(s[1..], p);
      }
    }
  }

  /** `slice(startIndex)` of the configured start: a start that is not a
      number reads as 0, one past the end gives nothing. */
  function Start(startIndex: MigrateEnv.ParsedInt, length: nat): (r: nat)
    ensures r <= length
    ensures startIndex.Integer? && 0 <= startIndex.n <= length ==> r == startIndex.n
    ensures startIndex.NotANumber? ==> r == 0
  {
    match startIndex
    case NotANumber => 0
    case Integer(n) => if n < 0 then (if length + n < 0 then 0 else length + n) else if n > length then length else n
  }

  /** The address names the configured Cloudinary account. */
  predicate IsCloudinaryTrackUrl(url: string, cloudName: string) {
    Contains(url, "res.cloudinary.com/" + cloudName + "/")
  }

  /** `isDriveTrackUrl`: the address is on one of the Drive hosts. */
  predicate IsDriveTrackUrl(url: string) {
    Contains(url, "drive.google.com") || Contains(url, "drive.usercontent.google.com")
  }

  /** Kept by the `--only` filter. */
  predicate Chosen(t: Track, onlyIds: Option<set<string>>) {
    onlyIds.None? || t.id in onlyIds.value
  }

  /** Dropped by the `skipUploaded` filter: already on this Cloudinary
      account, judged only with a non-blank cloud name. */
  predicate AlreadyUploaded(t: Track, skipUploaded: bool, cloudName: string) {
    skipUploaded && |Trim(cloudName)| > 0 && IsCloudinaryTrackUrl(t.srcUrl, cloudName)
  }

  /** `Math.max(0, limit)` when the limit is a finite number; no limit
      otherwise (absent, or `NaN`). */
  function LimitCount(limit: Option<MigrateEnv.ParsedInt>): (r: Option<nat>)
    ensures r.Some? <==> limit.Some? && limit.value.Integer?
    ensures r.Some? && limit.value.n >= 0 ==> r.value == limit.value.n
    ensures r.Some? && limit.value.n < 0 ==> r.value == 0
  {
    match limit
    case Some(Integer(n)) => Some(if n < 0 then 0 else n)
    case _ => None
  }

  /** The selection of `main`: from the start index on, the tracks the
      `--only` ids name and that are not already uploaded, cut to the
      limit. */
  function SelectTracks(tracks: seq<Track>, config: MigrateEnv.Config): (r: seq<Track>)
    ensures IsSubsequence(r, tracks[Start(config.startIndex, |tracks|)..])
    ensures forall t :: t in r ==> Chosen(t, config.onlyIds) && !AlreadyUploaded(t, config.skipUploaded, config.cloudName)
    ensures LimitCount(config.limit).Some? ==> |r| <= LimitCount(config.limit).value
  {
    var from := tracks[Start(config.startIndex, |tracks|)..];
    var chosen := Filter(from, t => Chosen(t, config.onlyIds));
    var selected := Filter(chosen, t => !AlreadyUploaded(t, config.skipUploaded, config.cloudName));
    SubsequenceTransitive(selected, chosen, from);
    match LimitCount(config.limit)
    case None => selected
    case Some(n) =>
      if n < |selected| then
        PrefixSubsequence(selected, from, n);
        assert forall t :: t in selected[..n] ==> t in selected;
        selected[..n]
      else selected
  }

  /** Without a limit the selection is exactly the tracks from the start
      index on that pass both filters, in order. */
  lemma SelectionWithoutLimit(tracks: seq<Track>, config: MigrateEnv.Config)
    requires LimitCount(config.limit).None?
    ensures SelectTracks(tracks, config)
            == Filter(tracks[Start(config.startIndex, |tracks|)..],
                      t => Chosen(t, config.onlyIds) && !AlreadyUploaded(t, config.skipUploaded, config.cloudName))
  {
    var from := tracks[Start(config.startIndex, |tracks|)..];
    FilterTwice(from, t => Chosen(t, config.onlyIds), t => !AlreadyUploaded(t, config.skipUploaded, config.cloudName),
                t => Chosen(t, config.onlyIds) && !AlreadyUploaded(t, config.skipUploaded, config.cloudName));
  }

  /** Under a limit the selection is the first `max(0, limit)` of the tracks
      from the start index on that pass both filters. */
  lemma SelectionWithLimit(tracks: seq<Track>, config: MigrateEnv.Config)
    requires LimitCount(config.limit).Some?
    ensures var f := Filter(tracks[Start(config.startIndex, |tracks|)..],
                            t => Chosen(t, config.onlyIds) && !AlreadyUploaded(t, config.skipUploaded, config.cloudName));
            var n := LimitCount(config.limit).value;
            SelectTracks(tracks, config) == if n < |f| then f[..n] else f
  {
    var from := tracks[Start(config.startIndex, |tracks|)..];
    FilterTwice(from, t => Chosen(t, config.onlyIds), t => !AlreadyUploaded(t, config.skipUploaded, config.cloudName),
                t => Chosen(t, config.onlyIds) && !AlreadyUploaded(t, config.skipUploaded, config.cloudName));
  }

  /** An empty `--only` set selects nothing: the set is still truthy. */
  lemma EmptyOnlySelectsNothing(tracks: seq<Track>, config: MigrateEnv.Config)
    requires config.onlyIds == Some({})
    ensures SelectTracks(tracks, config) == []
  {
    FilterNone(tracks[Start(config.startIndex, |tracks|)..], t => Chosen(t, config.onlyIds));
  }

  lemma {:induction false} FilterNone(s: seq<Track>, keep: Track -> bool)
    requires forall x :: !keep(x)
    ensures Filter(s, keep) == []
  {
    if |s| > 0 {
      FilterNone(s[1..], keep);
    }
  }

  // ---------------------------------------------------------------------
  // The migration loop
  // ---------------------------------------------------------------------

  /** What the loop does with a selected track. */
  datatype Action = Skip | Preview | Migrate

  /** Outside a dry run a track not on Drive is skipped; a dry run only
      reports; otherwise the track is downloaded and uploaded. */
  function ActionFor(t: Track, dryRun: bool): (a: Action)
    ensures a == Preview <==> dryRun
    ensures a == Migrate <==> !dryRun && IsDriveTrackUrl(t.srcUrl)
  {
    if !IsDriveTrackUrl(t.srcUrl) && !dryRun then Skip
    else if dryRun then Preview
    else Migrate
  }

  /** The position of the first track with this id. */
  function FindIndex(tracks: seq<Track>, id: string): (r: Option<nat>)
    ensures r.Some? ==> r.value < |tracks| && tracks[r.value].id == id
    ensures r.Some? ==> forall j :: 0 <= j < r.value ==> tracks[j].id != id
    ensures r.None? ==> forall j :: 0 <= j < |tracks| ==> tracks[j].id != id
  {
    if |tracks| == 0 then None
    else if tracks[0].id == id then Some(0)
    else match FindIndex(tracks[1..], id)
      case None => None
      case Some(k) => Some(k + 1)
  }

  /** After an upload: the first track with the id points at the secure
      address; a missing id is an error. */
  function ReplaceSource(tracks: seq<Track>, id: string, secureUrl: string): (r: Result<seq<Track>, string>)
    ensures r.Err? <==> forall j :: 0 <= j < |tracks| ==> tracks[j].id != id
    ensures r.Err? ==> r.error == "Track " + id + " disappeared during migration"
    ensures r.Ok? ==> |r.value| == |tracks|
    ensures r.Ok? ==> forall j :: 0 <= j < |tracks| ==> (&& r.value[j].id == tracks[j].id
                                                        && r.value[j].title == tracks[j].title
                                                        && r.value[j].durationSeconds == tracks[j].durationSeconds)
    ensures r.Ok? ==> exists j :: && 0 <= j < |tracks| && tracks[j].id == id && r.value[j].srcUrl == secureUrl
                                  && (forall k :: 0 <= k < j ==> tracks[k].id != id)
                                  && forall k :: 0 <= k < |tracks| && k != j ==> r.value[k] == tracks[k]
  {
    match FindIndex(tracks, id)
    case None => Err("Track " + id + " disappeared during migration")
    case Some(i) => Ok(tracks[i := tracks[i].(srcUrl := secureUrl)])
  }

  /** What the loop has done so far: the track list, the playlist file's
      current text, and the counters. */
  datatype Progress = Progress(tracks: seq<Track>, source: string, uploaded: nat, skipped: nat, failed: seq<string>)

  /** One pass of the loop body for track `t`. Inside the `try`, after the
      upload the track list is rewritten and the playlist text rebuilt from
      it; any failure there, including a rebuild that cannot find the
      markers, counts the track as failed, while the list keeps the rewrite
      already made. */
  function Visit(t: Track, dryRun: bool, transfer: Track -> Result<string, string>, stringify: string -> string,
                 p: Progress): (r: Progress)
    ensures |r.tracks| == |p.tracks|
    ensures forall j :: 0 <= j < |p.tracks| ==> r.tracks[j].id == p.tracks[j].id
    ensures forall j :: 0 <= j < |p.tracks| && p.tracks[j].id != t.id ==> r.tracks[j] == p.tracks[j]
    ensures dryRun ==> r == p
    ensures !dryRun ==> r.uploaded + r.skipped + |r.failed| == p.uploaded + p.skipped + |p.failed| + 1
    ensures r.uploaded == p.uploaded || r.uploaded == p.uploaded + 1
    ensures r.uploaded == p.uploaded + 1 <==>
              && ActionFor(t, dryRun) == Migrate && transfer(t).Ok?
              && ReplaceSource(p.tracks, t.id, transfer(t).value).Ok?
              && RebuildPlaylistSource(p.source, p.tracks, stringify).Ok?
    ensures r.uploaded == p.uploaded + 1 ==> r.tracks == ReplaceSource(p.tracks, t.id, transfer(t).value).value
    ensures RebuildPlaylistSource(p.source, p.tracks, stringify).Ok? && r.uploaded == p.uploaded ==> r.tracks == p.tracks
    ensures r.uploaded == p.uploaded + 1 ==> exists j :: 0 <= j < |p.tracks| && p.tracks[j].id == t.id
    ensures r.uploaded == p.uploaded + 1 ==> RebuildPlaylistSource(p.source, r.tracks, stringify) == Ok(r.source)
    ensures r.uploaded == p.uploaded ==> r.source == p.source
    ensures && ActionFor(t, dryRun) == Migrate && transfer(t).Ok?
            && ReplaceSource(p.tracks, t.id, transfer(t).value).Ok?
            && RebuildPlaylistSource(p.source, p.tracks, stringify).Err?
            ==> && r.failed == p.failed + [LocateError] && r.uploaded == p.uploaded
                && r.tracks == ReplaceSource(p.tracks, t.id, transfer(t).value).value
    ensures RebuildPlaylistSource(p.source, p.tracks, stringify).Err? ==> r.uploaded == p.uploaded
  {
    match ActionFor(t, dryRun)
    case Skip => p.(skipped := p.skipped + 1)
    case Preview => p
    case Migrate =>
      match transfer(t)
      case Err(message) => p.(failed := p.failed + [message])
      case Ok(url) =>
        match ReplaceSource(p.tracks, t.id, url)
        case Err(message) => p.(failed := p.failed + [message])
        case Ok(updated) =>
          match RebuildPlaylistSource(p.source, updated, stringify)
          case Err(message) => p.(tracks := updated, failed := p.failed + [message])
          case Ok(text) => p.(tracks := updated, source := text, uploaded := p.uploaded + 1)
  }

  /** The loop over the selected tracks. `transfer` gives each track's
      download-and-upload result: its secure address or the error message. */
  function MigrateAll(selected: seq<Track>, dryRun: bool, transfer: Track -> Result<string, string>,
                      stringify: string -> string, p: Progress): (r: Progress)
    decreases |selected|
    ensures |r.tracks| == |p.tracks|
    ensures forall j :: 0 <= j < |p.tracks| ==> r.tracks[j].id == p.tracks[j].id
    ensures !dryRun ==> r.uploaded + r.skipped + |r.failed| == p.uploaded + p.skipped + |p.failed| + |selected|
    ensures dryRun ==> r == p
    ensures r.uploaded >= p.uploaded
    ensures r.uploaded == p.uploaded ==> r.source == p.source
    ensures RebuildPlaylistSource(p.source, p.tracks, stringify).Ok? && r.uploaded == p.uploaded ==> r.tracks == p.tracks
    ensures r.uploaded > p.uploaded ==> RebuildPlaylistSource(p.source, r.tracks, stringify) == Ok(r.source)
  {
    if |selected| == 0 then p
    else
      var next := Visit(selected[0], dryRun, transfer, stringify, p);
      var r := MigrateAll(selected[1..], dryRun, transfer, stringify, next);
      RebuildChains(p, next, r, stringify);
      r
  }

  /** One step of the loop followed by the rest: if the first step uploaded,
      its text is a rebuild of the original, and a rebuild of a rebuild is a
      rebuild of the original; otherwise the text was not touched. */
  lemma RebuildChains(p: Progress, next: Progress, r: Progress, stringify: string -> string)
    requires next.uploaded == p.uploaded || next.uploaded == p.uploaded + 1
    requires next.uploaded == p.uploaded ==> next.source == p.source
    requires next.uploaded == p.uploaded + 1 ==> RebuildPlaylistSource(p.source, next.tracks, stringify) == Ok(next.source)
    requires RebuildPlaylistSource(p.source, p.tracks, stringify).Ok? && next.uploaded == p.uploaded ==> next.tracks == p.tracks
    requires r.uploaded >= next.uploaded
    requires r.uploaded == next.uploaded ==> r.source == next.source
    requires RebuildPlaylistSource(next.source, next.tracks, stringify).Ok? && r.uploaded == next.uploaded ==> r.tracks == next.tracks
    requires r.uploaded > next.uploaded ==> RebuildPlaylistSource(next.source, r.tracks, stringify) == Ok(r.source)
    ensures r.uploaded >= p.uploaded
    ensures r.uploaded == p.uploaded ==> r.source == p.source
    ensures RebuildPlaylistSource(p.source, p.tracks, stringify).Ok? && r.uploaded == p.uploaded ==> r.tracks == p.tracks
    ensures r.uploaded > p.uploaded ==> RebuildPlaylistSource(p.source, r.tracks, stringify) == Ok(r.source)
  {
    if next.uploaded == p.uploaded + 1 {
      LastRebuildWins(p.source, next.tracks, r.tracks, stringify);
      RebuildIdempotent(p.source, next.tracks, stringify);
    }
  }

  /** A playlist file whose markers cannot be found fails every migrated
      track: nothing is counted as uploaded and the text is never replaced,
      while skipped tracks are still counted as skipped. */
  lemma {:induction false} UnlocatableFailsAll(selected: seq<Track>, dryRun: bool, transfer: Track -> Result<string, string>,
                                               stringify: string -> string, p: Progress)
    requires RebuildPlaylistSource(p.source, p.tracks, stringify).Err?
    ensures var r := MigrateAll(selected, dryRun, transfer, stringify, p);
            r.uploaded == p.uploaded && r.source == p.source
    decreases |selected|
  {
    if |selected| > 0 {
      var next := Visit(selected[0], dryRun, transfer, stringify, p);
      assert next.source == p.source;
      assert RebuildPlaylistSource(next.source, next.tracks, stringify).Err?;
      UnlocatableFailsAll(selected[1..], dryRun, transfer, stringify, next);
    }
  }

  /** Tracks that are not selected keep their addresses. */
  lemma {:induction false} UnselectedUntouched(selected: seq<Track>, dryRun: bool, transfer: Track -> Result<string, string>,
                                               stringify: string -> string, p: Progress, j: nat)
    requires j < |p.tracks|
    requires forall t :: t in selected ==> t.id != p.tracks[j].id
    ensures MigrateAll(selected, dryRun, transfer, stringify, p).tracks[j] == p.tracks[j]
    decreases |selected|
  {
    if |selected| > 0 {
      var next := Visit(selected[0], dryRun, transfer, stringify, p);
      assert selected[0] in selected;
      assert forall u :: u in selected[1..] ==> u in selected;
      UnselectedUntouched(selected[1..], dryRun, transfer, stringify, next, j);
    }
  }
}

=== FILE: migrate_upload.dfy ===
/** The request side of `scripts/migrate_playlist_to_cloudinary.mjs`: the
    retry loop of `fetchWithRetry` with its status and backoff rules, and the
    canonical string `signCloudinaryParams` hashes. The network is an oracle
    giving the reply to each attempt; the waits are returned rather than
    slept; the SHA-1 digest is not modelled. */
module MigrateUpload {

  import opened Wrappers
  import opened Text
  import MigrateEnv

  // ---------------------------------------------------------------------
  // Retry rules
  // ---------------------------------------------------------------------

  /** `isRetryableStatus`: request timeout, conflict, too many requests and
      every server error. */
  predicate IsRetryableStatus(status: int) {
    status == 408 || status == 409 || status == 429 || status >= 500
  }

  function Pow2(n: nat): (r: nat)
    ensures r >= 1
  {
    if n == 0 then 1 else 2 * Pow2(n - 1)
  }

  /** The wait after failed attempt `attempt` (counted from 1), in
      milliseconds. */
  function Backoff(attempt: nat): (r: int)
    requires attempt >= 1
    ensures r >= 750
  {
    750 * Pow2(attempt - 1)
  }

  /** Each wait doubles the one before. */
  lemma BackoffDoubles(attempt: nat)
    requires attempt >= 1
    ensures Backoff(attempt + 1) == 2 * Backoff(attempt)
  {
  }

  /** What one call of `fetch` gives: a response, or a thrown error with its
      message. `body` is what `response.text()` yields, empty when it
      fails. */
  datatype Reply = Response(status: int, statusText: string, body: string) | Thrown(message: string)

  /** `response.ok`. */
  predicate IsOk(reply: Reply) {
    reply.Response? && 200 <= reply.status <= 299
  }

  /** The error text for a response that is not ok: the context, the status
      and its text, and the first 200 characters of a non-empty body. */
  function Reason(context: string, reply: Reply): (r: string)
    requires reply.Response?
    ensures StartsWith(r, context + " failed with HTTP ")
  {
    var head := context + " failed with HTTP ";
    var tail := IntToString(reply.status) + " " + reply.statusText
                + (if |reply.body| > 0 then " | " + reply.body[..if |reply.body| < 200 then |reply.body| else 200] else "");
    assert (head + tail)[..|head|] == head;
    head + tail
  }

  /** How one attempt ends: the response is returned, the loop gives up with
      an error, or it waits and tries again after recording the error. */
  datatype Verdict = Deliver | GiveUp(message: string) | Again(message: string)

  /** Which loop: the source as written, or with a non-retryable status
      ending the loop as the status check evidently intends. */
  datatype Policy = AsWritten | Corrected

  /** One attempt as the source runs it. The error thrown for a failed
      response (on the last attempt or for a status that is not retryable)
      is thrown inside the `try`, so its own `catch` receives it and retries
      unless this was the last attempt: the status check changes nothing. */
  function AsWrittenVerdict(reply: Reply, context: string, attempt: int, maxRetries: int): (v: Verdict)
    ensures v.Again? ==> attempt < maxRetries
    ensures v.Deliver? <==> IsOk(reply)
  {
    match reply
    case Thrown(m) => if attempt >= maxRetries then GiveUp(m) else Again(m)
    case Response(status, _, _) =>
      if IsOk(reply) then Deliver
      else
        var reason := Reason(context, reply);
        if attempt >= maxRetries || !IsRetryableStatus(status) then
          // thrown, then caught by the surrounding `catch`
          if attempt >= maxRetries then GiveUp(reason) else Again(reason)
        else Again(reason)
  }

  /** One attempt as intended: a response whose status is not retryable
      ends the loop at once. */
  function CorrectedVerdict(reply: Reply, context: string, attempt: int, maxRetries: int): (v: Verdict)
    ensures v.Again? ==> attempt < maxRetries
    ensures v.Deliver? <==> IsOk(reply)
    ensures reply.Response? && !IsOk(reply) && !IsRetryableStatus(reply.status) ==> v == GiveUp(Reason(context, reply))
  {
    match reply
    case Thrown(m) => if attempt >= maxRetries then GiveUp(m) else Again(m)
    case Response(status, _, _) =>
      if IsOk(reply) then Deliver
      else if attempt >= maxRetries || !IsRetryableStatus(status) then GiveUp(Reason(context, reply))
      else Again(Reason(context, reply))
  }

  function VerdictOf(policy: Policy, reply: Reply, context: string, attempt: int, maxRetries: int): (v: Verdict)
    ensures v.Again? ==> attempt < maxRetries
    ensures v.Deliver? <==> IsOk(reply)
  {
    match policy
    case AsWritten => AsWrittenVerdict(reply, context, attempt, maxRetries)
    case Corrected => CorrectedVerdict(reply, context, attempt, maxRetries)
  }

  datatype Outcome = Delivered(reply: Reply) | Failed(message: string)

  /** A run of the loop: how it ended, how many attempts it made and the
      waits between them. */
  datatype Trace = Trace(outcome: Outcome, attempts: nat, waits: seq<int>)

  /** The loop from attempt `attempt` on; `respond(k)` is the reply to
      attempt `k`. Every attempt but the last is followed by its backoff. */
  function RunFrom(policy: Policy, respond: nat -> Reply, context: string, maxRetries: int, attempt: nat): (t: Trace)
    requires 1 <= attempt <= maxRetries
    decreases maxRetries - attempt
    ensures attempt <= t.attempts <= maxRetries
    ensures |t.waits| == t.attempts - attempt
    ensures forall i :: 0 <= i < |t.waits| ==> t.waits[i] == Backoff(attempt + i)
    ensures t.outcome.Delivered? <==> IsOk(respond(t.attempts))
    ensures t.outcome.Delivered? ==> t.outcome.reply == respond(t.attempts)
    ensures forall k :: attempt <= k < t.attempts ==> !IsOk(respond(k))
  {
    var reply := respond(attempt);
    match VerdictOf(policy, reply, context, attempt, maxRetries)
    case Deliver => Trace(Delivered(reply), attempt, [])
    case GiveUp(m) => Trace(Failed(m), attempt, [])
    case Again(_) =>
      var rest := RunFrom(policy, respond, context, maxRetries, attempt + 1);
      Trace(rest.outcome, rest.attempts, [Backoff(attempt)] + rest.waits)
  }

  /** `fetchWithRetry` under a policy. With a budget below one the loop body
      never runs and the error names only the context. */
  function Run(policy: Policy, respond: nat -> Reply, context: string, maxRetries: int): (t: Trace)
    ensures maxRetries < 1 ==> t == Trace(Failed(context + " failed"), 0, [])
    ensures maxRetries >= 1 ==> 1 <= t.attempts <= maxRetries
    ensures t.attempts > 0 ==> |t.waits| == t.attempts - 1
    ensures forall i :: 0 <= i < |t.waits| ==> t.waits[i] == 750 * Pow2(i)
    ensures t.outcome.Delivered? ==> IsOk(t.outcome.reply) && t.outcome.reply == respond(t.attempts)
    ensures forall k :: 1 <= k < t.attempts ==> !IsOk(respond(k))
  {
    if maxRetries < 1 then Trace(Failed(context + " failed"), 0, [])
    else RunFrom(policy, respond, context, maxRetries, 1)
  }

  /** The loop as the source writes it. */
  function FetchWithRetryAsWritten(respond: nat -> Reply, context: string, maxRetries: int): Trace {
    Run(AsWritten, respond, context, maxRetries)
  }

  /** The loop with a non-retryable status ending it. */
  function FetchWithRetry(respond: nat -> Reply, context: string, maxRetries: int): Trace {
    Run(Corrected, respond, context, maxRetries)
  }

  /** The first attempt from `from` on, up to `maxRetries`, whose reply is
      ok. */
  function FirstOk(respond: nat -> Reply, from: nat, maxRetries: int): (r: Option<nat>)
    decreases maxRetries - from
    ensures r.Some? ==> from <= r.value <= maxRetries && IsOk(respond(r.value))
    ensures r.Some? ==> forall k :: from <= k < r.value ==> !IsOk(respond(k))
    ensures r.None? ==> forall k :: from <= k <= maxRetries ==> !IsOk(respond(k))
  {
    if from > maxRetries then None
    else if IsOk(respond(from)) then Some(from)
    else FirstOk(respond, from + 1, maxRetries)
  }

  /** As written, the loop only stops early for a success: it makes
      attempts up to the first ok reply, or all `maxRetries` of them,
      whatever the statuses of the failures. */
  lemma {:induction false} AsWrittenRetriesEverything(respond: nat -> Reply, context: string, maxRetries: int, from: nat)
    requires 1 <= from <= maxRetries
    ensures var t := RunFrom(AsWritten, respond, context, maxRetries, from);
            t.attempts == match FirstOk(respond, from, maxRetries) case Some(k) => k case None => maxRetries
    decreases maxRetries - from
  {
    if !IsOk(respond(from)) && from < maxRetries {
      AsWrittenRetriesEverything(respond, context, maxRetries, from + 1);
    }
  }

  /** A reply the loop reports as a failure with this message. */
  function FailureMessage(context: string, reply: Reply): string {
    match reply
    case Thrown(m) => m
    case Response(_, _, _) => Reason(context, reply)
  }

  /** The correction: a first reply that is a failed response with a status
      that is not retryable ends the loop after that one attempt, with no
      wait, reporting the response. */
  lemma CorrectedStopsAtFinalStatus(respond: nat -> Reply, context: string, maxRetries: int)
    requires maxRetries >= 1
    requires respond(1).Response? && !IsOk(respond(1)) && !IsRetryableStatus(respond(1).status)
    ensures FetchWithRetry(respond, context, maxRetries)
            == Trace(Failed(Reason(context, respond(1))), 1, [])
  {
  }

  /** The correction never makes more attempts than the source does. */
  lemma {:induction false} CorrectedNoLonger(respond: nat -> Reply, context: string, maxRetries: int, from: nat)
    requires 1 <= from <= maxRetries
    ensures RunFrom(Corrected, respond, context, maxRetries, from).attempts
            <= RunFrom(AsWritten, respond, context, maxRetries, from).attempts
    decreases maxRetries - from
  {
    var reply := respond(from);
    if CorrectedVerdict(reply, context, from, maxRetries).Again? {
      assert AsWrittenVerdict(reply, context, from, maxRetries).Again?;
      CorrectedNoLonger(respond, context, maxRetries, from + 1);
    }
  }

  /** Where every failure is retryable the two loops run alike. */
  lemma {:induction false} CorrectedAgreesOnRetryable(respond: nat -> Reply, context: string, maxRetries: int, from: nat)
    requires 1 <= from <= maxRetries
    requires forall k :: from <= k <= maxRetries && respond(k).Response? && !IsOk(respond(k)) ==> IsRetryableStatus(respond(k).status)
    ensures RunFrom(Corrected, respond, context, maxRetries, from) == RunFrom(AsWritten, respond, context, maxRetries, from)
    decreases maxRetries - from
  {
    var reply := respond(from);
    assert CorrectedVerdict(reply, context, from, maxRetries) == AsWrittenVerdict(reply, context, from, maxRetries);
    if from < maxRetries {
      CorrectedAgreesOnRetryable(respond, context, maxRetries, from + 1);
    }
  }

  function NotFound(k: nat): Reply {
    Response(404, "Not Found", "")
  }

  /** A missing file with the default budget of 4: the source makes four
      attempts and waits 750, 1500 and 3000 ms before failing; the
      correction fails after the first. */
  lemma NotFoundRetriedAsWritten()
    ensures FetchWithRetryAsWritten(NotFound, "download t1", 4).attempts == 4
    ensures FetchWithRetryAsWritten(NotFound, "download t1", 4).waits == [750, 1500, 3000]
    ensures FetchWithRetry(NotFound, "download t1", 4).attempts == 1
  {
    var t := FetchWithRetryAsWritten(NotFound, "download t1", 4);
    AsWrittenRetriesEverything(NotFound, "download t1", 4, 1);
    assert FirstOk(NotFound, 1, 4).None?;
    assert t.waits[0] == 750 * Pow2(0);
    assert t.waits[1] == 750 * Pow2(1);
    assert t.waits[2] == 750 * Pow2(2);
    CorrectedStopsAtFinalStatus(NotFound, "download t1", 4);
  }

  /** The loop bound as the source compares it: `attempt <= NaN` is false,
      so a budget that is not a number runs the loop zero times. */
  function LoopBound(budget: MigrateEnv.ParsedInt): (r: int)
    ensures budget.NotANumber? ==> r == 0
    ensures budget.Integer? ==> r == budget.n
  {
    match budget
    case NotANumber => 0
    case Integer(n) => n
  }

  /** `--max-retries=abc`: as written no request is ever sent and every
      download fails with only the context as its message; with the
      corrected budget at least one attempt is made. */
  lemma UnreadableRetriesNeverFetch(respond: nat -> Reply, context: string, envValue: Option<string>,
                                    parseInt: string -> MigrateEnv.ParsedInt)
    ensures var budget := LoopBound(MigrateEnv.MaxRetriesAsWritten(Some(MigrateEnv.NotANumber), envValue, parseInt));
            FetchWithRetryAsWritten(respond, context, budget) == Trace(Failed(context + " failed"), 0, [])
    ensures FetchWithRetry(respond, context, MigrateEnv.MaxRetries(Some(MigrateEnv.NotANumber), envValue, parseInt)).attempts >= 1
  {
  }

  // ---------------------------------------------------------------------
  // Canonical signing string
  // ---------------------------------------------------------------------

  /** One upload parameter; `None` is `undefined` or `null`. */
  datatype Param = Param(key: string, value: Option<string>)

  /** Kept by the filter: defined and non-empty. */
  predicate Kept(p: Param) {
    p.value.Some? && |p.value.value| > 0
  }

  /** The parameters the filter keeps, in their order. */
  function KeptParams(params: seq<Param>): (r: seq<Param>)
    ensures forall i :: 0 <= i < |r| ==> Kept(r[i])
    ensures forall p :: p in r <==> p in params && Kept(p)
    ensures |r| <= |params|
  {
    if |params| == 0 then []
    else
      var rest := KeptParams(params[1..]);
      if Kept(params[0]) then [params[0]] + rest else rest
  }

  /** Strict code-unit order on keys: the order `localeCompare` gives on the
      script's ASCII parameter names. */
  predicate KeyBefore(a: string, b: string) {
    if |a| == 0 then |b| > 0
    else if |b| == 0 then false
    else a[0] < b[0] || (a[0] == b[0] && KeyBefore(a[1..], b[1..]))
  }

  lemma {:induction false} KeyBeforeIrreflexive(a: string)
    ensures !KeyBefore(a, a)
  {
    if |a| > 0 {
      KeyBeforeIrreflexive(a[1..]);
    }
  }

  lemma {:induction false} KeyBeforeTotal(a: string, b: string)
    ensures a == b || KeyBefore(a, b) || KeyBefore(b, a)
  {
    if |a| > 0 && |b| > 0 && a[0] == b[0] {
      KeyBeforeTotal(a[1..], b[1..]);
      if a[1..] == b[1..] {
        assert a == [a[0]] + a[1..] && b == [b[0]] + b[1..];
      }
    }
  }

  lemma {:induction false} KeyBeforeTransitive(a: string, b: string, c: string)
    requires KeyBefore(a, b) && KeyBefore(b, c)
    ensures KeyBefore(a, c)
  {
    if |a| > 0 && a[0] == b[0] && b[0] == c[0] {
      KeyBeforeTransitive(a[1..], b[1..], c[1..]);
    }
  }

  lemma KeyBeforeAsymmetric(a: string, b: string)
    requires KeyBefore(a, b)
    ensures !KeyBefore(b, a)
  {
    if KeyBefore(b, a) {
      KeyBeforeTransitive(a, b, a);
      KeyBeforeIrreflexive(a);
    }
  }

  /** `a` comes no later than `b`. */
  predicate KeyAtMost(a: string, b: string) {
    !KeyBefore(b, a)
  }

  lemma KeyAtMostTransitive(a: string, b: string, c: string)
    requires KeyAtMost(a, b) && KeyAtMost(b, c)
    ensures KeyAtMost(a, c)
  {
    if KeyBefore(c, a) {
      KeyBeforeTotal(a, b);
      if a == b {
      } else if KeyBefore(a, b) {
        KeyBeforeTransitive(c, a, b);
      }
    }
  }

  predicate SortedByKey(s: seq<Param>) {
    forall i, j :: 0 <= i < j < |s| ==> KeyAtMost(s[i].key, s[j].key)
  }

  /** Inserts `p` before the first entry whose key comes after its own. */
  function Insert(p: Param, s: seq<Param>): (r: seq<Param>)
    requires SortedByKey(s)
    ensures SortedByKey(r)
    ensures multiset(r) == multiset(s) + multiset{p}
  {
    if |s| == 0 then [p]
    else if KeyAtMost(p.key, s[0].key) then
      forall j | 0 <= j < |s|
        ensures KeyAtMost(p.key, s[j].key)
      {
        if j > 0 {
          KeyAtMostTransitive(p.key, s[0].key, s[j].key);
        }
      }
      [p] + s
    else
      var rest := Insert(p, s[1..]);
      assert multiset(s) == multiset{s[0]} + multiset(s[1..]) by {
        assert s == [s[0]] + s[1..];
      }
      KeyBeforeTotal(p.key, s[0].key);
      forall j | 0 <= j < |rest|
        ensures KeyAtMost(s[0].key, rest[j].key)
      {
        assert rest[j] in multiset(rest);
        if rest[j] != p {
          assert rest[j] in multiset(s[1..]);
          var k :| 0 <= k < |s[1..]| && s[1..][k] == rest[j];
          assert s[k + 1] == rest[j];
        } else {
          KeyBeforeAsymmetric(s[0].key, p.key);
        }
      }
      [s[0]] + rest
  }

  /** The sort of the signing string, by key; JavaScript's sort is stable,
      and insertion sort keeps equal keys in their order too. */
  function SortByKey(s: seq<Param>): (r: seq<Param>)
    ensures SortedByKey(r)
    ensures multiset(r) == multiset(s)
  {
    if |s| == 0 then []
    else
      assert s == [s[0]] + s[1..];
      Insert(s[0], SortByKey(s[1..]))
  }

  /** `key=value` for a kept parameter. */
  function Pair(p: Param): string
    requires Kept(p)
  {
    p.key + "=" + p.value.value
  }

  /** The entries that make up the canonical string, in order. */
  function CanonicalParams(params: seq<Param>): (r: seq<Param>)
    ensures SortedByKey(r)
    ensures multiset(r) == multiset(KeptParams(params))
    ensures forall i :: 0 <= i < |r| ==> Kept(r[i])
  {
    var r := SortByKey(KeptParams(params));
    forall i | 0 <= i < |r|
      ensures Kept(r[i])
    {
      assert r[i] in multiset(KeptParams(params));
    }
    r
  }

  /** The canonical string `signCloudinaryParams` hashes before the secret:
      the kept parameters sorted by key, as `key=value`, joined by `&`. */
  function Canonical(params: seq<Param>): string {
    var kept := CanonicalParams(params);
    Join(seq(|kept|, i requires 0 <= i < |kept| => Pair(kept[i])), '&')
  }

  /** What is hashed: the canonical string followed by the secret. */
  function SigningInput(params: seq<Param>, apiSecret: string): (r: string)
    ensures EndsWith(r, apiSecret)
  {
    var c := Canonical(params);
    assert (c + apiSecret)[|c|..] == apiSecret;
    c + apiSecret
  }

  /** Every kept parameter, and nothing else, appears in the canonical
      string's entries. */
  lemma CanonicalContents(params: seq<Param>, p: Param)
    ensures p in CanonicalParams(params) <==> p in params && Kept(p)
  {
    var r := CanonicalParams(params);
    assert p in r <==> p in multiset(r);
    assert p in KeptParams(params) <==> p in multiset(KeptParams(params));
  }

  predicate DistinctKeys(s: seq<Param>) {
    forall i, j :: 0 <= i < j < |s| ==> s[i].key != s[j].key
  }

  predicate StrictlySorted(s: seq<Param>) {
    forall i, j :: 0 <= i < j < |s| ==> KeyBefore(s[i].key, s[j].key)
  }

  /** A sorted sequence whose keys all differ is strictly sorted. */
  lemma SortedDistinctIsStrict(s: seq<Param>)
    requires SortedByKey(s) && DistinctKeys(s)
    ensures StrictlySorted(s)
  {
    forall i, j | 0 <= i < j < |s|
      ensures KeyBefore(s[i].key, s[j].key)
    {
      KeyBeforeTotal(s[i].key, s[j].key);
    }
  }

  /** Two strictly sorted sequences with the same elements are equal. */
  lemma {:induction false} StrictlySortedUnique(s: seq<Param>, t: seq<Param>)
    requires StrictlySorted(s) && StrictlySorted(t)
    requires multiset(s) == multiset(t)
    ensures s == t
  {
    assert |s| == |multiset(s)| && |t| == |multiset(t)|;
    if |s| > 0 {
      SameFirst(s, t);
      DropFirst(s);
      DropFirst(t);
      StrictlySortedUnique(s[1..], t[1..]);
      assert s == [s[0]] + s[1..] && t == [t[0]] + t[1..];
    }
  }

  /** Strictly sorted sequences with the same elements start alike. */
  lemma SameFirst(s: seq<Param>, t: seq<Param>)
    requires StrictlySorted(s) && StrictlySorted(t)
    requires multiset(s) == multiset(t) && |s| > 0 && |t| > 0
    ensures s[0] == t[0]
  {
    assert s[0] in multiset(t);
    assert t[0] in multiset(s);
    var k :| 0 <= k < |t| && t[k] == s[0];
    var m :| 0 <= m < |s| && s[m] == t[0];
    if k > 0 && m > 0 {
      KeyBeforeAsymmetric(t[0].key, t[k].key);
    } else if k > 0 {
      KeyBeforeIrreflexive(t[0].key);
    }
  }

  lemma DropFirst(s: seq<Param>)
    requires |s| > 0
    ensures multiset(s[1..]) == multiset(s) - multiset{s[0]}
  {
    assert s == [s[0]] + s[1..];
  }

  /** The signing string does not depend on the order the parameters are
      listed in, when their keys are distinct, as an object's keys are. */
  lemma CanonicalOrderIndependent(params: seq<Param>, other: seq<Param>)
    requires multiset(params) == multiset(other)
    requires DistinctKeys(params)
    ensures Canonical(params) == Canonical(other)
  {
    var r := CanonicalParams(params);
    var s := CanonicalParams(other);
    KeptSameElements(params, other);
    KeptDistinct(params);
    PermutedDistinct(KeptParams(params), r);
    PermutedDistinct(KeptParams(params), s);
    SortedDistinctIsStrict(r);
    SortedDistinctIsStrict(s);
    StrictlySortedUnique(r, s);
  }

  /** Reordered parameters keep the same parameters. */
  lemma KeptSameElements(params: seq<Param>, other: seq<Param>)
    requires multiset(params) == multiset(other)
    ensures multiset(KeptParams(params)) == multiset(KeptParams(other))
  {
    KeptCounts(params);
    KeptCounts(other);
  }

  /** The filter keeps each kept parameter as often as it occurs. */
  lemma {:induction false} KeptCounts(params: seq<Param>)
    ensures forall p :: multiset(KeptParams(params))[p] == if Kept(p) then multiset(params)[p] else 0
  {
    if |params| > 0 {
      KeptCounts(params[1..]);
      assert params == [params[0]] + params[1..];
    }
  }

  /** Filtering keeps keys distinct. */
  lemma {:induction false} KeptDistinct(params: seq<Param>)
    requires DistinctKeys(params)
    ensures DistinctKeys(KeptParams(params))
  {
    if |params| > 0 {
      var rest := params[1..];
      assert DistinctKeys(rest);
      KeptDistinct(rest);
      var r := KeptParams(params);
      if Kept(params[0]) {
        forall j | 0 < j < |r|
          ensures r[0].key != r[j].key
        {
          assert r[j] in KeptParams(rest);
          var k :| 0 <= k < |rest| && rest[k] == r[j];
          assert params[k + 1] == r[j];
        }
      }
    }
  }

  /** Two equal entries at different places count twice. */
  lemma TwiceCounted(s: seq<Param>, i: nat, j: nat)
    requires i < j < |s| && s[i] == s[j]
    ensures multiset(s)[s[i]] >= 2
  {
    assert s == s[..i] + [s[i]] + s[i + 1..j] + [s[j]] + s[j + 1..];
  }

  /** A reordering of a sequence with distinct keys has distinct keys. */
  lemma PermutedDistinct(a: seq<Param>, b: seq<Param>)
    requires DistinctKeys(a) && multiset(a) == multiset(b)
    ensures DistinctKeys(b)
  {
    forall i, j | 0 <= i < j < |b|
      ensures b[i].key != b[j].key
    {
      assert b[i] in multiset(a) && b[j] in multiset(a);
      var x :| 0 <= x < |a| && a[x] == b[i];
      var y :| 0 <= y < |a| && a[y] == b[j];
      if b[i] == b[j] {
        TwiceCounted(b, i, j);
        OccursOnce(a, b[i]);
        assert false;
      } else if x < y {
        assert a[x].key != a[y].key;
      } else if y < x {
        assert a[y].key != a[x].key;
      }
    }
  }

  /** With distinct keys a parameter occurs at most once. */
  lemma {:induction false} OccursOnce(params: seq<Param>, p: Param)
    requires DistinctKeys(params)
    ensures multiset(params)[p] <= 1
  {
    if |params| > 0 {
      var rest := params[1..];
      assert DistinctKeys(rest);
      OccursOnce(rest, p);
      assert params == [params[0]] + rest;
      if params[0] == p {
        assert p !in rest;
      }
    }
  }
}

=== FILE: player_view.dfy ===
/** `src/features/ui/view_player_main.tsx`: the clock labels, the progress
    ratio, the sync target handed to the audio player, and the values the
    main view derives from the snapshot and the two hooks. The markup and
    styling are not modelled; the view is the record of values it renders. */
module PlayerView {

  import opened Wrappers
  import opened Text
  import StreamSync
  import AudioPlayer

  /** JavaScript's `%` for a positive divisor: the remainder takes the sign of
      the dividend. */
  function JsRem(a: int, b: int): (r: int)
    requires b > 0
    ensures a >= 0 ==> 0 <= r < b
    ensures a < 0 ==> -b < r <= 0
  {
    if a >= 0 then a % b else -((-a) % b)
  }

  /** `formatClock`: floored minutes and the remainder seconds, each padded
      to two places with zeros. */
  function FormatClock(totalSeconds: int): string {
    var minutes := totalSeconds / 60;
    var seconds := JsRem(totalSeconds, 60);
    PadStart(IntToString(minutes), 2, '0') + ":" + PadStart(IntToString(seconds), 2, '0')
  }

  ghost predicate AllDigits(s: string) {
    forall i :: 0 <= i < |s| ==> IsDigit(s[i])
  }

  /** Reads a label `m:ss` back: minutes and seconds as decimal digits, the
      seconds below 60. The reference reading of `FormatClock`'s output. */
  function ParseClock(s: string): (r: Option<int>)
    ensures r.Some? ==> r.value >= 0
  {
    var pieces := Split(s, ':');
    if |pieces| == 2 && |pieces[0]| > 0 && |pieces[1]| > 0
       && (forall i :: 0 <= i < |pieces[0]| ==> IsDigit(pieces[0][i]))
       && (forall i :: 0 <= i < |pieces[1]| ==> IsDigit(pieces[1][i]))
       && DigitsValue(pieces[1]) < 60
    then Some(DigitsValue(pieces[0]) * 60 + DigitsValue(pieces[1]))
    else None
  }

  /** A leading zero does not change a digit string's value. */
  lemma {:induction false} LeadingZero(s: string)
    requires AllDigits(s)
    ensures AllDigits(['0'] + s)
    ensures DigitsValue(['0'] + s) == DigitsValue(s)
  {
    if |s| > 0 {
      var t := ['0'] + s;
      assert t[..|t| - 1] == ['0'] + s[..|s| - 1];
      LeadingZero(s[..|s| - 1]);
    }
  }

  lemma ShortNumber(n: nat)
    requires n < 100
    ensures |NatToString(n)| <= 2
  {
  }

  /** A non-negative number padded to two places: digits only, the same
      value, at least two characters, exactly two below 100. */
  lemma {:induction false} PaddedField(n: nat)
    ensures var f := PadStart(NatToString(n), 2, '0');
            && |f| >= 2 && AllDigits(f) && DigitsValue(f) == n
            && (n < 100 ==> |f| == 2)
  {
    var s := NatToString(n);
    NatToStringValue(n);
    if |s| < 2 {
      assert PadStart(s, 2, '0') == ['0'] + s;
      LeadingZero(s);
    }
    if n < 100 {
      ShortNumber(n);
    }
  }

  /** For a non-negative time the label is minutes, a colon and two seconds
      digits; below 100 minutes it is five characters long. */
  lemma FormatClockShape(t: nat)
    ensures var m := PadStart(NatToString(t / 60), 2, '0');
            var s := PadStart(NatToString(t % 60), 2, '0');
            && FormatClock(t) == m + [':'] + s
            && AllDigits(m) && DigitsValue(m) == t / 60
            && AllDigits(s) && |s| == 2 && DigitsValue(s) == t % 60
            && (t < 6000 ==> |FormatClock(t)| == 5)
  {
    PaddedField(t / 60);
    PaddedField(t % 60);
  }

  lemma NoColonInDigits(s: string)
    requires AllDigits(s)
    ensures ':' !in s
  {
  }

  /** Reading a clock label back gives the number of seconds it shows. */
  lemma ClockRoundTrip(t: nat)
    ensures ParseClock(FormatClock(t)) == Some(t)
  {
    FormatClockShape(t);
    var m := PadStart(NatToString(t / 60), 2, '0');
    var s := PadStart(NatToString(t % 60), 2, '0');
    NoColonInDigits(m);
    NoColonInDigits(s);
    SplitPiece(m, s, ':');
    SplitNoSeparator(s, ':');
    assert Split(FormatClock(t), ':') == [m, s];
  }

  /** A negative time keeps JavaScript's signs: -5 seconds shows as
      `-1:-5`. */
  lemma NegativeClock()
    ensures FormatClock(-5) == "-1:-5"
  {
    assert IntToString(-1) == "-1";
    assert IntToString(-5) == "-5";
  }

  function MinR(a: real, b: real): real {
    if a <= b then a else b
  }

  function MaxR(a: real, b: real): real {
    if a >= b then a else b
  }

  /** The progress bar's fill: the offset over the duration, clamped into
      `[0, 1]`, and 0 without a positive duration. */
  function ProgressRatio(offsetSeconds: int, durationSeconds: int): (r: real)
    ensures 0.0 <= r <= 1.0
    ensures durationSeconds <= 0 ==> r == 0.0
    ensures 0 < durationSeconds && offsetSeconds < 0 ==> r == 0.0
    ensures 0 < durationSeconds <= offsetSeconds ==> r == 1.0
  {
    if durationSeconds > 0 then
      MinR(1.0, MaxR(0.0, offsetSeconds as real / durationSeconds as real))
    else 0.0
  }

  /** Inside the track the bar holds exactly the fraction played: the ratio
      times the duration is the offset. */
  lemma RatioFillsOffset(offsetSeconds: int, durationSeconds: int)
    requires 0 < durationSeconds && 0 <= offsetSeconds <= durationSeconds
    ensures ProgressRatio(offsetSeconds, durationSeconds) * durationSeconds as real == offsetSeconds as real
  {
    var d := durationSeconds as real;
    var q := offsetSeconds as real / d;
    assert q * d == offsetSeconds as real;
    assert 0.0 <= q <= 1.0 by {
      assert offsetSeconds as real <= d;
    }
    assert ProgressRatio(offsetSeconds, durationSeconds) == q;
  }

  /** The target handed to the audio player: the active track's identity and
      address and the offset into it, or none without a snapshot. */
  function SyncTargetOf(snapshot: Option<StreamSync.Snapshot>): (r: Option<AudioPlayer.SyncTarget>)
    ensures r.None? <==> snapshot.None?
    ensures r.Some? ==> && r.value.trackId == snapshot.value.activeTrack.id
                        && r.value.srcUrl == snapshot.value.activeTrack.srcUrl
                        && r.value.offsetSeconds == snapshot.value.trackOffsetSeconds as real
  {
    match snapshot
    case None => None
    case Some(s) => Some(AudioPlayer.SyncTarget(s.activeTrack.id, s.activeTrack.srcUrl, s.trackOffsetSeconds as real))
  }

  const AwaitingTitle: string := "Awaiting Sync"
  const PlaceholderLabel: string := "--:--"

  /** What the main view shows. */
  datatype View = View(
    isLive: bool,
    title: string,
    offsetLabel: string,
    durationLabel: string,
    progressRatio: real,
    controlsDisabled: bool,
    discSpinning: bool,
    visualizerActive: bool,
    errorNotice: Option<string>,
    playbackNotice: Option<string>)

  /** A string-or-null rendered under `{x ? ... : null}`: shown when
      non-empty. */
  function Shown(message: Option<string>): (r: Option<string>)
    ensures r.Some? <==> message.Some? && |message.value| > 0
    ensures r.Some? ==> r == message
  {
    if message.Some? && |message.value| > 0 then message else None
  }

  /** `ViewPlayerMain`, given the sync hook's error and snapshot, the audio
      player's state and whether the visualizer is reactive. */
  function RenderPlayerMain(errorMessage: Option<string>, snapshot: Option<StreamSync.Snapshot>,
                            player: AudioPlayer.Player, isReactive: bool): (v: View)
    ensures v.isLive <==> snapshot.Some?
    ensures v.controlsDisabled <==> SyncTargetOf(snapshot).None?
    ensures v.discSpinning <==> player.requested && !player.isBuffering
    ensures v.visualizerActive <==> v.discSpinning && isReactive
    ensures 0.0 <= v.progressRatio <= 1.0
  {
    var offset := if snapshot.Some? then snapshot.value.trackOffsetSeconds else 0;
    var duration := if snapshot.Some? then snapshot.value.activeTrack.durationSeconds else 0;
    var visuallyActive := player.requested && !player.isBuffering;
    View(
      snapshot.Some?,
      if snapshot.Some? then snapshot.value.activeTrack.title else AwaitingTitle,
      if snapshot.Some? then FormatClock(offset) else PlaceholderLabel,
      if snapshot.Some? then FormatClock(duration) else PlaceholderLabel,
      ProgressRatio(offset, duration),
      SyncTargetOf(snapshot).None?,
      visuallyActive,
      visuallyActive && isReactive,
      Shown(errorMessage),
      Shown(player.playbackError))
  }

  /** Before any snapshot the view waits: not live, placeholder labels and
      title, an empty bar and disabled controls. */
  lemma AwaitingView(errorMessage: Option<string>, player: AudioPlayer.Player, isReactive: bool)
    ensures var v := RenderPlayerMain(errorMessage, None, player, isReactive);
            && !v.isLive && v.controlsDisabled
            && v.title == AwaitingTitle
            && v.offsetLabel == PlaceholderLabel && v.durationLabel == PlaceholderLabel
            && v.progressRatio == 0.0
  {
  }

  /** A snapshot whose offset lies inside its track: the view is live,
      names the track, its labels read back as the offset and the duration,
      and the bar holds the fraction played, below 1. */
  lemma SnapshotView(errorMessage: Option<string>, s: StreamSync.Snapshot, player: AudioPlayer.Player, isReactive: bool)
    requires 0 <= s.trackOffsetSeconds < s.activeTrack.durationSeconds
    ensures var v := RenderPlayerMain(errorMessage, Some(s), player, isReactive);
            && v.isLive && !v.controlsDisabled
            && v.title == s.activeTrack.title
            && ParseClock(v.offsetLabel) == Some(s.trackOffsetSeconds)
            && ParseClock(v.durationLabel) == Some(s.activeTrack.durationSeconds)
            && v.progressRatio == ProgressRatio(s.trackOffsetSeconds, s.activeTrack.durationSeconds)
            && v.progressRatio < 1.0
  {
    var v := RenderPlayerMain(errorMessage, Some(s), player, isReactive);
    LabelReadsBack(s.trackOffsetSeconds, v.offsetLabel);
    LabelReadsBack(s.activeTrack.durationSeconds, v.durationLabel);
    RatioBelowOne(s.trackOffsetSeconds, s.activeTrack.durationSeconds);
  }

  lemma LabelReadsBack(t: nat, shown: string)
    requires shown == FormatClock(t)
    ensures ParseClock(shown) == Some(t)
  {
    ClockRoundTrip(t);
  }

  /** An offset inside the track fills the bar less than completely. */
  lemma RatioBelowOne(offset: int, duration: int)
    requires 0 <= offset < duration
    ensures ProgressRatio(offset, duration) < 1.0
  {
    var d := duration as real;
    assert (offset as real) / d < 1.0 by {
      assert (offset as real) < d;
    }
  }

  /** A snapshot resolved from a playlist shows the track on air and sends
      the audio player that track and the offset into it. */
  lemma ResolvedView(errorMessage: Option<string>, start: int, now: int, pl: seq<StreamSync.Track>,
                     player: AudioPlayer.Player, isReactive: bool)
    requires StreamSync.GetStreamSync(start, now, pl).Ok?
    ensures var s := StreamSync.GetStreamSync(start, now, pl).value;
            var v := RenderPlayerMain(errorMessage, Some(s), player, isReactive);
            && v.isLive && v.title == pl[s.trackIndex].title
            && ParseClock(v.offsetLabel) == Some(s.trackOffsetSeconds)
            && ParseClock(v.durationLabel) == Some(pl[s.trackIndex].durationSeconds)
            && v.progressRatio < 1.0
            && SyncTargetOf(Some(s)) == Some(AudioPlayer.SyncTarget(pl[s.trackIndex].id, pl[s.trackIndex].srcUrl,
                                                                     s.trackOffsetSeconds as real))
  {
    StreamSync.ResolveSound(start, now, pl);
    var s := StreamSync.GetStreamSync(start, now, pl).value;
    assert 0 <= s.trackOffsetSeconds < s.activeTrack.durationSeconds;
    SnapshotView(errorMessage, s, player, isReactive);
  }
}

=== FILE: stream_sync.dfy ===
/** The playlist clock resolver of `src/features/stream/get_stream_sync.ts`:
    from a shared broadcast start, the listener's clock and a looping
    playlist, which track is on air and how far into it. Times are integer
    milliseconds, durations integer seconds. */
module StreamSync {

  import opened Wrappers

  /** `TrackMetadata` of `types_stream_models.ts`. */
  datatype Track = Track(id: string, title: string, srcUrl: string, durationSeconds: int)

  /** `StreamSyncSnapshot` of `types_stream_models.ts`. */
  datatype Snapshot = Snapshot(
    activeTrack: Track,
    trackIndex: nat,
    trackOffsetSeconds: int,
    playlistElapsedSeconds: int,
    totalPlaylistDurationSeconds: int,
    broadcastStartMs: int,
    listenerNowMs: int)

  /** The two errors `getStreamSync` throws. */
  datatype SyncError = EmptyPlaylist | NonPositiveDuration(trackId: string)

  /** Where in the playlist a playlist-relative second falls. */
  datatype Position = Position(index: nat, offset: int)

  ghost predicate AllPositive(pl: seq<Track>) {
    forall j :: 0 <= j < |pl| ==> pl[j].durationSeconds > 0
  }

  /** Sum of the durations, as a reference definition. */
  function Sum(pl: seq<Track>): int {
    if |pl| == 0 then 0 else Sum(pl[..|pl| - 1]) + pl[|pl| - 1].durationSeconds
  }

  /** The playlist second at which track `i` starts. */
  function CumStart(pl: seq<Track>, i: nat): int
    requires i <= |pl|
  {
    Sum(pl[..i])
  }

  lemma CumStartStep(pl: seq<Track>, i: nat)
    requires i < |pl|
    ensures CumStart(pl, i + 1) == CumStart(pl, i) + pl[i].durationSeconds
  {
    assert pl[..i + 1][..i] == pl[..i];
  }

  lemma CumStartAll(pl: seq<Track>)
    ensures CumStart(pl, |pl|) == Sum(pl)
  {
    assert pl[..|pl|] == pl;
  }

  /** With positive durations a later track starts no earlier than the end of
      an earlier one. */
  lemma {:induction false} CumStartMonotone(pl: seq<Track>, i: nat, j: nat)
    requires AllPositive(pl)
    requires i < j <= |pl|
    ensures CumStart(pl, i) + pl[i].durationSeconds <= CumStart(pl, j)
    decreases j - i
  {
    CumStartStep(pl, i);
    if j > i + 1 {
      CumStartMonotone(pl, i + 1, j);
    }
  }

  /** The `reduce` of lines 33-39: sums left to right from `acc` and stops at
      the first track whose duration is not positive. */
  function TotalDuration(pl: seq<Track>, i: nat, acc: int): (r: Result<int, SyncError>)
    requires i <= |pl|
    decreases |pl| - i
    ensures r.Ok? <==> forall j :: i <= j < |pl| ==> pl[j].durationSeconds > 0
    ensures r.Ok? ==> r.value == acc + Sum(pl) - CumStart(pl, i)
    ensures r.Err? ==> exists j :: i <= j < |pl| && pl[j].durationSeconds <= 0
                                   && r.error == NonPositiveDuration(pl[j].id)
                                   && forall k :: i <= k < j ==> pl[k].durationSeconds > 0
  {
    if i == |pl| then
      CumStartAll(pl);
      Ok(acc)
    else if pl[i].durationSeconds <= 0 then
      Err(NonPositiveDuration(pl[i].id))
    else
      CumStartStep(pl, i);
      TotalDuration(pl, i + 1, acc + pl[i].durationSeconds)
  }

  /** `normalizePlaylistElapsed`: the representative of `raw` in
      `[0, total)`, or 0 before the broadcast start or for an empty total. */
  function NormalizePlaylistElapsed(raw: int, total: int): (r: int)
    ensures total <= 0 || raw < 0 ==> r == 0
    ensures total > 0 ==> 0 <= r < total
    ensures total > 0 && raw >= 0 ==> r <= raw && (raw - r) % total == 0
  {
    if total <= 0 then 0
    else if raw < 0 then 0
    else
      ModUnique(raw, total, raw / total, raw % total);
      assert raw - raw % total == total * (raw / total);
      ModOfMultiple(raw / total, total);
      raw % total
  }

  /** The cumulative walk of lines 47-66, started at track `index` whose start
      is `cursor`: the first track whose end lies beyond `elapsed`. */
  function Walk(pl: seq<Track>, elapsed: int, index: nat, cursor: int): (r: Option<Position>)
    requires index <= |pl|
    decreases |pl| - index
    ensures r.Some? ==> index <= r.value.index < |pl|
    ensures cursor == CumStart(pl, index) && cursor <= elapsed && r.Some? ==>
              && CumStart(pl, r.value.index) <= elapsed
              && elapsed < CumStart(pl, r.value.index) + pl[r.value.index].durationSeconds
              && r.value.offset == elapsed - CumStart(pl, r.value.index)
    ensures cursor == CumStart(pl, index) && cursor <= elapsed < Sum(pl) ==> r.Some?
  {
    if index == |pl| then
      CumStartAll(pl);
      None
    else
      var trackEnd := cursor + pl[index].durationSeconds;
      if elapsed < trackEnd then Some(Position(index, elapsed - cursor))
      else
        CumStartStep(pl, index);
        Walk(pl, elapsed, index + 1, trackEnd)
  }

  function Max(a: int, b: int): int {
    if a >= b then a else b
  }

  /** The walk from the first track, with the defensive fallback of lines
      68-78 (the last track, one second before its end) when the walk runs off
      the end of the playlist. */
  function Locate(pl: seq<Track>, elapsed: int): (r: Position)
    requires |pl| > 0
    ensures r.index < |pl|
  {
    match Walk(pl, elapsed, 0, 0)
    case Some(p) => p
    case None => Position(|pl| - 1, Max(pl[|pl| - 1].durationSeconds - 1, 0))
  }

  /** `getStreamSync`. */
  function GetStreamSync(broadcastStartMs: int, nowMs: int, pl: seq<Track>): (r: Result<Snapshot, SyncError>)
    ensures |pl| == 0 ==> r == Err(EmptyPlaylist)
    ensures |pl| > 0 ==> (r.Ok? <==> AllPositive(pl))
    ensures |pl| > 0 && r.Err? ==>
              exists j :: 0 <= j < |pl| && pl[j].durationSeconds <= 0
                          && r.error == NonPositiveDuration(pl[j].id)
                          && forall k :: 0 <= k < j ==> pl[k].durationSeconds > 0
    ensures r.Ok? ==> r.value.trackIndex < |pl| && r.value.activeTrack == pl[r.value.trackIndex]
  {
    if |pl| == 0 then Err(EmptyPlaylist)
    else
      match TotalDuration(pl, 0, 0)
      case Err(e) => Err(e)
      case Ok(total) =>
        var raw := (nowMs - broadcastStartMs) / 1000;
        var elapsed := NormalizePlaylistElapsed(raw, total);
        var p := Locate(pl, elapsed);
        Ok(Snapshot(pl[p.index], p.index, p.offset, elapsed, total, broadcastStartMs, nowMs))
  }

  /** What a successful resolve promises: the total is the sum of the
      durations, the elapsed second is the floor of the elapsed milliseconds
      reduced into `[0, total)` (0 before the start), and the chosen track is
      the one whose span contains it, at the offset into that span. */
  ghost predicate Resolved(broadcastStartMs: int, nowMs: int, pl: seq<Track>, s: Snapshot) {
    var raw := (nowMs - broadcastStartMs) / 1000;
    && AllPositive(pl)
    && s.totalPlaylistDurationSeconds == Sum(pl) > 0
    && 0 <= s.playlistElapsedSeconds < s.totalPlaylistDurationSeconds
    && (raw < 0 ==> s.playlistElapsedSeconds == 0)
    && (raw >= 0 ==> s.playlistElapsedSeconds <= raw
                     && (raw - s.playlistElapsedSeconds) % s.totalPlaylistDurationSeconds == 0)
    && s.trackIndex < |pl|
    && s.activeTrack == pl[s.trackIndex]
    && CumStart(pl, s.trackIndex) <= s.playlistElapsedSeconds
    && s.playlistElapsedSeconds < CumStart(pl, s.trackIndex) + s.activeTrack.durationSeconds
    && s.trackOffsetSeconds == s.playlistElapsedSeconds - CumStart(pl, s.trackIndex)
    && 0 <= s.trackOffsetSeconds < s.activeTrack.durationSeconds
    && s.broadcastStartMs == broadcastStartMs
    && s.listenerNowMs == nowMs
  }

  /** Every successful resolve satisfies `Resolved`. */
  lemma ResolveSound(broadcastStartMs: int, nowMs: int, pl: seq<Track>)
    ensures var r := GetStreamSync(broadcastStartMs, nowMs, pl);
            r.Ok? ==> Resolved(broadcastStartMs, nowMs, pl, r.value)
  {
    if |pl| > 0 && AllPositive(pl) {
      assert pl[..0] == [];
      SumPositive(pl);
      assert TotalDuration(pl, 0, 0) == Ok(Sum(pl));
    }
  }

  /** At most one track's span contains a given playlist second, so the
      resolved track is determined by the elapsed second alone. */
  lemma TrackSpanUnique(pl: seq<Track>, e: int, i: nat, j: nat)
    requires AllPositive(pl)
    requires i < |pl| && j < |pl|
    requires CumStart(pl, i) <= e < CumStart(pl, i) + pl[i].durationSeconds
    requires CumStart(pl, j) <= e < CumStart(pl, j) + pl[j].durationSeconds
    ensures i == j
  {
    if i < j {
      CumStartMonotone(pl, i, j);
    } else if j < i {
      CumStartMonotone(pl, j, i);
    }
  }

  /** The defensive fallback after the walk never runs: whenever the
      durations are positive and the elapsed second is inside the playlist,
      the walk finds a track. */
  lemma SumPositive(pl: seq<Track>)
    requires |pl| > 0 && AllPositive(pl)
    ensures Sum(pl) > 0
  {
    assert pl[..0] == [];
    CumStartMonotone(pl, 0, |pl|);
    CumStartAll(pl);
  }

  lemma FallbackUnreachable(pl: seq<Track>, elapsed: int)
    requires AllPositive(pl)
    requires 0 <= elapsed < Sum(pl)
    ensures Walk(pl, elapsed, 0, 0).Some?
  {
    assert pl[..0] == [];
  }

  /** Every listener before the broadcast start hears the first track from
      its beginning, exactly as a listener at the start instant does. */
  lemma BeforeStartIsFirstTrack(broadcastStartMs: int, nowMs: int, pl: seq<Track>)
    requires nowMs < broadcastStartMs
    requires |pl| > 0 && AllPositive(pl)
    ensures var r := GetStreamSync(broadcastStartMs, nowMs, pl);
            && r.Ok?
            && r.value.trackIndex == 0 && r.value.trackOffsetSeconds == 0
            && r.value.playlistElapsedSeconds == 0 && r.value.activeTrack == pl[0]
            && r.value == GetStreamSync(broadcastStartMs, broadcastStartMs, pl).value.(listenerNowMs := nowMs)
  {
    var r := GetStreamSync(broadcastStartMs, nowMs, pl);
    var r0 := GetStreamSync(broadcastStartMs, broadcastStartMs, pl);
    ResolveSound(broadcastStartMs, nowMs, pl);
    ResolveSound(broadcastStartMs, broadcastStartMs, pl);
    assert pl[..0] == [];
    assert r.value.playlistElapsedSeconds == 0;
    assert r0.value.playlistElapsedSeconds == 0;
    CumStartStep(pl, 0);
    TrackSpanUnique(pl, 0, r.value.trackIndex, 0);
    TrackSpanUnique(pl, 0, r0.value.trackIndex, 0);
  }

  lemma {:induction false} MulAtLeast(t: int, n: int)
    requires t > 0 && n > 0
    ensures t * n >= t
  {
    if n > 1 {
      MulAtLeast(t, n - 1);
      assert t * n == t * (n - 1) + t;
    }
  }

  /** Euclidean division is determined by quotient and remainder. */
  lemma ModUnique(x: int, t: int, a: int, b: int)
    requires t > 0
    requires x == t * a + b && 0 <= b < t
    ensures x / t == a && x % t == b
  {
    var q, r := x / t, x % t;
    assert x == t * q + r;
    if a > q {
      MulAtLeast(t, a - q);
      assert false;
    } else if a < q {
      MulAtLeast(t, q - a);
      assert false;
    }
  }

  lemma ModOfMultiple(k: int, t: int)
    requires t > 0
    ensures (t * k) % t == 0
  {
    ModUnique(t * k, t, k, 0);
  }

  /** Shifting the listener's clock by whole playlist loops leaves the floor
      of the elapsed seconds congruent. */
  lemma LoopShift(now: int, start: int, k: nat, total: int)
    requires total > 0 && now >= start
    ensures (now + 1000 * k * total - start) / 1000 == (now - start) / 1000 + k * total
    ensures ((now + 1000 * k * total - start) / 1000) % total == ((now - start) / 1000) % total
  {
    var x := now - start;
    var q := x / 1000;
    ModUnique(x + 1000 * (k * total), 1000, q + k * total, x % 1000);
    assert 1000 * k * total == 1000 * (k * total);
    var raw := q;
    assert raw >= 0;
    ModUnique(raw + k * total, total, raw / total + k, raw % total) by {
      assert raw == total * (raw / total) + raw % total;
      assert total * (raw / total + k) == total * (raw / total) + total * k;
      assert k * total == total * k;
    }
  }

  /** For a listener at or after the start, the elapsed second is the
      floor of the elapsed milliseconds reduced by `normalizePlaylistElapsed`. */
  lemma ElapsedIsNormalized(broadcastStartMs: int, nowMs: int, pl: seq<Track>)
    requires |pl| > 0 && AllPositive(pl)
    ensures GetStreamSync(broadcastStartMs, nowMs, pl).Ok?
    ensures GetStreamSync(broadcastStartMs, nowMs, pl).value.playlistElapsedSeconds
            == NormalizePlaylistElapsed((nowMs - broadcastStartMs) / 1000, Sum(pl))
  {
    assert pl[..0] == [];
    assert TotalDuration(pl, 0, 0) == Ok(Sum(pl));
  }

  /** The broadcast loops: `k` whole playlists later the same track plays
      at the same offset. */
  lemma Looping(broadcastStartMs: int, nowMs: int, pl: seq<Track>, k: nat)
    requires nowMs >= broadcastStartMs
    requires |pl| > 0 && AllPositive(pl)
    ensures var a := GetStreamSync(broadcastStartMs, nowMs, pl);
            var b := GetStreamSync(broadcastStartMs, nowMs + 1000 * k * Sum(pl), pl);
            && a.Ok? && b.Ok?
            && b.value.trackIndex == a.value.trackIndex
            && b.value.activeTrack == a.value.activeTrack
            && b.value.trackOffsetSeconds == a.value.trackOffsetSeconds
            && b.value.playlistElapsedSeconds == a.value.playlistElapsedSeconds
  {
    var total := Sum(pl);
    SumPositive(pl);
    var later := nowMs + 1000 * k * total;
    LoopShift(nowMs, broadcastStartMs, k, total);
    var raw := (nowMs - broadcastStartMs) / 1000;
    var raw2 := (later - broadcastStartMs) / 1000;
    assert raw >= 0;
    assert raw2 >= 0 by {
      MulNonNegative(k, total);
    }
    assert NormalizePlaylistElapsed(raw, total) == NormalizePlaylistElapsed(raw2, total);
    ElapsedIsNormalized(broadcastStartMs, nowMs, pl);
    ElapsedIsNormalized(broadcastStartMs, later, pl);
    ResolveSound(broadcastStartMs, nowMs, pl);
    ResolveSound(broadcastStartMs, later, pl);
    var a := GetStreamSync(broadcastStartMs, nowMs, pl).value;
    var b := GetStreamSync(broadcastStartMs, later, pl).value;
    TrackSpanUnique(pl, a.playlistElapsedSeconds, a.trackIndex, b.trackIndex);
  }

  lemma MulNonNegative(k: nat, t: int)
    requires t > 0
    ensures k * t >= 0
  {
    if k > 0 {
      MulAtLeast(t, k);
      assert t * k == k * t;
    }
  }

  /** The two-track example: ten then twenty seconds, broadcast from 0. */
  function ExamplePlaylist(): seq<Track> {
    [Track("a", "A", "a.mp3", 10), Track("b", "B", "b.mp3", 20)]
  }

  lemma ExampleMidSecondTrack()
    ensures var r := GetStreamSync(0, 15000, ExamplePlaylist());
            r.Ok? && r.value.activeTrack.id == "b" && r.value.trackOffsetSeconds == 5
            && r.value.playlistElapsedSeconds == 15 && r.value.totalPlaylistDurationSeconds == 30
  {
    var pl := ExamplePlaylist();
    assert TotalDuration(pl, 1, 10) == Ok(30);
    assert TotalDuration(pl, 0, 0) == Ok(30);
    assert NormalizePlaylistElapsed(15, 30) == 15;
    assert Walk(pl, 15, 1, 10) == Some(Position(1, 5));
    assert Walk(pl, 15, 0, 0) == Some(Position(1, 5));
  }

  lemma ExampleWrapsAround()
    ensures var r := GetStreamSync(0, 35000, ExamplePlaylist());
            r.Ok? && r.value.activeTrack.id == "a" && r.value.trackOffsetSeconds == 5
            && r.value.playlistElapsedSeconds == 5
  {
    var pl := ExamplePlaylist();
    assert TotalDuration(pl, 1, 10) == Ok(30);
    assert TotalDuration(pl, 0, 0) == Ok(30);
    assert NormalizePlaylistElapsed(35, 30) == 5;
    assert Walk(pl, 5, 0, 0) == Some(Position(0, 5));
  }
}

=== FILE: text.dfy ===
/** The JavaScript string operations the source relies on, over `seq<char>`
    (one `char` per UTF-16 code unit): `trim`, `toLowerCase`, `startsWith`,
    `endsWith`, `indexOf`, `lastIndexOf`, `includes`, `split`/`join` on a
    single-character separator and the decimal rendering of an integer. */
module Text {

  import opened Wrappers

  /** The characters `String.prototype.trim` removes: the ECMAScript
      WhiteSpace and LineTerminator code points. */
  predicate IsSpace(c: char) {
    || c == ' ' || c == '\t' || c == '\n' || c == '\r'
    || c == '\U{000B}' || c == '\U{000C}' || c == '\U{00A0}' || c == '\U{FEFF}'
    || c == '\U{1680}' || ('\U{2000}' <= c <= '\U{200A}')
    || c == '\U{2028}' || c == '\U{2029}' || c == '\U{202F}' || c == '\U{205F}'
    || c == '\U{3000}'
  }

  ghost predicate AllSpace(s: string) {
    forall i :: 0 <= i < |s| ==> IsSpace(s[i])
  }

  /** `trimStart`: drops the leading whitespace and nothing else. */
  function TrimStart(s: string): (r: string)
    ensures |r| <= |s| && r == s[|s| - |r|..]
    ensures AllSpace(s[..|s| - |r|])
    ensures |r| > 0 ==> !IsSpace(r[0])
  {
    if |s| > 0 && IsSpace(s[0]) then TrimStart(s[1..]) else s
  }

  /** `trimEnd`: drops the trailing whitespace and nothing else. */
  function TrimEnd(s: string): (r: string)
    ensures |r| <= |s| && r == s[..|r|]
    ensures AllSpace(s[|r|..])
    ensures |r| > 0 ==> !IsSpace(r[|r| - 1])
  {
    if |s| > 0 && IsSpace(s[|s| - 1]) then TrimEnd(s[..|s| - 1]) else s
  }

  /** `trim`: the result is the slice `s[a..a+|r|]` that starts and ends with
      a non-space, and everything cut away on either side is whitespace. */
  function Trim(s: string): (r: string)
    ensures |r| <= |s|
    ensures |r| > 0 ==> !IsSpace(r[0]) && !IsSpace(r[|r| - 1])
    ensures exists a :: 0 <= a <= |s| - |r| && r == s[a..a + |r|]
                        && AllSpace(s[..a]) && AllSpace(s[a + |r|..])
  {
    var t := TrimStart(s);
    var r := TrimEnd(t);
    var a := |s| - |t|;
    assert t == s[a..];
    assert r == s[a..a + |r|];
    assert s[a + |r|..] == t[|r|..];
    assert AllSpace(s[..a]) && AllSpace(s[a + |r|..]);
    r
  }

  /** A string that has no whitespace at either end is its own trim. */
  lemma TrimOfTrimmed(s: string)
    requires |s| > 0 ==> !IsSpace(s[0]) && !IsSpace(s[|s| - 1])
    ensures Trim(s) == s
  {
    if |s| > 0 {
      assert s == [] + s + [];
      TrimOf(s, [], s, []);
    }
  }

  /** A string made of whitespace only trims to the empty string. */
  lemma TrimAllSpace(s: string)
    requires AllSpace(s)
    ensures Trim(s) == []
  {
  }

  /** Leading whitespace before a non-space is exactly what `trimStart`
      removes. */
  lemma {:induction false} TrimStartOf(a: string, t: string)
    requires AllSpace(a) && |t| > 0 && !IsSpace(t[0])
    ensures TrimStart(a + t) == t
  {
    if |a| == 0 {
      assert a + t == t;
    } else {
      assert (a + t)[0] == a[0];
      assert (a + t)[1..] == a[1..] + t;
      TrimStartOf(a[1..], t);
    }
  }

  /** Trailing whitespace after a non-space is exactly what `trimEnd`
      removes. */
  lemma {:induction false} TrimEndOf(t: string, b: string)
    requires AllSpace(b) && |t| > 0 && !IsSpace(t[|t| - 1])
    ensures TrimEnd(t + b) == t
  {
    if |b| == 0 {
      assert t + b == t;
    } else {
      var u := t + b;
      assert u[|u| - 1] == b[|b| - 1];
      assert u[..|u| - 1] == t + b[..|b| - 1];
      TrimEndOf(t, b[..|b| - 1]);
    }
  }

  /** Whitespace around a word that starts and ends with a non-space is
      exactly what `trim` removes. */
  lemma TrimOf(s: string, a: string, w: string, b: string)
    requires s == a + w + b
    requires AllSpace(a) && AllSpace(b)
    requires |w| > 0 && !IsSpace(w[0]) && !IsSpace(w[|w| - 1])
    ensures Trim(s) == w
  {
    assert s == a + (w + b);
    TrimStartOf(a, w + b);
    TrimEndOf(w, b);
  }

  /** `toLowerCase` restricted to the ASCII letters. */
  function LowerChar(c: char): char {
    if 'A' <= c <= 'Z' then (c as int + 32) as char else c
  }

  function ToLower(s: string): (r: string)
    ensures |r| == |s|
    ensures forall i :: 0 <= i < |s| ==> r[i] == LowerChar(s[i])
  {
    seq(|s|, i requires 0 <= i < |s| => LowerChar(s[i]))
  }

  predicate StartsWith(s: string, p: string) {
    |p| <= |s| && s[..|p|] == p
  }

  predicate EndsWith(s: string, p: string) {
    |p| <= |s| && s[|s| - |p|..] == p
  }

  /** `p` occurs in `s` starting at position `i`. */
  predicate OccursAt(s: string, p: string, i: int) {
    0 <= i && i + |p| <= |s| && s[i..i + |p|] == p
  }

  /** `s.indexOf(p, from)`: the first occurrence at or after `from`. */
  function IndexOfFrom(s: string, p: string, from: nat): (r: Option<nat>)
    decreases |s| - from
    ensures r.Some? ==> from <= r.value && OccursAt(s, p, r.value)
    ensures r.Some? ==> forall j :: from <= j < r.value ==> !OccursAt(s, p, j)
    ensures r.None? ==> forall j :: from <= j ==> !OccursAt(s, p, j)
  {
    if from + |p| > |s| then None
    else if s[from..from + |p|] == p then Some(from)
    else IndexOfFrom(s, p, from + 1)
  }

  function IndexOf(s: string, p: string): Option<nat> {
    IndexOfFrom(s, p, 0)
  }

  /** The last occurrence of `p` at or before position `i`. */
  function LastIndexUpTo(s: string, p: string, i: int): (r: Option<nat>)
    decreases i
    ensures r.Some? ==> r.value <= i && OccursAt(s, p, r.value)
    ensures r.Some? ==> forall j :: r.value < j <= i ==> !OccursAt(s, p, j)
    ensures r.None? ==> forall j :: j <= i ==> !OccursAt(s, p, j)
  {
    if i < 0 then None
    else if OccursAt(s, p, i) then Some(i)
    else LastIndexUpTo(s, p, i - 1)
  }

  /** `s.lastIndexOf(p)`: no occurrence of `p` starts after the result. */
  function LastIndexOf(s: string, p: string): (r: Option<nat>)
    ensures r.Some? ==> OccursAt(s, p, r.value)
    ensures r.Some? ==> forall j :: r.value < j ==> !OccursAt(s, p, j)
    ensures r.None? ==> forall j :: !OccursAt(s, p, j)
  {
    LastIndexUpTo(s, p, |s| - |p|)
  }

  /** `s.includes(p)`. */
  predicate Contains(s: string, p: string) {
    IndexOf(s, p).Some?
  }

  lemma ContainsIffOccurs(s: string, p: string, i: int)
    requires OccursAt(s, p, i)
    ensures Contains(s, p)
  {
  }

  /** The first occurrence is where `indexOf` finds it. */
  lemma IndexOfIs(s: string, p: string, i: nat)
    requires OccursAt(s, p, i)
    requires forall j :: 0 <= j < i ==> !OccursAt(s, p, j)
    ensures IndexOf(s, p) == Some(i)
  {
  }

  /** The last occurrence is where `lastIndexOf` finds it. */
  lemma LastIndexOfIs(s: string, p: string, i: nat)
    requires OccursAt(s, p, i)
    requires forall j :: i < j ==> !OccursAt(s, p, j)
    ensures LastIndexOf(s, p) == Some(i)
  {
  }

  /** An occurrence that ends inside the left part is one of the left part. */
  lemma OccursInLeft(x: string, y: string, p: string, j: int)
    requires 0 <= j && j + |p| <= |x|
    ensures OccursAt(x + y, p, j) <==> OccursAt(x, p, j)
  {
    assert (x + y)[j..j + |p|] == x[j..j + |p|];
  }

  /** An occurrence that starts inside the right part is one of the right
      part, shifted. */
  lemma OccursInRight(x: string, y: string, p: string, k: int)
    requires 0 <= k
    ensures OccursAt(x + y, p, |x| + k) <==> OccursAt(y, p, k)
  {
    if k + |p| <= |y| {
      assert (x + y)[|x| + k..|x| + k + |p|] == y[k..k + |p|];
    }
  }

  /** `s.split(d)` for a one-character separator `d`: at least one piece, and
      no piece contains the separator. */
  function Split(s: string, d: char): (r: seq<string>)
    ensures |r| >= 1
    ensures forall k :: 0 <= k < |r| ==> d !in r[k]
  {
    if |s| == 0 then [[]]
    else
      var rest := Split(s[1..], d);
      if s[0] == d then [[]] + rest
      else [[s[0]] + rest[0]] + rest[1..]
  }

  /** `parts.join(d)`. */
  function Join(parts: seq<string>, d: char): string {
    if |parts| == 0 then []
    else if |parts| == 1 then parts[0]
    else parts[0] + [d] + Join(parts[1..], d)
  }

  /** Splitting and joining again gives back the original string. */
  lemma {:induction false} JoinSplit(s: string, d: char)
    ensures Join(Split(s, d), d) == s
  {
    if |s| > 0 {
      JoinSplit(s[1..], d);
      var rest := Split(s[1..], d);
      if s[0] != d {
        if |rest| == 1 {
          assert Join(Split(s, d), d) == [s[0]] + rest[0];
        } else {
          assert Join(Split(s, d), d) == [s[0]] + rest[0] + [d] + Join(rest[1..], d);
          assert Join(rest, d) == rest[0] + [d] + Join(rest[1..], d);
        }
        assert s == [s[0]] + s[1..];
      }
    }
  }

  /** A separator-free piece is split off whole. */
  lemma {:induction false} SplitPiece(p: string, rest: string, d: char)
    requires d !in p
    ensures Split(p + [d] + rest, d) == [p] + Split(rest, d)
  {
    if |p| > 0 {
      SplitPiece(p[1..], rest, d);
      assert (p + [d] + rest)[1..] == p[1..] + [d] + rest;
      assert [p[0]] + p[1..] == p;
    } else {
      assert p + [d] + rest == [d] + rest;
    }
  }

  lemma {:induction false} SplitNoSeparator(p: string, d: char)
    requires d !in p
    ensures Split(p, d) == [p]
  {
    if |p| > 0 {
      SplitNoSeparator(p[1..], d);
      assert [p[0]] + p[1..] == p;
    }
  }

  /** Joining separator-free pieces and splitting again gives back the pieces. */
  lemma {:induction false} SplitJoin(parts: seq<string>, d: char)
    requires |parts| >= 1
    requires forall k :: 0 <= k < |parts| ==> d !in parts[k]
    ensures Split(Join(parts, d), d) == parts
  {
    if |parts| == 1 {
      SplitNoSeparator(parts[0], d);
    } else {
      SplitJoin(parts[1..], d);
      SplitPiece(parts[0], Join(parts[1..], d), d);
      assert [parts[0]] + parts[1..] == parts;
    }
  }

  predicate IsDigit(c: char) {
    '0' <= c <= '9'
  }

  function DigitChar(k: nat): (c: char)
    requires k < 10
    ensures IsDigit(c)
  {
    ('0' as int + k) as char
  }

  function DigitValue(c: char): nat
    requires IsDigit(c)
  {
    c as int - '0' as int
  }

  /** The value of a string of decimal digits. */
  function DigitsValue(s: string): nat
    requires forall i :: 0 <= i < |s| ==> IsDigit(s[i])
  {
    if |s| == 0 then 0 else DigitsValue(s[..|s| - 1]) * 10 + DigitValue(s[|s| - 1])
  }

  /** `n.toString()` for a non-negative integer: shortest decimal digits. */
  function NatToString(n: nat): (r: string)
    ensures |r| >= 1
    ensures forall i :: 0 <= i < |r| ==> IsDigit(r[i])
    ensures n >= 10 <==> |r| >= 2
  {
    if n < 10 then [DigitChar(n)] else NatToString(n / 10) + [DigitChar(n % 10)]
  }

  /** Reading the rendered digits back gives the number. */
  lemma {:induction false} NatToStringValue(n: nat)
    ensures DigitsValue(NatToString(n)) == n
  {
    if n >= 10 {
      NatToStringValue(n / 10);
      var r := NatToString(n);
      assert r[..|r| - 1] == NatToString(n / 10);
    }
  }

  /** Two-digit numbers render as their tens and units digits. */
  lemma TwoDigits(n: nat)
    requires 10 <= n < 100
    ensures NatToString(n) == [DigitChar(n / 10), DigitChar(n % 10)]
  {
  }

  /** `n.toString()` for any integer: a minus sign before the magnitude. */
  function IntToString(n: int): (r: string)
    ensures n >= 0 ==> r == NatToString(n)
    ensures n < 0 ==> r == ['-'] + NatToString(-n)
  {
    if n < 0 then ['-'] + NatToString(-n) else NatToString(n)
  }

  /** `s.padStart(w, c)`. */
  function PadStart(s: string, w: nat, c: char): (r: string)
    ensures |s| >= w ==> r == s
    ensures |s| < w ==> |r| == w && r[w - |s|..] == s
    ensures forall i :: 0 <= i < |r| - |s| ==> r[i] == c
  {
    if |s| >= w then s else seq(w - |s|, _ => c) + s
  }
}

=== FILE: wrappers.dfy ===
/** Small failure-carrying datatypes shared by every module of the model.
    `Option` stands for the source's `null`/`undefined`, `Result` for a value
    or a thrown `Error`. */
module Wrappers {

  datatype Option<+T> = None | Some(value: T) {
    function GetOr(default: T): T {
      if Some? then value else default
    }
  }

  datatype Result<+T, +E> = Ok(value: T) | Err(error: E)
}
